=== FILE: README.md ===
# A verified model of the simulation engine, layout file and view arithmetic

This project models the core of a small discrete-event simulator built on
Petri-net style places and events, together with the arithmetic and text
formats of its on-screen visualisation:

- **Binding enumeration** (`Net`): the tokens of an event's incoming places
  are combined as `itertools.product` combines them, each combination is
  timed by its latest token and, when the event has a guard, filtered by it.
- **Priority scheduling** (`Priority`): `increment_priority`, the action
  counting of token values (`count_actions`, `counter`) and the scheduler
  that keeps the bindings with the highest count and picks one at random.
- **The engine** (`Engine`): `bindings` (the clock jump to the smallest
  non-zero earliest enabling time, then the ready bindings), `step` and
  `simulate`.
- **The layout file** (`Text`, `Layout`): the text `save_layout` writes and
  the way `__load_layout` reads it back, modelled down to Python's `strip`,
  `split`, line reading, `int` and `float` on that text.
- **View arithmetic** (`View`): the zoom actions with their clamp and
  `fit_to_screen`.
- **Edge endpoints** (`Edges`): how a neighbour of a drawn element is traced
  to the node its edge is attached to.
- **Timing smoothing** (`Timing`): `mean` and `rolling_mean`.

Randomness is an explicit draw (`pick`, or a sequence `draws` in
`Simulate`): the scheduler takes the eligible binding at
`pick % |eligible|`. The effect of firing a binding (simpn's `fire`) is a
function the caller supplies; it sees the state and the binding and returns
the new markings. Token values are a small datatype (`Values.Value`) of
strings, integers, tuples and values the model does not look into.
Coordinates, zoom levels and times are exact reals.

### Where the documented behaviour and the code differ

The docstring of `bindings` (util.py:200) says the clock is updated only
when no timed binding is enabled at the current clock, and then to the
earliest time at which one is. The code behaves differently. `bindings`
(util.py:220-234) gives an event with an empty incoming place
an enabling time of 0. It also leaves every event whose enabling time is 0
out of the minimum it jumps to. So when one event is ready with tokens at
time 0 and another becomes ready only later, the clock jumps to the later
time although the time-0 binding was already ready. The model follows the
code:

- `Engine.ClockJumpsPastReadyTimeZeroBinding` shows such a jump on a
  concrete net.
- `Engine.AdvanceOnlyPastTimeZeroEvents` proves that this is the only way
  the clock jumps past a ready binding.

## Model

| member | source | states |
|---|---|---|
| Values.Contains | util.py:68-71 | Python's `name in x`: substring test on a string, element test on a tuple, and an error (None) for any other value |
| Net.Product | util.py:136-141 | every combination holds exactly one choice per incoming place |
| Net.ProductMembers | util.py:136-141 | a choice sequence is in the product if and only if it takes, place by place in incoming order, one token from that place's marking |
| Net.ProductLength | util.py:136-141 | the number of combinations is the product of the marking sizes |
| Net.ProductOrder | util.py:136-141 | `itertools.product` order: combination number i times the count of the remaining combinations plus j is token i of the first place followed by combination j of the remaining places (the last place varies fastest) |
| Net.LatestTime | util.py:143-151 | the binding time is the latest token time of the combination: no token is later, and some token has exactly that time |
| Net.Timed | util.py:143-160 | each combination keeps its position and is paired with its latest token time |
| Net.Guarded | util.py:162-169 | exactly the candidates the guard accepts survive; a single candidate survives alone exactly when the guard accepts its values, and with `Net.GuardedAppend` the survivors keep their order and repeats |
| Net.GuardedAppend | util.py:162-169 | filtering a concatenation filters each part in turn, so the filter keeps order and repeats |
| Net.EventBindings | util.py:118-194 | an event without incoming places raises; otherwise a candidate is returned if and only if it takes one token per incoming place, is timed by its latest token and passes the guard; the result is the timed product in product order, filtered by the guard when there is one |
| Net.EmptyPlaceDisablesEvent | util.py:136-160 | one empty incoming place leaves the event without bindings |
| Net.CandidateNotBeforeFirstTokens | util.py:143-151 | in time-sorted markings every binding is no earlier than the first token of each of its incoming places |
| Net.DocumentedExample | util.py:125-127 | the documented example: 1@2 on a, 2@3 and 3@1 on b give (1@2, 2@3) at 3 and (1@2, 3@1) at 2, in that order |
| Priority.IncrementPriority | util.py:25-33 | a pair's count is raised by one, a one-element value gets count 1, and the values Python would raise on give None |
| Priority.CountActions | util.py:53-73 | values that are not tuples of two or more count 0; a flat tuple of any length above one raises exactly when `name in` its first item raises or the name occurs there and the second item is no number, and otherwise counts that second item when the name occurs in the first and 0 when not |
| Priority.NestedScoreRaises | util.py:64-69 | a nested tuple raises exactly when one of its tuple items is empty, has a first item `name in` cannot search, or matches the name without a numeric count; items that are not tuples never raise |
| Priority.NestedScoreIsAdditive | util.py:58-69 | for tuples of pairs, the count of a concatenation is the sum of the counts |
| Priority.NestedScoreIgnoresFlatItems | util.py:64-67 | items that are not tuples do not change the count of a nested tuple |
| Priority.NestedPairsScore | util.py:58-69 | a tuple of two or more (name, count) pairs counts the sum of the counts whose names hold the start name |
| Priority.PairBesideFlatItem | util.py:58-69 | a pair next to a value that is not a tuple makes the tuple nested, so only that pair counts |
| Priority.Score | util.py:75-79 | a binding with no chosen token has no count, as indexing its first pair raises |
| Priority.ScoreFirstTokenOnly | util.py:75-79 | a binding's count is the count of its first chosen token's value alone: bindings whose first tokens carry the same value count the same |
| Priority.IncrementRaisesScore | util.py:25-33 | incrementing a matching pair raises its count by exactly one; a non-matching pair stays at 0 |
| Priority.TopScore | util.py:94-95 | the top count is the count of some binding and no binding counts more |
| Priority.Eligible | util.py:93-104 | with top count 0 every binding is eligible; otherwise exactly the bindings with the top count are, kept in input order with repeats (the stable descending sort cut at the first lower count), and there is always at least one |
| Priority.WithScoreAppend | util.py:93-104 | keeping the bindings of a given count distributes over concatenation, so with the one-binding case it keeps input order and every repeat, which weights the random choice |
| Priority.Schedule | util.py:46-107 | a single binding is returned as is; otherwise the result is one of the bindings, carries the top count when that is not 0, and scoring fails exactly when some count is undefined |
| Priority.EveryEligibleBindingCanBeChosen | util.py:97-105 | every eligible binding is chosen for some draw |
| Priority.ScheduleDraws | util.py:105 | the draw picks the eligible binding at its position modulo the number eligible |
| Priority.LowerScoreNeverChosen | util.py:100-105 | when the top count is not 0, a binding with a lower count is never chosen |
| Priority.HigherCountWins | util.py:53-105 | of any two bindings whose first tokens are (case, count) pairs, when the first case names the start action with a positive count above the other's count, the first binding is chosen whatever the draw |
| Priority.LoadedCasesExample | util.py:53-105 | the case "Intervention Loaded1" counted 3 times wins against "Intervention Loaded2" counted once, for every draw |
| Engine.LatestFirst | util.py:213-224 | the enabling time of an event is the latest of the first tokens of its incoming places |
| Engine.EarliestTime | util.py:209-225 | an event with no incoming place or an empty one gets 0; otherwise its time is the latest of the first-token times of its incoming places |
| Engine.LeastNonZeroIsLeast | util.py:224-234 | the running minimum that skips zero times exists exactly when some later time is non-zero, is one of those times, and is no greater than any of them |
| Engine.LeastNonZero | util.py:227-234 | a minimum found is one of the non-zero times at or after the start position |
| Engine.MinEnablingTime | util.py:203-234 | the minimum exists exactly when some event with all places marked has a non-zero enabling time, and it is the least such time |
| Engine.NextClock | util.py:236-239 | the clock never goes back; it moves only to the least contributing enabling time, and it does move there whenever that time is later than the clock |
| Engine.ReadyOf | util.py:246-248 | a binding of an event is ready exactly when it is one of the event's candidates and its time is not after the clock; a single candidate gives its binding exactly when its time is not after the clock |
| Engine.ReadyOfAppend | util.py:246-248 | the ready bindings of a concatenation of candidates are those of each part in turn, so order and repeats are kept |
| Engine.Collect | util.py:242-248 | collecting raises exactly when evaluating some event raises; otherwise it returns exactly the offered bindings (order and repeats by `Engine.CollectSorted` and `Engine.CollectBlocks`) |
| Engine.Bindings | util.py:196-250 | the new clock is the advanced clock, and a binding is returned exactly when it is offered at that clock |
| Engine.OfEvent | util.py:243-248 | a binding is kept exactly when it is in the list and belongs to the given event |
| Engine.CollectSorted | util.py:243-248 | collected bindings come in order of their events |
| Engine.CollectBlocks | util.py:243-248 | the bindings of each event that is not skipped are exactly that event's ready candidates, in candidate order |
| Engine.BindingsOrder | util.py:242-250 | the result of `bindings` lists events in order, and for each event not skipped its ready bindings in product order, repeats included |
| Engine.EarliestTimeBoundsCandidates | util.py:213-225 | in sorted markings no binding of an event is earlier than the event's enabling time |
| Engine.ReadyIsComplete | util.py:242-250 | the ready bindings are exactly the candidates of all events whose time is not after the new clock |
| Engine.AdvanceOnlyPastTimeZeroEvents | util.py:220-239 | if the clock jumps while a binding of some event is ready at the old clock, that event's enabling time is 0 |
| Engine.ClockJumpsPastReadyTimeZeroBinding | util.py:220-239 | a concrete net where the clock jumps from 0 to 5 although a binding at time 0 was ready |
| Engine.EventsWithPlacesNeverRaise | util.py:131-133 | when every event has an incoming place, `bindings` never raises |
| Engine.BindingsIdempotent | util.py:236-250 | evaluating `bindings` again at the clock it set changes neither the clock nor the result |
| Engine.Choose | util.py:115 | the default policy takes the first binding; the priority policy is the scheduler on the same bindings and draw; every policy returns one of the bindings |
| Engine.Step | util.py:252-273 | a step fails exactly when `bindings` raises or the policy fails on a non-empty list; it fires nothing exactly when no binding is ready, and then leaves the markings alone; otherwise it fires what the policy chooses from the ready bindings, at the new clock, and the markings are what firing it gives |
| Engine.Simulate | util.py:275-298 | the run stops past the horizon, at quiescence (no ready binding) or when the draws run out; it fails only within the horizon with a draw left; the clock never goes back and no more bindings fire than there are draws |
| Engine.SimulateReplaysSteps | util.py:283-297 | each firing of a run is what `step` fires from the state the previous firings left, at the clock of that step |
| Engine.SimulateEnds | util.py:283-297 | a run past the horizon or out of draws ends exactly in the state its firings reached; a quiescent run ends in the state left by one more step, taken within the horizon, that fires nothing |
| Engine.SimulateFails | util.py:283-297 | a run raises only when a step raises: after the firings before it, within the horizon and with a draw left, the next step raises that same error |
| Engine.FirstBindingNeverFails | util.py:275-298 | with the default policy (take the first binding) and every event having an incoming place, a run never fails |
| Engine.SimulateFiringsOrdered | util.py:283-297 | the firings of a run happen at non-decreasing clocks between the start and the final clock, each binding's time is not after its firing clock, and every firing but the last is within the horizon |
| Text.Strip | visualisation.py:420 | neither end of the stripped text is whitespace |
| Text.StripSlice | visualisation.py:420 | the stripped text is a slice of the text with only whitespace before and after it |
| Text.StripKeeps | visualisation.py:420-427 | stripping removes trailing whitespace and nothing of a text whose ends are not whitespace |
| Text.Split | visualisation.py:423-427 | splitting on commas gives at least one piece and no piece holds a comma |
| Text.JoinSplit | visualisation.py:423-427 | joining the pieces with commas gives the text back |
| Text.SplitJoin | visualisation.py:423-427 | splitting pieces joined with commas gives the pieces back when none holds a comma |
| Text.Universal | visualisation.py:419 | reading in text mode leaves no carriage return |
| Text.UniversalKeepsPlain | visualisation.py:419 | text without a carriage return reads as itself |
| Text.PairBreaks | visualisation.py:419 | a `\r\n` pair reads as one line feed, whatever text surrounds it |
| Text.LoneBreaks | visualisation.py:419 | a `\r` not followed by a line feed reads as a line feed, whatever text surrounds it |
| Text.UniversalAppend | visualisation.py:419 | decoding works piece by piece when the first piece does not end in a carriage return |
| Text.Lines | visualisation.py:426 | the lines concatenate back to the text; each is non-empty with no line feed before its end, and every line but the last ends in a line feed |
| Text.LinesOfWritten | visualisation.py:409-416 | reading lines from text written one line-feed-terminated line at a time gives those lines back |
| Text.NatText | visualisation.py:412 | the decimal digits of a number have that number as their value |
| Text.IntText | visualisation.py:412 | the text of an integer has no whitespace at its ends and no comma, line feed or carriage return |
| Text.ParseInt | visualisation.py:423 | `int` reads exactly the stripped texts of one or more decimal digits with an optional sign, and the value is the digits' value, negated after a minus |
| Text.IntTextParses | visualisation.py:412-429 | the text of an integer reads back through `int` and through `float` as that integer |
| Text.DecimalTextParses | visualisation.py:411-422 | the text of a float reads back through `float` as the same value |
| Text.Truncate | visualisation.py:429 | `int()` of a real truncates toward zero: the result is within one of the real, toward zero |
| Layout.SaveLayout | visualisation.py:402-416 | saving fails exactly when some id holds a comma or a line feed, naming the first such id and carrying the lines written before it; otherwise the text is the version line, the zoom, the size and one `id,x,y` line per node |
| Layout.SaveLayoutChecked | visualisation.py:402-416 | the same format, refusing as well the ids that cannot be read back |
| Layout.ParseInts | visualisation.py:423-425 | every field must read as an integer, and the values are the fields' values, in order |
| Layout.Place | visualisation.py:426-429 | node lines never add or remove known nodes; a line without three fields raises, as does a known id whose coordinates do not read as numbers; otherwise a known id moves to its truncated coordinates and an unknown id is ignored |
| Layout.PlaceSucceeds | visualisation.py:426-429 | reading node lines succeeds exactly when every line has three fields and a known id has two numbers |
| Layout.PlaceError | visualisation.py:427-429 | on failure the error names the first line that does not read: a node-line error when it lacks three fields, a coordinate error otherwise |
| Layout.PlaceUnnamed | visualisation.py:426-429 | a known node that no line names keeps its position |
| Layout.PlaceLast | visualisation.py:426-429 | a known node ends at the truncated coordinates of the last line naming it |
| Layout.ReadVersioned | visualisation.py:421-423 | after the version line a zoom that does not read as a float raises, then a size that does not read as integers; otherwise the load succeeds exactly when the node lines do, with that zoom, that size and those positions |
| Layout.ReadLayout | visualisation.py:420-429 | after the version line a bad zoom raises, then a bad size on the third line; without it a first line that does not read as integers raises; with a readable header the first bad node line's error is raised; the load succeeds exactly when the header and every node line read, with the zoom after a version line, the size and the positions they give, and the old zoom otherwise |
| Layout.VersionedOf | visualisation.py:420-423 | a version line, a readable zoom, a readable size and readable node lines load as exactly that zoom, size and positions, whatever the current zoom |
| Layout.VersionedFails | visualisation.py:420-429 | a version line followed by a readable zoom and size raises whatever the node lines raise |
| Layout.LoadLayout | visualisation.py:418-429 | loading succeeds exactly when the zoom (after a version line), the size and every node line read; it then keeps the known nodes, yields the size and positions the lines give, and takes the zoom from the second line after a version line and keeps the current zoom otherwise |
| Layout.Restore | visualisation.py:426-429 | restoring saved positions never adds or removes known nodes |
| Layout.RestoreSets | visualisation.py:428-429 | a known node listed once gets its saved position in whole numbers, and a known node not listed keeps its position |
| Layout.LoadAfterSave | visualisation.py:409-429 | loading what was saved gives the zoom value, the size in whole numbers and every known node's saved position, with leading whitespace of ids lost |
| Layout.LayoutRoundTrip | visualisation.py:409-429 | for layouts the checked save accepts, both saves agree and loading restores the zoom, the size and the positions of the saved nodes |
| Layout.IntegerLayoutRoundTrip | visualisation.py:409-429 | with whole-number coordinates and size and distinct ids, every saved known node is put back exactly where it was and every other known node stays |
| Layout.LeadingSpaceIdNotRestored | visualisation.py:414-427 | an id with a leading space is saved but its position is not restored on load, and the checked save refuses it |
| Layout.CarriageReturnIdBreaksLoad | visualisation.py:414-427 | an id holding a carriage return is saved, but for any zoom and size loading the saved text raises on the node line, and the checked save refuses the id |
| View.Clamp | visualisation.py:364 | the clamped level is within 0.3 to 3.0, equals the level when it is in range, and is the nearer bound otherwise |
| View.Zoom | visualisation.py:352-364 | after any action the level is within 0.3 to 3.0; reset gives 1.0; increasing never lowers and decreasing never raises an in-range level; an unknown action keeps it |
| View.IncreaseThenDecrease | visualisation.py:360-364 | away from the bounds, zooming in and out again returns to the same level |
| View.DecreaseThenIncrease | visualisation.py:360-364 | away from the bounds, zooming out and in again returns to the same level |
| View.ZoomSaturates | visualisation.py:360-364 | zooming in at the top level and out at the bottom level changes nothing |
| View.FitZoom | visualisation.py:388-392 | the fitted zoom is within 0.3 to 3.0 |
| View.FitToScreen | visualisation.py:366-399 | the nodes are moved together by one offset; an empty view or content of zero size is left alone; otherwise the new zoom is within 0.3 to 3.0 |
| View.FitKeepsShape | visualisation.py:397-399 | fitting keeps the distances between nodes and their sizes |
| View.FitCentres | visualisation.py:395-399 | after fitting, the content sits as far from the left edge of the zoomed window as its slack-extended end is from the right edge, and likewise vertically |
| View.FitFits | visualisation.py:383-392 | when the clamp leaves the fitted zoom alone, the content at that zoom fits the window less the padding on both sides |
| View.SizedBoxesFit | visualisation.py:374-386 | nodes of non-negative size give content at least 50 wide and high, so fitting always applies to them |
| Edges.DropQueue | visualisation.py:201-202 | one trailing `.queue` is removed, and an id without it is unchanged |
| Edges.Normalise | visualisation.py:200-204 | the node id is a prototype id, the element id, or the element id less `.queue`; an id that after dropping `.queue` belongs to no prototype is drawn as that id |
| Edges.Endpoint | visualisation.py:199-207 | a neighbour gives an edge end exactly when it shows edges and its normalised id is a known node, and the end is that node |
| Edges.Endpoints | visualisation.py:198-207 | a node is an edge end of the neighbours exactly when some neighbour leads to it |
| Edges.SplitPairs | visualisation.py:192-197 | pairs starting at the element give its outgoing neighbours, all other pairs its incoming ones |
| Edges.Neighbours | visualisation.py:187-197 | without explicit pairs the incoming and outgoing elements are used; with them, only the split pairs |
| Edges.SourceEdges | visualisation.py:198-217 | an edge ends at the node from an incoming neighbour's node, or starts at it towards an outgoing neighbour's node, exactly as the neighbours lead |
| Edges.AllEdges | visualisation.py:186-217 | the edges are exactly those some edge-drawing node adds |
| Edges.QueueSharesNode | visualisation.py:200-204 | a queue place is drawn at the same node as the id it queues for |
| Edges.PrototypeElementAtPrototype | visualisation.py:200-204 | an element of a prototype and its queue are both drawn at the prototype |
| Edges.EdgesJoinKnownNodes | visualisation.py:205-217 | every edge joins two known nodes, one of them the node that drew it |
| Edges.PairsReplaceNeighbours | visualisation.py:190-217 | with explicit pairs, the incoming and outgoing elements are ignored and the pairs give one edge in and one edge out, the incoming first |
| Timing.Mean | timing-vis.py:27-28 | the mean raises exactly for a zero window; otherwise the mean times the window is the sum |
| Timing.Slice | timing-vis.py:32 | Python's slice of non-negative bounds: the plain slice when in range, and empty when the start is not before the stop |
| Timing.Entry | timing-vis.py:32 | an entry raises exactly for a zero window; it is None before the window fills, 0 for a negative window, and otherwise times the window gives the sum of the preceding window |
| Timing.RollingMean | timing-vis.py:30-35 | one entry per value; failure exactly for a zero window on non-empty data; None before the window fills; afterwards the mean of the `window` values before the position, excluding the value at it |
| Timing.WindowOneRepeats | timing-vis.py:27-32 | with a window of one, each entry after the first is the value before it |
| Timing.SumSlides | timing-vis.py:27-35 | moving a window one position on, its total gains the value reached and loses the value left |
| Timing.MeanWithinWindow | timing-vis.py:27-32 | each mean lies between the least and the greatest value of its window |

## Left out

- Rendering is left out: pygame drawing, the event loop, fonts, mouse dragging, slow-roll timers, GIF recording and the igraph auto-layout. They are display code over foreign libraries.
- File opening, reading and writing are left out. The layout format is modelled as pure functions over the text written and read.
- simpn's `fire` and the internals of places are left out, because their code is not part of this model. Firing is a caller-supplied function from the state and the binding to new markings. Token order in a marking is taken as given, and results that rely on sorted markings require `Sorted`.
- bpmn.py is left out. Its subclass registration is Python metaprogramming, and its visual classes are rendering.
- Which nodes and prototypes exist (visualisation.py:164-184) is an input to `Edges`, given as the set of node ids and the element-to-prototype map.
- `pick_time` and the scenario choice functions are left out; they are random sampling. The scheduler's random choice is an explicit draw.
- Timing prints, the tqdm progress bar, the debug `log` and the unused joblib pool are left out. They do not affect the result.
- Reporters in `simulate` are left out. Observers get the list of firings in `Run.fired` instead.
- Guard exceptions are left out. A guard is a total predicate, as the source does not catch its exceptions.
- The regular-expression log scraping and plotting in timing-vis.py are left out, as is profiler.py. They are I/O.
- Engine.Simulate: the number of draws bounds the number of iterations. A run that needs more draws stops with `OutOfDraws`; this is fuel and has no counterpart in the source.
- Engine.Choose: only the `PriorityScheduler` and the default first-binding policy are modelled. Other user-supplied policies are not.
- Net.EventBindings: Python compares places and elements by identity. Here places are numbers and elements are compared by value.
- View.Zoom: levels are exact reals, not IEEE doubles. The round trips in `View.IncreaseThenDecrease` and `View.DecreaseThenIncrease` are exact only in this model; a double can be off in its last bit.
- Text.DecimalTextParses: a float is written as the sign, digits, a dot and digits, which covers Python's `repr` for zoom levels in the range the clamp allows. Exponent forms, `inf`, `nan` and underscores in number text are not modelled.
- Text.Truncate: `int(float(x))` is exact truncation of a real. Doubles beyond 2^53 lose precision in Python; this is not modelled.
- Layout.LoadLayout: when the load raises, which error it gives is stated on the decoded lines by `Layout.ReadLayout` (bad zoom, bad size, first bad node line) and `Layout.PlaceError`, not restated on the text.
- Edges.Normalise: the contract says which ids can come out and that an id outside every prototype is drawn as itself. The queue and prototype rules are stated by `Edges.QueueSharesNode` and `Edges.PrototypeElementAtPrototype`.
- Text.ParseInt: only ASCII digits are read. Python's `int` and `float` also accept other Unicode decimal digits; these are not modelled.
- Text encoding of the layout file is not modelled. Text is a sequence of characters, and Python's isspace set is written out for `strip`.

## Findings

| source | as written | input that shows it | evidently intended | confidence | as-written member | corrected member |
|---|---|---|---|---|---|---|
| visualisation.py:414-427 | `save_layout` refuses only ids holding a comma or a line feed. `__load_layout` strips each line and reads the file with universal newlines, so leading whitespace in an id is lost on the way back, and a carriage return in an id splits its line in two and makes the load raise. | a node with id `" a"` at (5, 6) and a view that knows `" a"`; or a node with id `"a\rb"` | every id that `save_layout` accepts is restored by `__load_layout`; ids it cannot restore are refused | medium; not executed | Layout.SaveLayout, Layout.LeadingSpaceIdNotRestored, Layout.CarriageReturnIdBreaksLoad | Layout.SaveLayoutChecked, Layout.LayoutRoundTrip |

=== FILE: edges.dfy ===
/** The edges the visualisation draws between its nodes.

    Every node that shows edges looks at the model elements around the element
    it draws: the places it consumes from and produces to, or, when the element
    lists them explicitly, the pairs it wants drawn. Each neighbour that shows
    edges is traced to a node on screen: a trailing ".queue" is dropped from its
    id, an element inside a prototype stands for the prototype, and only a
    neighbour that ends up at a known node gives an edge. */
module Edges {
  import opened Wrappers

  /** A model element, as far as the edges are concerned. Python compares the
      elements by identity; here two elements are the same when they have the
      same id and flag. */
  datatype Element = Element(id: string, visualizeEdges: bool)

  /** A node on screen that draws edges: its own node id, the element it shows,
      that element's incoming and outgoing elements, and the optional explicit
      list of pairs to draw instead. */
  datatype Source = Source(
    node: string,
    element: Element,
    incoming: seq<Element>,
    outgoing: seq<Element>,
    drawn: Option<seq<(Element, Element)>>)

  /** An edge from the node with id `start` to the node with id `end`. */
  datatype Edge = Edge(start: string, end: string)

  const Queue := ".queue"

  predicate EndsWith(s: string, suffix: string)
  {
    |suffix| <= |s| && s[|s| - |suffix|..] == suffix
  }

  /** The id without one trailing ".queue". */
  function DropQueue(id: string): (r: string)
    ensures EndsWith(id, Queue) ==> r + Queue == id
    ensures !EndsWith(id, Queue) ==> r == id
  {
    if EndsWith(id, Queue) then id[..|id| - |Queue|] else id
  }

  /** The id of the node an element is drawn as. */
  function Normalise(id: string, prototypeOf: map<string, string>): (r: string)
    ensures r in prototypeOf.Values || r == id || r + Queue == id
    ensures DropQueue(id) !in prototypeOf ==> r == DropQueue(id)
  {
    var base := DropQueue(id);
    if base in prototypeOf then prototypeOf[base] else base
  }

  /** The known node a neighbour is drawn at, if any. */
  function Endpoint(e: Element, prototypeOf: map<string, string>, nodes: set<string>): (r: Option<string>)
    ensures r.Some? <==> e.visualizeEdges && Normalise(e.id, prototypeOf) in nodes
    ensures r.Some? ==> r.value in nodes && r.value == Normalise(e.id, prototypeOf)
  {
    if !e.visualizeEdges then None
    else
      var id := Normalise(e.id, prototypeOf);
      if id in nodes then Some(id) else None
  }

  /** The nodes the neighbours `xs` are drawn at, in order, skipping the
      neighbours without one. */
  function Endpoints(xs: seq<Element>, prototypeOf: map<string, string>, nodes: set<string>): (r: seq<string>)
    ensures |r| <= |xs|
    ensures forall t :: t in r <==> exists x :: x in xs && Endpoint(x, prototypeOf, nodes) == Some(t)
  {
    if |xs| == 0 then []
    else
      var rest := Endpoints(xs[1..], prototypeOf, nodes);
      assert forall x :: x in xs <==> x == xs[0] || x in xs[1..];
      match Endpoint(xs[0], prototypeOf, nodes)
      case Some(t) => [t] + rest
      case None => rest
  }

  /** Splits the explicit pairs of the element `me`: in a pair that starts at
      `me` the second element is drawn as an outgoing neighbour, in any other
      pair the first element is drawn as an incoming one. */
  function SplitPairs(pairs: seq<(Element, Element)>, me: Element): (r: (seq<Element>, seq<Element>))
    ensures |r.0| + |r.1| == |pairs|
    ensures forall x :: x in r.0 <==> exists p :: p in pairs && p.0 != me && p.0 == x
    ensures forall x :: x in r.1 <==> exists p :: p in pairs && p.0 == me && p.1 == x
  {
    if |pairs| == 0 then ([], [])
    else
      var (ins, outs) := SplitPairs(pairs[1..], me);
      var p := pairs[0];
      assert forall q :: q in pairs <==> q == p || q in pairs[1..];
      if p.0 == me then (ins, [p.1] + outs) else ([p.0] + ins, outs)
  }

  /** The incoming and outgoing neighbours a source draws edges to. */
  function Neighbours(src: Source): (r: (seq<Element>, seq<Element>))
    ensures src.drawn.None? ==> r == (src.incoming, src.outgoing)
    ensures src.drawn.Some? ==> forall x :: x in r.0 <==> exists p :: p in src.drawn.value && p.0 != src.element && p.0 == x
    ensures src.drawn.Some? ==> forall x :: x in r.1 <==> exists p :: p in src.drawn.value && p.0 == src.element && p.1 == x
  {
    match src.drawn
    case None => (src.incoming, src.outgoing)
    case Some(pairs) => SplitPairs(pairs, src.element)
  }

  function Into(starts: seq<string>, end: string): (r: seq<Edge>)
    ensures |r| == |starts|
    ensures forall k :: 0 <= k < |r| ==> r[k] == Edge(starts[k], end)
  {
    seq(|starts|, k requires 0 <= k < |starts| => Edge(starts[k], end))
  }

  function OutOf(start: string, ends: seq<string>): (r: seq<Edge>)
    ensures |r| == |ends|
    ensures forall k :: 0 <= k < |r| ==> r[k] == Edge(start, ends[k])
  {
    seq(|ends|, k requires 0 <= k < |ends| => Edge(start, ends[k]))
  }

  /** The edges one source adds: first the edges from its incoming neighbours
      into it, then the edges from it to its outgoing neighbours. */
  function SourceEdges(src: Source, prototypeOf: map<string, string>, nodes: set<string>): (r: seq<Edge>)
    ensures |r| <= |Neighbours(src).0| + |Neighbours(src).1|
    ensures forall e :: e in r <==>
      (e.end == src.node && exists x :: x in Neighbours(src).0 && Endpoint(x, prototypeOf, nodes) == Some(e.start)) ||
      (e.start == src.node && exists x :: x in Neighbours(src).1 && Endpoint(x, prototypeOf, nodes) == Some(e.end))
  {
    var (ins, outs) := Neighbours(src);
    var starts := Endpoints(ins, prototypeOf, nodes);
    var ends := Endpoints(outs, prototypeOf, nodes);
    var r := Into(starts, src.node) + OutOf(src.node, ends);
    assert forall e :: e in r <==> e in Into(starts, src.node) || e in OutOf(src.node, ends);
    assert forall e :: e in Into(starts, src.node) <==> e.end == src.node && e.start in starts by {
      forall e: Edge | e.end == src.node && e.start in starts ensures e in Into(starts, src.node) {
        var k :| 0 <= k < |starts| && starts[k] == e.start;
        assert Into(starts, src.node)[k] == e;
      }
    }
    assert forall e :: e in OutOf(src.node, ends) <==> e.start == src.node && e.end in ends by {
      forall e: Edge | e.start == src.node && e.end in ends ensures e in OutOf(src.node, ends) {
        var k :| 0 <= k < |ends| && ends[k] == e.end;
        assert OutOf(src.node, ends)[k] == e;
      }
    }
    r
  }

  /** All edges, source by source in the order the sources were registered. */
  function AllEdges(sources: seq<Source>, prototypeOf: map<string, string>, nodes: set<string>): (r: seq<Edge>)
    ensures forall e :: e in r <==> exists s :: s in sources && e in SourceEdges(s, prototypeOf, nodes)
  {
    if |sources| == 0 then []
    else
      assert forall s :: s in sources <==> s == sources[0] || s in sources[1..];
      SourceEdges(sources[0], prototypeOf, nodes) + AllEdges(sources[1..], prototypeOf, nodes)
  }

  /** A queue place is drawn at the same node as the element it queues for,
      unless that id itself already ends with ".queue". */
  lemma QueueSharesNode(id: string, prototypeOf: map<string, string>)
    requires !EndsWith(id, Queue)
    ensures Normalise(id + Queue, prototypeOf) == Normalise(id, prototypeOf)
  {
    var q := id + Queue;
    assert q[|q| - |Queue|..] == Queue;
    assert q[..|q| - |Queue|] == id;
  }

  /** An element inside a prototype is drawn at the prototype, with or without
      the queue suffix. */
  lemma PrototypeElementAtPrototype(id: string, prototypeOf: map<string, string>)
    requires !EndsWith(id, Queue) && id in prototypeOf
    ensures Normalise(id, prototypeOf) == prototypeOf[id]
    ensures Normalise(id + Queue, prototypeOf) == prototypeOf[id]
  {
    QueueSharesNode(id, prototypeOf);
  }

  /** Every edge joins two known nodes, one of which is the source that drew
      it, as long as every source is itself a known node. */
  lemma EdgesJoinKnownNodes(sources: seq<Source>, prototypeOf: map<string, string>, nodes: set<string>, e: Edge)
    requires forall s :: s in sources ==> s.node in nodes
    requires e in AllEdges(sources, prototypeOf, nodes)
    ensures e.start in nodes && e.end in nodes
    ensures exists s :: s in sources && (s.node == e.start || s.node == e.end)
  {
    var s :| s in sources && e in SourceEdges(s, prototypeOf, nodes);
    assert s.node == e.start || s.node == e.end;
  }

  /** With an explicit list of pairs, a pair starting at the element itself
      gives an edge out of its node and any other pair an edge into it; the
      incoming and outgoing lists of the element are then ignored, and the
      edges into the node come first. */
  lemma {:induction false} PairsReplaceNeighbours(me: Element, a: Element, b: Element, ignored: Element, node: string, nodes: set<string>)
    requires a != me && a.visualizeEdges && b.visualizeEdges
    requires !EndsWith(a.id, Queue) && !EndsWith(b.id, Queue)
    requires a.id in nodes && b.id in nodes
    ensures SourceEdges(Source(node, me, [ignored], [ignored], Some([(me, b), (a, me)])), map[], nodes)
         == [Edge(a.id, node), Edge(node, b.id)]
  {
    var src := Source(node, me, [ignored], [ignored], Some([(me, b), (a, me)]));
    var pairs := [(me, b), (a, me)];
    assert pairs[1..] == [(a, me)];
    assert pairs[1..][1..] == [];
    assert SplitPairs(pairs[1..][1..], me) == ([], []);
    assert [a] + [] == [a];
    assert SplitPairs(pairs[1..], me) == ([a], []);
    assert [b] + [] == [b];
    assert SplitPairs(pairs, me) == ([a], [b]);
    assert Neighbours(src) == ([a], [b]);
    assert Endpoints([a], map[], nodes) == [a.id];
    assert Endpoints([b], map[], nodes) == [b.id];
  }
}

=== FILE: engine.dfy ===
/** The stepping engine of util.py `ParallelSimProblem`: the clock advance
    and ready-binding collection of `bindings`, `step` and `simulate`. */
module Engine {
  import opened Wrappers
  import opened Values
  import opened Net
  import Priority

  /** The engine state: the logical clock and the marking of every place. */
  datatype State = State(clock: real, markings: seq<Marking>)

  /** The bindings `bindings` returns, with the clock it has set. */
  datatype Ready = Ready(clock: real, bindings: seq<Binding>)

  /** Every incoming place holds a token. */
  predicate AllMarked(m: seq<Marking>, places: seq<nat>)
  {
    forall k :: 0 <= k < |places| ==> |At(m, places[k])| > 0
  }

  /** `max(smallest)`: the latest of the first tokens of the places. */
  function LatestFirst(m: seq<Marking>, places: seq<nat>): (r: real)
    requires |places| > 0 && AllMarked(m, places)
    ensures forall k :: 0 <= k < |places| ==> At(m, places[k])[0].time <= r
    ensures exists k :: 0 <= k < |places| && At(m, places[k])[0].time == r
    decreases |places|
  {
    var first := At(m, places[0])[0].time;
    if |places| == 1 then first
    else
      assert forall k :: 1 <= k < |places| ==> places[1..][k - 1] == places[k];
      var rest := LatestFirst(m, places[1..]);
      if first >= rest then first else rest
  }

  /** `timings[ev]`: the latest first-token time over the incoming places, or
      0 when a place is empty or there is no incoming place. */
  function EarliestTime(e: Event, m: seq<Marking>): (r: real)
    ensures |e.incoming| == 0 || (exists k :: 0 <= k < |e.incoming| && |At(m, e.incoming[k])| == 0) ==> r == 0.0
    ensures |e.incoming| > 0 && AllMarked(m, e.incoming) ==>
      && (forall k :: 0 <= k < |e.incoming| ==> At(m, e.incoming[k])[0].time <= r)
      && (exists k :: 0 <= k < |e.incoming| && At(m, e.incoming[k])[0].time == r)
  {
    if |e.incoming| == 0 || !AllMarked(m, e.incoming) then 0.0
    else LatestFirst(m, e.incoming)
  }

  /** An event takes part in the clock advance when its earliest time is non-zero. */
  predicate Contributes(evs: seq<Event>, m: seq<Marking>, i: int)
  {
    0 <= i < |evs| && EarliestTime(evs[i], m) != 0.0
  }

  /** The earliest time of every event, in event order. */
  function Times(evs: seq<Event>, m: seq<Marking>): (r: seq<real>)
    ensures |r| == |evs|
    ensures forall i :: 0 <= i < |evs| ==> r[i] == EarliestTime(evs[i], m)
  {
    seq(|evs|, i requires 0 <= i < |evs| => EarliestTime(evs[i], m))
  }

  /** The least of the non-zero times from position `from` on, if any: the
      first loop of `bindings`, which skips the zero times. */
  function LeastNonZero(ts: seq<real>, from: nat): (r: Option<real>)
    ensures r.Some? ==> from < |ts| && r.value != 0.0 && r.value in ts[from..]
    decreases |ts| - from
  {
    if from >= |ts| then None
    else
      var rest := LeastNonZero(ts, from + 1);
      if ts[from] == 0.0 then rest
      else if rest.None? || ts[from] < rest.value then Some(ts[from])
      else rest
  }

  lemma {:induction false} LeastNonZeroIsLeast(ts: seq<real>, from: nat)
    ensures var r := LeastNonZero(ts, from);
      && (r.Some? <==> exists i :: from <= i < |ts| && ts[i] != 0.0)
      && (r.Some? ==> exists i :: from <= i < |ts| && ts[i] != 0.0 && r.value == ts[i])
      && (r.Some? ==> forall i :: from <= i < |ts| && ts[i] != 0.0 ==> r.value <= ts[i])
    decreases |ts| - from
  {
    if from < |ts| {
      LeastNonZeroIsLeast(ts, from + 1);
    }
  }

  /** `min_enabling_time`: the least earliest time over the contributing events. */
  function MinEnablingTime(evs: seq<Event>, m: seq<Marking>): (r: Option<real>)
    ensures r.Some? <==> exists i :: Contributes(evs, m, i)
    ensures r.Some? ==> exists i :: Contributes(evs, m, i) && r.value == EarliestTime(evs[i], m)
    ensures r.Some? ==> forall i :: Contributes(evs, m, i) ==> r.value <= EarliestTime(evs[i], m)
  {
    var ts := Times(evs, m);
    LeastNonZeroIsLeast(ts, 0);
    assert forall i :: Contributes(evs, m, i) <==> 0 <= i < |ts| && ts[i] != 0.0;
    LeastNonZero(ts, 0)
  }

  /** The clock after `bindings`: moved to `min_enabling_time` only when that
      lies ahead of the current clock. */
  function NextClock(evs: seq<Event>, s: State): (r: real)
    ensures r >= s.clock
    ensures r > s.clock ==> exists i :: Contributes(evs, s.markings, i) && r == EarliestTime(evs[i], s.markings)
    ensures r > s.clock ==> forall i :: Contributes(evs, s.markings, i) ==> r <= EarliestTime(evs[i], s.markings)
    ensures (forall i :: Contributes(evs, s.markings, i) ==> EarliestTime(evs[i], s.markings) <= s.clock)
      ==> r == s.clock
    ensures MinEnablingTime(evs, s.markings).Some? && MinEnablingTime(evs, s.markings).value > s.clock
      ==> r == MinEnablingTime(evs, s.markings).value
  {
    match MinEnablingTime(evs, s.markings)
    case Some(t) => if t > s.clock then t else s.clock
    case None => s.clock
  }

  /** The candidates of event `i` that are ready at `clock`, as bindings. */
  function ReadyOf(cands: seq<Candidate>, clock: real, i: nat): (r: seq<Binding>)
    ensures forall b :: b in r <==> b.event == i && Candidate(b.choice, b.time) in cands && b.time <= clock
    ensures |cands| == 1 ==>
      r == (if cands[0].time <= clock then [Binding(cands[0].choice, cands[0].time, i)] else [])
    decreases |cands|
  {
    if |cands| == 0 then []
    else
      var rest := ReadyOf(cands[1..], clock, i);
      assert forall c :: c in cands <==> c == cands[0] || c in cands[1..];
      if cands[0].time <= clock then [Binding(cands[0].choice, cands[0].time, i)] + rest else rest
  }

  /** The ready candidates of a concatenation are those of each part, in
      turn: the filter keeps the candidates' order and their repeats. */
  lemma {:induction false} ReadyOfAppend(a: seq<Candidate>, b: seq<Candidate>, clock: real, i: nat)
    ensures ReadyOf(a + b, clock, i) == ReadyOf(a, clock, i) + ReadyOf(b, clock, i)
    decreases |a|
  {
    if |a| == 0 {
      assert a + b == b;
    } else {
      assert (a + b)[1..] == a[1..] + b;
      ReadyOfAppend(a[1..], b, clock, i);
    }
  }

  /** Binding `b` is offered at `clock`: a ready candidate of an event that was
      not skipped for having its earliest time ahead of the clock. */
  predicate Offered(evs: seq<Event>, m: seq<Marking>, clock: real, b: Binding)
  {
    && b.event < |evs|
    && EarliestTime(evs[b.event], m) <= clock
    && IsCandidateOf(evs[b.event], m, Candidate(b.choice, b.time))
    && b.time <= clock
  }

  /** Event `i` has no incoming place and is not skipped, so evaluating it raises. */
  predicate Raises(evs: seq<Event>, m: seq<Marking>, clock: real, i: int)
  {
    0 <= i < |evs| && |evs[i].incoming| == 0 && EarliestTime(evs[i], m) <= clock
  }

  /** The second loop of `bindings`, over the events from number `from` on. */
  function Collect(evs: seq<Event>, m: seq<Marking>, clock: real, from: nat): (r: Result<seq<Binding>, SimError>)
    ensures r.Failure? <==> exists i :: from <= i && Raises(evs, m, clock, i)
    ensures r.Success? ==> forall b :: b in r.value <==> from <= b.event && Offered(evs, m, clock, b)
    decreases |evs| - from
  {
    if from >= |evs| then Success([])
    else
      var rest := Collect(evs, m, clock, from + 1);
      if EarliestTime(evs[from], m) > clock then rest
      else match EventBindings(evs[from], m)
        case Failure(e) => assert Raises(evs, m, clock, from); Failure(e)
        case Success(cands) =>
          if rest.Failure? then rest
          else
            var here := ReadyOf(cands, clock, from);
            assert forall b :: b in here <==> b.event == from && Offered(evs, m, clock, b);
            assert forall b :: b in here + rest.value <==> b in here || b in rest.value;
            Success(here + rest.value)
  }

  /** `bindings()`: advances the clock, then collects every ready binding. */
  function Bindings(evs: seq<Event>, s: State): (r: Result<Ready, SimError>)
    ensures r.Failure? <==> exists i :: Raises(evs, s.markings, NextClock(evs, s), i)
    ensures r.Success? ==> r.value.clock == NextClock(evs, s)
    ensures r.Success? ==> forall b :: b in r.value.bindings <==> Offered(evs, s.markings, r.value.clock, b)
  {
    var clock := NextClock(evs, s);
    match Collect(evs, s.markings, clock, 0)
    case Failure(e) => Failure(e)
    case Success(bs) => Success(Ready(clock, bs))
  }

  /** The bindings of event `i`, in the order `bs` holds them. */
  function OfEvent(bs: seq<Binding>, i: nat): (r: seq<Binding>)
    ensures forall b :: b in r <==> b in bs && b.event == i
    decreases |bs|
  {
    if |bs| == 0 then []
    else
      assert forall b :: b in bs <==> b == bs[0] || b in bs[1..];
      (if bs[0].event == i then [bs[0]] else []) + OfEvent(bs[1..], i)
  }

  lemma {:induction false} OfEventAppend(a: seq<Binding>, b: seq<Binding>, i: nat)
    ensures OfEvent(a + b, i) == OfEvent(a, i) + OfEvent(b, i)
    decreases |a|
  {
    if |a| == 0 {
      assert a + b == b;
    } else {
      assert (a + b)[1..] == a[1..] + b;
      OfEventAppend(a[1..], b, i);
    }
  }

  lemma {:induction false} OfEventAll(bs: seq<Binding>, i: nat)
    requires forall k :: 0 <= k < |bs| ==> bs[k].event == i
    ensures OfEvent(bs, i) == bs
    decreases |bs|
  {
    if |bs| > 0 {
      OfEventAll(bs[1..], i);
    }
  }

  lemma {:induction false} OfEventNone(bs: seq<Binding>, i: nat)
    requires forall k :: 0 <= k < |bs| ==> bs[k].event != i
    ensures OfEvent(bs, i) == []
    decreases |bs|
  {
    if |bs| > 0 {
      OfEventNone(bs[1..], i);
    }
  }

  /** Every binding of a collection from event `from` on is of event `from` or later. */
  lemma CollectFrom(evs: seq<Event>, m: seq<Marking>, clock: real, from: nat)
    requires Collect(evs, m, clock, from).Success?
    ensures var bs := Collect(evs, m, clock, from).value;
      forall k :: 0 <= k < |bs| ==> from <= bs[k].event
  {
    var bs := Collect(evs, m, clock, from).value;
    assert forall k :: 0 <= k < |bs| ==> bs[k] in bs;
  }

  lemma ReadyOfEvent(cands: seq<Candidate>, clock: real, i: nat)
    ensures forall k :: 0 <= k < |ReadyOf(cands, clock, i)| ==> ReadyOf(cands, clock, i)[k].event == i
  {
    var r := ReadyOf(cands, clock, i);
    assert forall k :: 0 <= k < |r| ==> r[k] in r;
  }

  /** The second loop of `bindings` keeps the event order: the bindings come
      event by event. */
  lemma {:induction false} CollectSorted(evs: seq<Event>, m: seq<Marking>, clock: real, from: nat)
    requires Collect(evs, m, clock, from).Success?
    ensures var bs := Collect(evs, m, clock, from).value;
      forall j, k :: 0 <= j < k < |bs| ==> bs[j].event <= bs[k].event
    decreases |evs| - from
  {
    if from < |evs| {
      var rest := Collect(evs, m, clock, from + 1);
      assert rest.Success?;
      CollectSorted(evs, m, clock, from + 1);
      if EarliestTime(evs[from], m) <= clock {
        assert !Raises(evs, m, clock, from);
        var here := ReadyOf(EventBindings(evs[from], m).value, clock, from);
        ReadyOfEvent(EventBindings(evs[from], m).value, clock, from);
        CollectFrom(evs, m, clock, from + 1);
        assert Collect(evs, m, clock, from).value == here + rest.value;
      }
    }
  }

  /** The second loop of `bindings` drops and repeats nothing: the bindings of
      a non-skipped event are exactly its ready candidates, in the order
      `event_bindings` lists them. */
  lemma {:induction false} CollectBlocks(evs: seq<Event>, m: seq<Marking>, clock: real, from: nat)
    requires Collect(evs, m, clock, from).Success?
    ensures var bs := Collect(evs, m, clock, from).value;
      forall i :: from <= i < |evs| && EarliestTime(evs[i], m) <= clock ==>
        EventBindings(evs[i], m).Success? && OfEvent(bs, i) == ReadyOf(EventBindings(evs[i], m).value, clock, i)
    decreases |evs| - from
  {
    if from < |evs| {
      var bs := Collect(evs, m, clock, from).value;
      var rest := Collect(evs, m, clock, from + 1);
      assert rest.Success?;
      CollectBlocks(evs, m, clock, from + 1);
      if EarliestTime(evs[from], m) <= clock {
        assert !Raises(evs, m, clock, from);
        var here := ReadyOf(EventBindings(evs[from], m).value, clock, from);
        assert bs == here + rest.value;
        ReadyOfEvent(EventBindings(evs[from], m).value, clock, from);
        CollectFrom(evs, m, clock, from + 1);
        forall i | from <= i < |evs| && EarliestTime(evs[i], m) <= clock
          ensures OfEvent(bs, i) == ReadyOf(EventBindings(evs[i], m).value, clock, i)
        {
          OfEventAppend(here, rest.value, i);
          if i == from {
            OfEventAll(here, i);
            OfEventNone(rest.value, i);
          } else {
            OfEventNone(here, i);
          }
        }
      }
    }
  }

  /** `bindings` lists the ready bindings event by event, in event order, and
      those of each event it did not skip in the order `event_bindings` gives. */
  lemma BindingsOrder(evs: seq<Event>, s: State)
    requires Bindings(evs, s).Success?
    ensures var bs := Bindings(evs, s).value.bindings;
      forall j, k :: 0 <= j < k < |bs| ==> bs[j].event <= bs[k].event
    ensures var bs := Bindings(evs, s).value.bindings;
      forall i :: 0 <= i < |evs| && EarliestTime(evs[i], s.markings) <= NextClock(evs, s) ==>
        && EventBindings(evs[i], s.markings).Success?
        && OfEvent(bs, i) == ReadyOf(EventBindings(evs[i], s.markings).value, NextClock(evs, s), i)
  {
    CollectSorted(evs, s.markings, NextClock(evs, s), 0);
    CollectBlocks(evs, s.markings, NextClock(evs, s), 0);
  }

  /** For sorted markings an event's earliest time is no later than any of its bindings. */
  lemma EarliestTimeBoundsCandidates(e: Event, m: seq<Marking>, cand: Candidate)
    requires Sorted(m)
    requires EventBindings(e, m).Success? && cand in EventBindings(e, m).value
    ensures EarliestTime(e, m) <= cand.time
  {
    assert AllMarked(m, e.incoming) by {
      forall k | 0 <= k < |e.incoming| ensures |At(m, e.incoming[k])| > 0 {
        CandidateNotBeforeFirstTokens(e, m, cand, k);
      }
    }
    var k :| 0 <= k < |e.incoming| && At(m, e.incoming[k])[0].time == EarliestTime(e, m);
    CandidateNotBeforeFirstTokens(e, m, cand, k);
  }

  /** Skipping the events whose earliest time lies ahead of the clock drops
      nothing: for sorted markings, `bindings` returns
      every binding of every event whose time is not after the new clock. */
  lemma ReadyIsComplete(evs: seq<Event>, s: State)
    requires Sorted(s.markings)
    requires Bindings(evs, s).Success?
    ensures forall b: Binding ::
      b in Bindings(evs, s).value.bindings <==>
        (&& b.event < |evs|
         && IsCandidateOf(evs[b.event], s.markings, Candidate(b.choice, b.time))
         && b.time <= NextClock(evs, s))
  {
    var clock := NextClock(evs, s);
    forall b: Binding |
      && b.event < |evs|
      && IsCandidateOf(evs[b.event], s.markings, Candidate(b.choice, b.time))
      && b.time <= clock
      ensures Offered(evs, s.markings, clock, b)
    {
      var e := evs[b.event];
      assert |b.choice| == |e.incoming|;
      EarliestTimeBoundsCandidates(e, s.markings, Candidate(b.choice, b.time));
    }
  }

  /** The clock advances only past events with earliest time 0: when it
      moves, every event that had a binding ready at the old clock is one
      of them (for sorted markings). */
  lemma AdvanceOnlyPastTimeZeroEvents(evs: seq<Event>, s: State, i: nat, cand: Candidate)
    requires Sorted(s.markings)
    requires i < |evs| && EventBindings(evs[i], s.markings).Success?
    requires cand in EventBindings(evs[i], s.markings).value && cand.time <= s.clock
    requires NextClock(evs, s) > s.clock
    ensures EarliestTime(evs[i], s.markings) == 0.0
  {
    EarliestTimeBoundsCandidates(evs[i], s.markings, cand);
  }

  /** Two one-place events: "a" with a token at time 0, "b" with one at time 5. */
  function JumpEvents(): seq<Event>
  {
    [Event("a", [0], [], None), Event("b", [1], [], None)]
  }

  function JumpMarkings(): seq<Marking>
  {
    [[Token(Num(1), 0.0)], [Token(Num(2), 5.0)]]
  }

  lemma JumpClock()
    ensures NextClock(JumpEvents(), State(0.0, JumpMarkings())) == 5.0
  {
    var evs, m := JumpEvents(), JumpMarkings();
    assert AllMarked(m, [0]) && AllMarked(m, [1]);
    assert EarliestTime(evs[0], m) == 0.0;
    assert EarliestTime(evs[1], m) == 5.0;
    assert Contributes(evs, m, 1);
  }

  lemma JumpOffered()
    ensures Offered(JumpEvents(), JumpMarkings(), 5.0, Binding([Choice(0, Token(Num(1), 0.0))], 0.0, 0))
  {
    var evs, m := JumpEvents(), JumpMarkings();
    assert AllMarked(m, [0]);
    assert EarliestTime(evs[0], m) == 0.0;
    var c := [Choice(0, Token(Num(1), 0.0))];
    ProductMembers(m, [0]);
    assert IsChoiceFor(m, [0], c);
    assert LatestTime(c) == 0.0;
  }

  /** An error is raised only for an event without incoming places: when every
      event consumes from some place, `bindings` always succeeds. */
  lemma EventsWithPlacesNeverRaise(evs: seq<Event>, s: State)
    requires forall i :: 0 <= i < |evs| ==> |evs[i].incoming| > 0
    ensures Bindings(evs, s).Success?
  {
  }

  lemma JumpRaisesNothing()
    ensures Bindings(JumpEvents(), State(0.0, JumpMarkings())).Success?
  {
    var evs := JumpEvents();
    assert evs[0].incoming == [0] && evs[1].incoming == [1];
    EventsWithPlacesNeverRaise(evs, State(0.0, JumpMarkings()));
  }

  /** The clock can jump while a time-0 binding is ready: event "a" is ready at
      clock 0 with its time-0 token, yet `bindings` moves the clock to event
      "b"'s time 5 (and still offers "a"'s binding). */
  lemma ClockJumpsPastReadyTimeZeroBinding()
    ensures
      var r := Bindings(JumpEvents(), State(0.0, JumpMarkings()));
      && r.Success?
      && r.value.clock == 5.0
      && Binding([Choice(0, Token(Num(1), 0.0))], 0.0, 0) in r.value.bindings
  {
    JumpClock();
    JumpOffered();
    JumpRaisesNothing();
  }

  /** Calling `bindings` again at the clock it has set changes nothing. */
  lemma BindingsIdempotent(evs: seq<Event>, s: State)
    ensures NextClock(evs, State(NextClock(evs, s), s.markings)) == NextClock(evs, s)
    ensures Bindings(evs, State(NextClock(evs, s), s.markings)) == Bindings(evs, s)
  {
    var c := NextClock(evs, s);
    assert NextClock(evs, State(c, s.markings)) == c by {
      match MinEnablingTime(evs, s.markings)
      case None =>
      case Some(t) =>
    }
  }

  /** The conflict-resolution policy: simpn's default `bindings[0]`, or the
      priority scheduler with its start name. */
  datatype Policy = FirstBinding | Prioritise(startName: string)

  function Choose(p: Policy, bs: seq<Binding>, pick: nat): (r: Result<Binding, SimError>)
    requires |bs| > 0
    ensures r.Success? ==> r.value in bs
    ensures p.FirstBinding? ==> r == Success(bs[0])
    ensures p.Prioritise? ==> r == Priority.Schedule(bs, p.startName, pick)
  {
    match p
    case FirstBinding => Success(bs[0])
    case Prioritise(name) => Priority.Schedule(bs, name, pick)
  }

  /** simpn's `fire`, supplied by the caller: the markings after the chosen
      binding has fired at the state's clock. It cannot change the clock. */
  type Fire = (State, Binding) -> seq<Marking>

  /** The result of one step: the new state and the binding fired, if any. */
  datatype Stepped = Stepped(state: State, fired: Option<Binding>)

  /** `step()`: collect the ready bindings; if there are none nothing fires,
      otherwise the policy picks one and it fires. */
  function Step(evs: seq<Event>, s: State, p: Policy, pick: nat, fire: Fire): (r: Result<Stepped, SimError>)
    ensures Bindings(evs, s).Failure? ==> r.Failure?
    ensures r.Failure? <==>
      || Bindings(evs, s).Failure?
      || (Bindings(evs, s).value.bindings != [] && Choose(p, Bindings(evs, s).value.bindings, pick).Failure?)
    ensures r.Success? ==> r.value.state.clock == NextClock(evs, s) && r.value.state.clock >= s.clock
    ensures r.Success? ==> (r.value.fired.None? <==> Bindings(evs, s).value.bindings == [])
    ensures r.Success? && r.value.fired.None? ==> r.value.state.markings == s.markings
    ensures r.Success? && r.value.fired.Some? ==>
      && r.value.fired.value in Bindings(evs, s).value.bindings
      && r.value.fired.value.time <= r.value.state.clock
      && GuardHolds(evs[r.value.fired.value.event], r.value.fired.value.choice)
      && r.value.state.markings == fire(State(r.value.state.clock, s.markings), r.value.fired.value)
    ensures r.Success? && r.value.fired.Some? ==>
      Choose(p, Bindings(evs, s).value.bindings, pick) == Success(r.value.fired.value)
  {
    match Bindings(evs, s)
    case Failure(e) => Failure(e)
    case Success(ready) =>
      var now := State(ready.clock, s.markings);
      if |ready.bindings| == 0 then Success(Stepped(now, None))
      else match Choose(p, ready.bindings, pick)
        case Failure(e) => Failure(e)
        case Success(b) => Success(Stepped(State(ready.clock, fire(now, b)), Some(b)))
  }

  lemma PrependIndex<T>(x: T, xs: seq<T>)
    ensures ([x] + xs)[0] == x
    ensures forall k :: 1 <= k < |[x] + xs| ==> ([x] + xs)[k] == xs[k - 1]
  {
  }

  /** Why `simulate` stopped: the clock passed the duration, no binding was
      ready, or the supplied random draws ran out. */
  datatype Halt = PastHorizon | Quiescent | OutOfDraws

  /** One firing reported to the observers, with the clock it fired at. */
  datatype Firing = Firing(binding: Binding, clock: real)

  datatype Run = Run(final: State, fired: seq<Firing>, halt: Halt)

  /** `simulate(duration)`: step while the clock is within the duration and
      bindings are ready; `draws` supplies one random draw per iteration and
      bounds the number of iterations. */
  function Simulate(evs: seq<Event>, s: State, duration: real, p: Policy, draws: seq<nat>, fire: Fire): (r: Result<Run, SimError>)
    ensures r.Failure? ==> s.clock <= duration && |draws| > 0
    ensures r.Success? ==> r.value.final.clock >= s.clock
    ensures r.Success? ==> |r.value.fired| <= |draws|
    ensures r.Success? && r.value.halt == PastHorizon ==> r.value.final.clock > duration
    ensures r.Success? && r.value.halt == Quiescent ==>
      Bindings(evs, r.value.final) == Success(Ready(r.value.final.clock, []))
    ensures r.Success? && r.value.halt == OutOfDraws ==>
      r.value.final.clock <= duration && |r.value.fired| == |draws|
    decreases |draws|
  {
    if s.clock > duration then Success(Run(s, [], PastHorizon))
    else if |draws| == 0 then Success(Run(s, [], OutOfDraws))
    else match Step(evs, s, p, draws[0], fire)
      case Failure(e) => Failure(e)
      case Success(st) =>
        if st.fired.None? then
          BindingsIdempotent(evs, s);
          Success(Run(st.state, [], Quiescent))
        else match Simulate(evs, st.state, duration, p, draws[1..], fire)
          case Failure(e) => Failure(e)
          case Success(run) =>
            Success(Run(run.final, [Firing(st.fired.value, st.state.clock)] + run.fired, run.halt))
  }

  /** Every firing happens within [lo, hi] and not before its binding's time. */
  predicate FiredWithin(fs: seq<Firing>, lo: real, hi: real)
  {
    forall k :: 0 <= k < |fs| ==> lo <= fs[k].clock <= hi && fs[k].binding.time <= fs[k].clock
  }

  /** The firings are in clock order. */
  predicate ClockOrdered(fs: seq<Firing>)
  {
    forall j, k :: 0 <= j <= k < |fs| ==> fs[j].clock <= fs[k].clock
  }

  /** Every firing but the last happens at a clock within the duration. */
  predicate AllButLastWithin(fs: seq<Firing>, duration: real)
  {
    forall k :: 0 <= k < |fs| - 1 ==> fs[k].clock <= duration
  }

  lemma PrependFiring(f: Firing, fs: seq<Firing>, lo: real, hi: real, duration: real)
    requires lo <= f.clock <= hi && f.binding.time <= f.clock
    requires FiredWithin(fs, f.clock, hi) && ClockOrdered(fs) && AllButLastWithin(fs, duration)
    requires |fs| > 0 ==> f.clock <= duration
    ensures FiredWithin([f] + fs, lo, hi) && ClockOrdered([f] + fs) && AllButLastWithin([f] + fs, duration)
  {
    PrependIndex(f, fs);
  }

  /** The firings `simulate` reports happen in clock order, each at or after
      its binding's time and within the run's clock range; every firing but
      the last happens at a clock within the duration (the last may follow a
      clock jump past it). */
  lemma {:induction false} SimulateFiringsOrdered(evs: seq<Event>, s: State, duration: real, p: Policy, draws: seq<nat>, fire: Fire)
    requires Simulate(evs, s, duration, p, draws, fire).Success?
    ensures var run := Simulate(evs, s, duration, p, draws, fire).value;
      && FiredWithin(run.fired, s.clock, run.final.clock)
      && ClockOrdered(run.fired)
      && AllButLastWithin(run.fired, duration)
    decreases |draws|
  {
    if s.clock <= duration && |draws| > 0 {
      var st := Step(evs, s, p, draws[0], fire).value;
      if st.fired.Some? {
        SimulateFiringsOrdered(evs, st.state, duration, p, draws[1..], fire);
        var rest := Simulate(evs, st.state, duration, p, draws[1..], fire).value;
        var f := Firing(st.fired.value, st.state.clock);
        assert |rest.fired| > 0 ==> f.clock <= duration;
        PrependFiring(f, rest.fired, s.clock, rest.final.clock, duration);
      }
    }
  }

  /** The firings `fs` are what stepping from `s` fires, one draw per step:
      each step succeeds, fires the next firing's binding, and sets the clock
      the firing reports; the next step starts from the state it left. */
  predicate Replays(evs: seq<Event>, s: State, p: Policy, draws: seq<nat>, fire: Fire, fs: seq<Firing>)
    decreases |fs|
  {
    |fs| == 0 ||
      (&& |draws| > 0
       && var st := Step(evs, s, p, draws[0], fire);
       && st.Success?
       && st.value.fired == Some(fs[0].binding)
       && st.value.state.clock == fs[0].clock
       && Replays(evs, st.value.state, p, draws[1..], fire, fs[1..]))
  }

  /** Every firing `simulate` reports is the binding `step` fires at the
      state the run has reached, under the policy and the next draw. */
  lemma {:induction false} SimulateReplaysSteps(evs: seq<Event>, s: State, duration: real, p: Policy, draws: seq<nat>, fire: Fire)
    requires Simulate(evs, s, duration, p, draws, fire).Success?
    ensures Replays(evs, s, p, draws, fire, Simulate(evs, s, duration, p, draws, fire).value.fired)
    decreases |draws|
  {
    if s.clock <= duration && |draws| > 0 {
      var st := Step(evs, s, p, draws[0], fire).value;
      if st.fired.Some? {
        SimulateReplaysSteps(evs, st.state, duration, p, draws[1..], fire);
        var fs := Simulate(evs, s, duration, p, draws, fire).value.fired;
        assert fs[1..] == Simulate(evs, st.state, duration, p, draws[1..], fire).value.fired;
      }
    }
  }

  /** The state stepping from `s` reaches after firing `fs`. */
  function Reached(evs: seq<Event>, s: State, p: Policy, draws: seq<nat>, fire: Fire, fs: seq<Firing>): State
    requires Replays(evs, s, p, draws, fire, fs)
    decreases |fs|
  {
    if |fs| == 0 then s
    else Reached(evs, Step(evs, s, p, draws[0], fire).value.state, p, draws[1..], fire, fs[1..])
  }

  /** One successful firing step in front of a replay is a replay, and
      reaches the same state. */
  lemma ReplaysCons(evs: seq<Event>, s: State, p: Policy, draws: seq<nat>, fire: Fire,
                    next: State, f: Firing, rest: seq<Firing>)
    requires |draws| > 0
    requires Step(evs, s, p, draws[0], fire) == Success(Stepped(next, Some(f.binding)))
    requires next.clock == f.clock
    requires Replays(evs, next, p, draws[1..], fire, rest)
    ensures Replays(evs, s, p, draws, fire, [f] + rest)
    ensures Reached(evs, s, p, draws, fire, [f] + rest) == Reached(evs, next, p, draws[1..], fire, rest)
  {
    var fs := [f] + rest;
    assert fs[0] == f && fs[1..] == rest;
  }

  /** One unfolding of a successful run: it stops at once past the horizon
      or out of draws; otherwise its first step succeeds, and either fires
      nothing and ends the run there, or fires in front of the rest of the run. */
  lemma SimulateSucceedsOnce(evs: seq<Event>, s: State, duration: real, p: Policy, draws: seq<nat>, fire: Fire)
    requires Simulate(evs, s, duration, p, draws, fire).Success?
    ensures var run := Simulate(evs, s, duration, p, draws, fire).value;
      (s.clock > duration || |draws| == 0) ==>
        run.fired == [] && run.final == s && run.halt != Quiescent
    ensures var run := Simulate(evs, s, duration, p, draws, fire).value;
      (s.clock <= duration && |draws| > 0) ==>
        && Step(evs, s, p, draws[0], fire).Success?
        && var st := Step(evs, s, p, draws[0], fire).value;
        && (st.fired.None? ==> run == Run(st.state, [], Quiescent))
        && (st.fired.Some? ==>
              && Simulate(evs, st.state, duration, p, draws[1..], fire).Success?
              && var rest := Simulate(evs, st.state, duration, p, draws[1..], fire).value;
              && run == Run(rest.final, [Firing(st.fired.value, st.state.clock)] + rest.fired, rest.halt))
  {
  }

  /** How a run ends: after replaying its firings, a run past the horizon or
      out of draws stops at the state they reached; a quiescent run takes one
      more step from there, within the duration, which fires nothing and
      leaves the final state. */
  predicate EndsIn(evs: seq<Event>, s: State, duration: real, p: Policy, draws: seq<nat>, fire: Fire, run: Run)
  {
    && Replays(evs, s, p, draws, fire, run.fired)
    && (run.halt != Quiescent ==> run.final == Reached(evs, s, p, draws, fire, run.fired))
    && (run.halt == Quiescent ==>
          && |run.fired| < |draws|
          && Reached(evs, s, p, draws, fire, run.fired).clock <= duration
          && Step(evs, Reached(evs, s, p, draws, fire, run.fired), p, draws[|run.fired|], fire)
             == Success(Stepped(run.final, None)))
  }

  lemma EndsCons(evs: seq<Event>, s: State, duration: real, p: Policy, draws: seq<nat>, fire: Fire,
                 next: State, f: Firing, run: Run)
    requires |draws| > 0
    requires Step(evs, s, p, draws[0], fire) == Success(Stepped(next, Some(f.binding)))
    requires next.clock == f.clock
    requires EndsIn(evs, next, duration, p, draws[1..], fire, run)
    ensures EndsIn(evs, s, duration, p, draws, fire, Run(run.final, [f] + run.fired, run.halt))
  {
    ReplaysCons(evs, s, p, draws, fire, next, f, run.fired);
    assert |[f] + run.fired| < |draws| ==> draws[|[f] + run.fired|] == draws[1..][|run.fired|];
  }

  /** Every run ends as `EndsIn` says: its final state is the one its
      replayed steps reach, or one more empty step from there. */
  lemma {:induction false} SimulateEnds(evs: seq<Event>, s: State, duration: real, p: Policy, draws: seq<nat>, fire: Fire)
    requires Simulate(evs, s, duration, p, draws, fire).Success?
    ensures EndsIn(evs, s, duration, p, draws, fire, Simulate(evs, s, duration, p, draws, fire).value)
    decreases |draws|
  {
    SimulateSucceedsOnce(evs, s, duration, p, draws, fire);
    if s.clock <= duration && |draws| > 0 {
      var st := Step(evs, s, p, draws[0], fire).value;
      if st.fired.Some? {
        var next := st.state;
        SimulateEnds(evs, next, duration, p, draws[1..], fire);
        EndsCons(evs, s, duration, p, draws, fire, next, Firing(st.fired.value, next.clock),
                 Simulate(evs, next, duration, p, draws[1..], fire).value);
      }
    }
  }

  /** A run that raises has replayed some firings, within the duration, and
      then met a step that raises that error. */
  predicate FailsAfter(evs: seq<Event>, s: State, duration: real, p: Policy, draws: seq<nat>, fire: Fire, fs: seq<Firing>, e: SimError)
  {
    && |fs| < |draws|
    && Replays(evs, s, p, draws, fire, fs)
    && Reached(evs, s, p, draws, fire, fs).clock <= duration
    && Step(evs, Reached(evs, s, p, draws, fire, fs), p, draws[|fs|], fire) == Failure(e)
  }

  /** One successful firing step in front of a failing tail fails the same way. */
  lemma FailsAfterCons(evs: seq<Event>, s: State, duration: real, p: Policy, draws: seq<nat>, fire: Fire,
                       next: State, f: Firing, rest: seq<Firing>, e: SimError)
    requires |draws| > 0 && s.clock <= duration
    requires Step(evs, s, p, draws[0], fire) == Success(Stepped(next, Some(f.binding)))
    requires next.clock == f.clock
    requires FailsAfter(evs, next, duration, p, draws[1..], fire, rest, e)
    ensures FailsAfter(evs, s, duration, p, draws, fire, [f] + rest, e)
  {
    ReplaysCons(evs, s, p, draws, fire, next, f, rest);
    assert draws[|[f] + rest|] == draws[1..][|rest|];
  }

  /** One unfolding of a failing run: it was within the duration with a
      draw left, and either its first step raised or that step fired and the
      rest of the run raised. */
  lemma SimulateFailsOnce(evs: seq<Event>, s: State, duration: real, p: Policy, draws: seq<nat>, fire: Fire, e: SimError)
    requires Simulate(evs, s, duration, p, draws, fire) == Failure(e)
    ensures |draws| > 0 && s.clock <= duration
    ensures Step(evs, s, p, draws[0], fire).Failure? ==> Step(evs, s, p, draws[0], fire) == Failure(e)
    ensures Step(evs, s, p, draws[0], fire).Success? ==>
      && Step(evs, s, p, draws[0], fire).value.fired.Some?
      && Simulate(evs, Step(evs, s, p, draws[0], fire).value.state, duration, p, draws[1..], fire) == Failure(e)
  {
  }

  /** The firings a run makes before its first step that raises or fires
      nothing, or before it stops. */
  function FiredBefore(evs: seq<Event>, s: State, duration: real, p: Policy, draws: seq<nat>, fire: Fire): seq<Firing>
    decreases |draws|
  {
    if s.clock > duration || |draws| == 0 then []
    else match Step(evs, s, p, draws[0], fire)
      case Failure(_) => []
      case Success(st) =>
        if st.fired.None? then []
        else [Firing(st.fired.value, st.state.clock)] + FiredBefore(evs, st.state, duration, p, draws[1..], fire)
  }

  /** `simulate` raises only by a step raising: the error is the one the
      step from the state the earlier firings reached raises. */
  lemma {:induction false} SimulateFails(evs: seq<Event>, s: State, duration: real, p: Policy, draws: seq<nat>, fire: Fire, e: SimError)
    requires Simulate(evs, s, duration, p, draws, fire) == Failure(e)
    ensures FailsAfter(evs, s, duration, p, draws, fire, FiredBefore(evs, s, duration, p, draws, fire), e)
    decreases |draws|
  {
    SimulateFailsOnce(evs, s, duration, p, draws, fire, e);
    var st := Step(evs, s, p, draws[0], fire);
    if st.Success? {
      var next := st.value.state;
      SimulateFails(evs, next, duration, p, draws[1..], fire, e);
      FailsAfterCons(evs, s, duration, p, draws, fire, next, Firing(st.value.fired.value, next.clock),
                     FiredBefore(evs, next, duration, p, draws[1..], fire), e);
    }
  }

  /** Under simpn's default policy a net whose events all have incoming
      places never raises: `simulate` always returns a run. */
  lemma {:induction false} FirstBindingNeverFails(evs: seq<Event>, s: State, duration: real, draws: seq<nat>, fire: Fire)
    requires forall i :: 0 <= i < |evs| ==> |evs[i].incoming| > 0
    ensures Simulate(evs, s, duration, FirstBinding, draws, fire).Success?
    decreases |draws|
  {
    if s.clock <= duration && |draws| > 0 {
      EventsWithPlacesNeverRaise(evs, s);
      var st := Step(evs, s, FirstBinding, draws[0], fire);
      assert st.Success?;
      if st.value.fired.Some? {
        FirstBindingNeverFails(evs, st.value.state, duration, draws[1..], fire);
      }
    }
  }
}

=== FILE: layout.dfy ===
/** The layout file a visualisation saves and loads: a version line, the zoom
    level, the window size and one "id,x,y" line per node. */
module Layout {
  import opened Wrappers
  import opened Text

  /** A coordinate or size as Python holds it: an int, or a float written
      in its plain decimal form. */
  datatype Number = Int(i: int) | Float(f: FloatText)

  /** `f"{n}"`. */
  function NumberText(n: Number): (r: string)
    ensures |r| > 0 && !IsSpace(r[0]) && !IsSpace(r[|r| - 1])
    ensures ',' !in r && '\n' !in r && '\r' !in r
  {
    match n
    case Int(i) => IntText(i)
    case Float(f) => DecimalText(f)
  }

  /** `int(n)`: floats truncate toward zero. */
  function Whole(n: Number): int
  {
    match n
    case Int(i) => i
    case Float(f) => Truncate(DecimalValue(f))
  }

  datatype Pos = Pos(x: Number, y: Number)

  datatype Node = Node(id: string, pos: Pos)

  datatype Size = Size(width: Number, height: Number)

  /** A node id that stops the save, with the text the file holds by then. */
  datatype SaveError = UnsavableId(id: string, written: string)

  const Version := "version 2.0"

  /** The ids the save accepts: no comma and no line feed. */
  predicate SavableAsWritten(id: string)
  {
    ',' !in id && '\n' !in id
  }

  /** The ids that also read back as themselves: no carriage return, which
      reading turns into a line break, and no leading whitespace, which
      reading strips. */
  predicate Savable(id: string)
  {
    SavableAsWritten(id) && '\r' !in id && (|id| == 0 || !IsSpace(id[0]))
  }

  function HeaderLines(zoom: FloatText, size: Size): seq<string>
  {
    [Version, DecimalText(zoom), IntText(Whole(size.width)) + "," + IntText(Whole(size.height))]
  }

  function NodeLine(n: Node): string
  {
    n.id + "," + NumberText(n.pos.x) + "," + NumberText(n.pos.y)
  }

  function NodeLines(nodes: seq<Node>): (r: seq<string>)
    ensures |r| == |nodes|
    ensures forall k :: 0 <= k < |nodes| ==> r[k] == NodeLine(nodes[k])
  {
    seq(|nodes|, k requires 0 <= k < |nodes| => NodeLine(nodes[k]))
  }

  /** The text of the header and of the first `count` nodes, one line each. */
  function Written(zoom: FloatText, size: Size, nodes: seq<Node>, count: nat): string
    requires count <= |nodes|
  {
    Concat(Terminated(HeaderLines(zoom, size) + NodeLines(nodes[..count])))
  }

  /** The position of the first node whose id `ok` refuses. */
  function FirstRefused(nodes: seq<Node>, ok: string -> bool, from: nat): (r: Option<nat>)
    requires from <= |nodes|
    ensures r.None? <==> forall k :: from <= k < |nodes| ==> ok(nodes[k].id)
    ensures r.Some? ==> from <= r.value < |nodes| && !ok(nodes[r.value].id)
    ensures r.Some? ==> forall k :: from <= k < r.value ==> ok(nodes[k].id)
    decreases |nodes| - from
  {
    if from == |nodes| then None
    else if !ok(nodes[from].id) then Some(from)
    else FirstRefused(nodes, ok, from + 1)
  }

  /** Saving as the visualisation does it: the header is written, then each
      node line, until a node whose id holds a comma or line feed stops it. */
  function SaveLayout(zoom: FloatText, size: Size, nodes: seq<Node>): (r: Result<string, SaveError>)
    ensures r.Failure? <==> exists k :: 0 <= k < |nodes| && !SavableAsWritten(nodes[k].id)
    ensures r.Failure? ==> exists k :: (0 <= k < |nodes| && !SavableAsWritten(nodes[k].id)
                                     && (forall j :: 0 <= j < k ==> SavableAsWritten(nodes[j].id))
                                     && r.error == UnsavableId(nodes[k].id, Written(zoom, size, nodes, k)))
    ensures r.Success? ==> r.value == Written(zoom, size, nodes, |nodes|)
  {
    match FirstRefused(nodes, SavableAsWritten, 0)
    case Some(k) => Failure(UnsavableId(nodes[k].id, Written(zoom, size, nodes, k)))
    case None => Success(Written(zoom, size, nodes, |nodes|))
  }

  /** Saving with the check widened to every id that does not read back. */
  function SaveLayoutChecked(zoom: FloatText, size: Size, nodes: seq<Node>): (r: Result<string, SaveError>)
    ensures r.Failure? <==> exists k :: 0 <= k < |nodes| && !Savable(nodes[k].id)
    ensures r.Failure? ==> exists k :: (0 <= k < |nodes| && !Savable(nodes[k].id)
                                     && (forall j :: 0 <= j < k ==> Savable(nodes[j].id))
                                     && r.error == UnsavableId(nodes[k].id, Written(zoom, size, nodes, k)))
    ensures r.Success? ==> r.value == Written(zoom, size, nodes, |nodes|)
  {
    match FirstRefused(nodes, Savable, 0)
    case Some(k) => Failure(UnsavableId(nodes[k].id, Written(zoom, size, nodes, k)))
    case None => Success(Written(zoom, size, nodes, |nodes|))
  }

  /** What a load leaves behind: the zoom level, the window size (as many
      numbers as the size line holds) and the node positions. */
  datatype Loaded = Loaded(zoom: real, size: seq<int>, positions: map<string, Pos>)

  /** The `ValueError`s a malformed layout file raises, with the offending line. */
  datatype LoadError = BadZoom(line: string) | BadSize(line: string) | BadNodeLine(line: string) | BadCoordinate(line: string)

  /** The `k`th line `readline` returns; the empty string past the end. */
  function LineAt(lines: seq<string>, k: nat): string
  {
    if k < |lines| then lines[k] else ""
  }

  function Drop(lines: seq<string>, k: nat): seq<string>
  {
    if k <= |lines| then lines[k..] else []
  }

  /** `tuple(map(int, fields))`. */
  function ParseInts(fields: seq<string>): (r: Option<seq<int>>)
    ensures r.Some? ==> |r.value| == |fields|
    ensures r.Some? <==> forall k :: 0 <= k < |fields| ==> ParseInt(fields[k]).Some?
    ensures r.Some? ==> forall k :: 0 <= k < |fields| ==> ParseInt(fields[k]) == Some(r.value[k])
  {
    if |fields| == 0 then Some([])
    else
      var rest := ParseInts(fields[1..]);
      assert forall k :: 1 <= k < |fields| ==> fields[k] == fields[1..][k - 1];
      match ParseInt(fields[0])
      case None => None
      case Some(v) =>
        match rest
        case None => None
        case Some(vs) => Some([v] + vs)
  }

  /** The position a node takes from its line: `int(float(x)), int(float(y))`. */
  function ReadPos(x: real, y: real): Pos
  {
    Pos(Int(Truncate(x)), Int(Truncate(y)))
  }

  /** The comma-separated fields of a stripped line; always at least one. */
  function Fields(line: string): (r: seq<string>)
    ensures |r| >= 1
  {
    Split(Strip(line))
  }

  /** A node line `Place` accepts when `keys` are the known ids: exactly three
      fields, and two numbers after a known id. */
  predicate LineOk(line: string, keys: set<string>)
  {
    var f := Fields(line);
    |f| == 3 && (f[0] in keys ==> ParseFloat(f[1]).Some? && ParseFloat(f[2]).Some?)
  }

  /** The positions after reading one node line: a known id moves to the
      line's coordinates, read as floats and truncated to ints. */
  function Moved(positions: map<string, Pos>, line: string): (r: map<string, Pos>)
    ensures r.Keys == positions.Keys
  {
    var f := Fields(line);
    if |f| == 3 && f[0] in positions && ParseFloat(f[1]).Some? && ParseFloat(f[2]).Some?
    then positions[f[0] := ReadPos(ParseFloat(f[1]).value, ParseFloat(f[2]).value)]
    else positions
  }

  /** The node lines: each must hold exactly three fields; a line for a
      known id moves that node, other lines are skipped unread. */
  function Place(lines: seq<string>, positions: map<string, Pos>): (r: Result<map<string, Pos>, LoadError>)
    ensures r.Success? ==> r.value.Keys == positions.Keys
    ensures r.Success? ==> forall id :: id in positions && r.value[id] != positions[id] ==> r.value[id].x.Int? && r.value[id].y.Int?
    decreases |lines|
  {
    if |lines| == 0 then Success(positions)
    else
      var f := Fields(lines[0]);
      if |f| != 3 then Failure(BadNodeLine(lines[0]))
      else if f[0] in positions && (ParseFloat(f[1]).None? || ParseFloat(f[2]).None?) then Failure(BadCoordinate(lines[0]))
      else Place(lines[1..], Moved(positions, lines[0]))
  }

  /** Loading a layout file into a visualisation whose zoom is `zoom` and
      whose nodes stand at `known`: the file is read in text mode, so its
      line ends are decoded first. */
  function LoadLayout(text: string, zoom: real, known: map<string, Pos>): (r: Result<Loaded, LoadError>)
    ensures r.Success? ==> r.value.positions.Keys == known.Keys
    ensures r.Success? ==> |r.value.size| > 0
    ensures r.Success? && Strip(LineAt(Lines(Universal(text)), 0)) != Version ==> r.value.zoom == zoom
    ensures var lines := Lines(Universal(text));
      r.Success? && Strip(LineAt(lines, 0)) == Version ==>
        ParseFloat(Strip(LineAt(lines, 1))) == Some(r.value.zoom)
    ensures var lines := Lines(Universal(text));
      r.Success? <==>
        && (Strip(LineAt(lines, 0)) == Version ==> ParseFloat(Strip(LineAt(lines, 1))).Some?)
        && ParseInts(Split(SizeLine(lines))).Some?
        && Place(Drop(lines, HeaderCount(lines)), known).Success?
    ensures var lines := Lines(Universal(text));
      r.Success? ==>
        && ParseInts(Split(SizeLine(lines))) == Some(r.value.size)
        && Place(Drop(lines, HeaderCount(lines)), known) == Success(r.value.positions)
  {
    ReadLayout(Lines(Universal(text)), zoom, known)
  }

  /** The number of header lines: three after a version line, one (the size)
      in the older format. */
  function HeaderCount(lines: seq<string>): nat
  {
    if Strip(LineAt(lines, 0)) == Version then 3 else 1
  }

  /** The stripped line the window size is read from. */
  function SizeLine(lines: seq<string>): string
  {
    if Strip(LineAt(lines, 0)) == Version then Strip(LineAt(lines, 2)) else Strip(LineAt(lines, 0))
  }

  /** A first line other than the version line is a size line from the older
      format, which holds no zoom. */
  function ReadLayout(lines: seq<string>, zoom: real, known: map<string, Pos>): (r: Result<Loaded, LoadError>)
    ensures r.Success? ==> r.value.positions.Keys == known.Keys
    ensures r.Success? ==> |r.value.size| > 0
    ensures r.Success? && Strip(LineAt(lines, 0)) != Version ==> r.value.zoom == zoom
    ensures r.Success? && Strip(LineAt(lines, 0)) == Version ==>
      ParseFloat(Strip(LineAt(lines, 1))) == Some(r.value.zoom)
    ensures Strip(LineAt(lines, 0)) == Version && ParseFloat(Strip(LineAt(lines, 1))).None? ==>
      r == Failure(BadZoom(LineAt(lines, 1)))
    ensures (Strip(LineAt(lines, 0)) == Version && ParseFloat(Strip(LineAt(lines, 1))).Some?
             && ParseInts(Split(SizeLine(lines))).None?) ==>
      r == Failure(BadSize(LineAt(lines, 2)))
    ensures Strip(LineAt(lines, 0)) != Version && ParseInts(Split(SizeLine(lines))).None? ==>
      r == Failure(BadSize(LineAt(lines, 0)))
    ensures ((Strip(LineAt(lines, 0)) == Version ==> ParseFloat(Strip(LineAt(lines, 1))).Some?)
             && ParseInts(Split(SizeLine(lines))).Some?
             && Place(Drop(lines, HeaderCount(lines)), known).Failure?) ==>
      r == Failure(Place(Drop(lines, HeaderCount(lines)), known).error)
    ensures r.Success? <==>
      && (Strip(LineAt(lines, 0)) == Version ==> ParseFloat(Strip(LineAt(lines, 1))).Some?)
      && ParseInts(Split(SizeLine(lines))).Some?
      && Place(Drop(lines, HeaderCount(lines)), known).Success?
    ensures r.Success? ==>
      && ParseInts(Split(SizeLine(lines))) == Some(r.value.size)
      && Place(Drop(lines, HeaderCount(lines)), known) == Success(r.value.positions)
  {
    var first := Strip(LineAt(lines, 0));
    if first == Version then ReadVersioned(lines, known)
    else
      match ParseInts(Split(first))
      case None => Failure(BadSize(LineAt(lines, 0)))
      case Some(size) =>
        match Place(Drop(lines, 1), known)
        case Failure(e) => Failure(e)
        case Success(positions) => Success(Loaded(zoom, size, positions))
  }

  /** The lines after the version line: the zoom, the size, then the nodes. */
  function ReadVersioned(lines: seq<string>, known: map<string, Pos>): (r: Result<Loaded, LoadError>)
    ensures r.Success? ==> r.value.positions.Keys == known.Keys
    ensures r.Success? ==> |r.value.size| > 0
    ensures r.Success? ==> ParseFloat(Strip(LineAt(lines, 1))) == Some(r.value.zoom)
    ensures ParseFloat(Strip(LineAt(lines, 1))).None? ==> r == Failure(BadZoom(LineAt(lines, 1)))
    ensures ParseFloat(Strip(LineAt(lines, 1))).Some? && ParseInts(Split(Strip(LineAt(lines, 2)))).None? ==>
      r == Failure(BadSize(LineAt(lines, 2)))
    ensures r.Success? <==>
      && ParseFloat(Strip(LineAt(lines, 1))).Some?
      && ParseInts(Split(Strip(LineAt(lines, 2)))).Some?
      && Place(Drop(lines, 3), known).Success?
    ensures r.Success? ==>
      && ParseInts(Split(Strip(LineAt(lines, 2)))) == Some(r.value.size)
      && Place(Drop(lines, 3), known) == Success(r.value.positions)
  {
    match ParseFloat(Strip(LineAt(lines, 1)))
    case None => Failure(BadZoom(LineAt(lines, 1)))
    case Some(z) =>
      match ParseInts(Split(Strip(LineAt(lines, 2))))
      case None => Failure(BadSize(LineAt(lines, 2)))
      case Some(size) =>
        match Place(Drop(lines, 3), known)
        case Failure(e) => Failure(e)
        case Success(positions) => Success(Loaded(z, size, positions))
  }

  /** The positions after setting, in order, each listed node that `known`
      holds to its position read back as whole numbers. */
  function Restore(known: map<string, Pos>, nodes: seq<Node>): (r: map<string, Pos>)
    ensures r.Keys == known.Keys
    decreases |nodes|
  {
    if |nodes| == 0 then known
    else
      var n := nodes[0];
      Restore(if n.id in known then known[n.id := WholePos(n.pos)] else known, nodes[1..])
  }

  function WholePos(p: Pos): Pos
  {
    Pos(Int(Whole(p.x)), Int(Whole(p.y)))
  }

  /** The nodes with the leading whitespace of their ids removed. */
  function StripIds(nodes: seq<Node>): (r: seq<Node>)
    ensures |r| == |nodes|
    ensures forall k :: 0 <= k < |nodes| ==> r[k] == Node(StripLeft(nodes[k].id), nodes[k].pos)
  {
    seq(|nodes|, k requires 0 <= k < |nodes| => Node(StripLeft(nodes[k].id), nodes[k].pos))
  }

  /** One line at a time: a malformed first line raises, otherwise reading
      goes on from the positions it leaves. */
  lemma PlaceCons(lines: seq<string>, positions: map<string, Pos>)
    requires |lines| > 0
    ensures !LineOk(lines[0], positions.Keys) ==>
      Place(lines, positions) == Failure(if |Fields(lines[0])| != 3 then BadNodeLine(lines[0]) else BadCoordinate(lines[0]))
    ensures LineOk(lines[0], positions.Keys) ==> Place(lines, positions) == Place(lines[1..], Moved(positions, lines[0]))
  {
  }

  /** Reading node lines succeeds exactly when every line is well formed:
      three fields, and two numbers after a known id. */
  lemma {:induction false} PlaceSucceeds(lines: seq<string>, positions: map<string, Pos>)
    ensures Place(lines, positions).Success? <==> forall k :: 0 <= k < |lines| ==> LineOk(lines[k], positions.Keys)
    decreases |lines|
  {
    if |lines| > 0 {
      PlaceCons(lines, positions);
      PlaceSucceeds(lines[1..], Moved(positions, lines[0]));
      assert forall k :: 1 <= k < |lines| ==> lines[k] == lines[1..][k - 1];
    }
  }

  /** The first malformed line raises: `BadNodeLine` when it does not hold
      three fields, `BadCoordinate` when a known id's coordinates are not
      numbers. */
  lemma {:induction false} PlaceError(lines: seq<string>, positions: map<string, Pos>)
    requires Place(lines, positions).Failure?
    ensures exists k :: FirstBadLine(lines, positions.Keys, k) && Place(lines, positions).error == LineError(lines[k])
    decreases |lines|
  {
    PlaceCons(lines, positions);
    if LineOk(lines[0], positions.Keys) {
      var next := Moved(positions, lines[0]);
      PlaceError(lines[1..], next);
      var k :| FirstBadLine(lines[1..], positions.Keys, k) && Place(lines[1..], next).error == LineError(lines[1..][k]);
      FirstBadShift(lines, positions.Keys, k);
    } else {
      assert FirstBadLine(lines, positions.Keys, 0);
    }
  }

  /** Line `k` is the first line that does not read. */
  predicate FirstBadLine(lines: seq<string>, keys: set<string>, k: int)
  {
    && 0 <= k < |lines|
    && (forall j :: 0 <= j < k ==> LineOk(lines[j], keys))
    && !LineOk(lines[k], keys)
  }

  /** The error a line that does not read raises: too few or too many
      fields, or a coordinate that is not a number. */
  function LineError(line: string): LoadError
  {
    if |Fields(line)| != 3 then BadNodeLine(line) else BadCoordinate(line)
  }

  lemma FirstBadShift(lines: seq<string>, keys: set<string>, k: int)
    requires |lines| > 0 && LineOk(lines[0], keys) && FirstBadLine(lines[1..], keys, k)
    ensures FirstBadLine(lines, keys, k + 1) && lines[k + 1] == lines[1..][k]
  {
    assert forall j :: 1 <= j < k + 1 ==> lines[j] == lines[1..][j - 1];
  }

  /** A known node that no line names keeps its position. */
  lemma {:induction false} PlaceUnnamed(lines: seq<string>, positions: map<string, Pos>, id: string)
    requires Place(lines, positions).Success? && id in positions
    requires forall k :: 0 <= k < |lines| ==> Fields(lines[k])[0] != id
    ensures Place(lines, positions).value[id] == positions[id]
    decreases |lines|
  {
    if |lines| > 0 {
      PlaceCons(lines, positions);
      assert Fields(lines[0])[0] != id;
      assert forall k :: 0 <= k < |lines| - 1 ==> lines[1..][k] == lines[k + 1];
      PlaceUnnamed(lines[1..], Moved(positions, lines[0]), id);
    }
  }

  /** A known node named by some line takes the position of the last line
      naming it: the two coordinates read as floats and truncated to ints. */
  lemma {:induction false} PlaceLast(lines: seq<string>, positions: map<string, Pos>, id: string, k: nat)
    requires Place(lines, positions).Success? && id in positions
    requires k < |lines| && Fields(lines[k])[0] == id
    requires forall j :: k < j < |lines| ==> Fields(lines[j])[0] != id
    ensures var f := Fields(lines[k]);
      && |f| == 3 && ParseFloat(f[1]).Some? && ParseFloat(f[2]).Some?
      && Place(lines, positions).value[id] == ReadPos(ParseFloat(f[1]).value, ParseFloat(f[2]).value)
    decreases k
  {
    PlaceCons(lines, positions);
    var next := Moved(positions, lines[0]);
    assert Place(lines, positions) == Place(lines[1..], next);
    if k == 0 {
      assert forall j :: 0 <= j < |lines[1..]| ==> Fields(lines[1..][j])[0] != id by {
        assert forall j :: 0 <= j < |lines| - 1 ==> lines[1..][j] == lines[j + 1];
      }
      PlaceUnnamed(lines[1..], next, id);
      MovedNamed(positions, lines[0], id);
    } else {
      assert forall j :: k - 1 < j < |lines[1..]| ==> Fields(lines[1..][j])[0] != id by {
        assert forall j :: 0 <= j < |lines| - 1 ==> lines[1..][j] == lines[j + 1];
      }
      assert lines[1..][k - 1] == lines[k];
      PlaceLast(lines[1..], next, id, k - 1);
    }
  }

  /** A well-formed line naming a known node moves it to the line's
      coordinates. */
  lemma MovedNamed(positions: map<string, Pos>, line: string, id: string)
    requires LineOk(line, positions.Keys) && id in positions && Fields(line)[0] == id
    ensures var f := Fields(line);
      && |f| == 3 && ParseFloat(f[1]).Some? && ParseFloat(f[2]).Some?
      && Moved(positions, line)[id] == ReadPos(ParseFloat(f[1]).value, ParseFloat(f[2]).value)
  {
  }

  /** A number reads back, through `int(float(text))`, as its whole part. */
  lemma NumberTextReads(n: Number)
    ensures ParseFloat(NumberText(n)).Some?
    ensures Truncate(ParseFloat(NumberText(n)).value) == Whole(n)
  {
    match n
    case Int(i) =>
      IntTextParses(i);
      assert Truncate(i as real) == i;
    case Float(f) =>
      DecimalTextParses(f);
  }

  /** Reading a node line strips its leading whitespace, which can only come
      from the id, and its line feed. */
  lemma StripNodeLine(n: Node)
    ensures Strip(NodeLine(n) + "\n") == StripLeft(n.id) + ("," + NumberText(n.pos.x) + "," + NumberText(n.pos.y))
  {
    var rest := "," + NumberText(n.pos.x) + "," + NumberText(n.pos.y);
    assert NodeLine(n) == n.id + rest;
    StripLine(n.id, rest);
  }

  /** A written node line reads back as three fields: the id without its
      leading whitespace, then the two coordinate texts. */
  lemma NodeLineFields(n: Node)
    requires SavableAsWritten(n.id)
    ensures Split(Strip(NodeLine(n) + "\n")) == [StripLeft(n.id), NumberText(n.pos.x), NumberText(n.pos.y)]
  {
    StripNodeLine(n);
    var sid := StripLeft(n.id);
    StripLeftRemoves(n.id);
    assert ',' !in sid;
    SplitThree(sid, NumberText(n.pos.x), NumberText(n.pos.y));
  }

  /** The position map after one saved node line is read back. */
  function AfterLine(known: map<string, Pos>, n: Node): map<string, Pos>
  {
    if n.id in known then known[n.id := WholePos(n.pos)] else known
  }

  /** Reading one written node line moves the node it names, if known. */
  lemma PlaceStep(n: Node, more: seq<string>, known: map<string, Pos>)
    requires SavableAsWritten(n.id)
    ensures Place([NodeLine(n) + "\n"] + more, known) == Place(more, AfterLine(known, Node(StripLeft(n.id), n.pos)))
  {
    var line := NodeLine(n) + "\n";
    var sid := StripLeft(n.id);
    assert LineOk(line, known.Keys) && Moved(known, line) == AfterLine(known, Node(sid, n.pos)) by {
      NodeLineMoves(n, known);
    }
    PlaceGoodLine(line, more, known);
  }

  /** A written node line is well formed and moves the node its stripped id
      names, if known, to its position in whole numbers. */
  lemma NodeLineMoves(n: Node, known: map<string, Pos>)
    requires SavableAsWritten(n.id)
    ensures LineOk(NodeLine(n) + "\n", known.Keys)
    ensures Moved(known, NodeLine(n) + "\n") == AfterLine(known, Node(StripLeft(n.id), n.pos))
  {
    var line := NodeLine(n) + "\n";
    var f := Fields(line);
    assert f == [StripLeft(n.id), NumberText(n.pos.x), NumberText(n.pos.y)] by {
      NodeLineFields(n);
    }
    assert ParseFloat(f[1]).Some? && ParseFloat(f[2]).Some?
        && ReadPos(ParseFloat(f[1]).value, ParseFloat(f[2]).value) == WholePos(n.pos) by {
      NumberTextReads(n.pos.x);
      NumberTextReads(n.pos.y);
    }
    MovedTo(known, line, StripLeft(n.id), WholePos(n.pos));
  }

  /** A line of three fields whose coordinates read as numbers moves the
      node it names to those coordinates, if the node is known. */
  lemma MovedTo(positions: map<string, Pos>, line: string, id: string, p: Pos)
    requires var f := Fields(line);
      && |f| == 3 && f[0] == id && ParseFloat(f[1]).Some? && ParseFloat(f[2]).Some?
      && ReadPos(ParseFloat(f[1]).value, ParseFloat(f[2]).value) == p
    ensures LineOk(line, positions.Keys)
    ensures Moved(positions, line) == if id in positions then positions[id := p] else positions
  {
  }

  lemma PlaceGoodLine(line: string, more: seq<string>, known: map<string, Pos>)
    requires LineOk(line, known.Keys)
    ensures Place([line] + more, known) == Place(more, Moved(known, line))
  {
    var lines := [line] + more;
    assert lines[0] == line && lines[1..] == more;
    PlaceCons(lines, known);
  }

  lemma WrittenCons(nodes: seq<Node>)
    requires |nodes| > 0
    ensures Terminated(NodeLines(nodes)) == [NodeLine(nodes[0]) + "\n"] + Terminated(NodeLines(nodes[1..]))
    ensures StripIds(nodes) == [Node(StripLeft(nodes[0].id), nodes[0].pos)] + StripIds(nodes[1..])
  {
    LinesCons(nodes);
    IdsCons(nodes);
  }

  lemma LinesCons(nodes: seq<Node>)
    requires |nodes| > 0
    ensures Terminated(NodeLines(nodes)) == [NodeLine(nodes[0]) + "\n"] + Terminated(NodeLines(nodes[1..]))
  {
    var ls := NodeLines(nodes);
    assert ls[0] == NodeLine(nodes[0]);
    assert ls[1..] == NodeLines(nodes[1..]) by {
      NodeLinesTail(nodes);
    }
    TerminatedCons(ls);
  }

  lemma NodeLinesTail(nodes: seq<Node>)
    requires |nodes| > 0
    ensures NodeLines(nodes)[1..] == NodeLines(nodes[1..])
  {
    var l, r := NodeLines(nodes)[1..], NodeLines(nodes[1..]);
    forall k | 0 <= k < |l|
      ensures l[k] == r[k]
    {
      assert nodes[1..][k] == nodes[k + 1];
    }
  }

  lemma IdsCons(nodes: seq<Node>)
    requires |nodes| > 0
    ensures StripIds(nodes) == [Node(StripLeft(nodes[0].id), nodes[0].pos)] + StripIds(nodes[1..])
  {
    var l, r := StripIds(nodes), [Node(StripLeft(nodes[0].id), nodes[0].pos)] + StripIds(nodes[1..]);
    assert |l| == |r|;
    forall k | 0 <= k < |l|
      ensures l[k] == r[k]
    {
      if k > 0 {
        assert r[k] == StripIds(nodes[1..])[k - 1];
        assert nodes[1..][k - 1] == nodes[k];
      }
    }
  }

  /** The node lines of a save, read back, move every known node to its saved
      position in whole numbers, under its id without leading whitespace. */
  lemma {:induction false} PlaceWritten(nodes: seq<Node>, known: map<string, Pos>)
    requires forall k :: 0 <= k < |nodes| ==> SavableAsWritten(nodes[k].id)
    ensures Place(Terminated(NodeLines(nodes)), known) == Success(Restore(known, StripIds(nodes)))
    decreases |nodes|
  {
    if |nodes| > 0 {
      WrittenCons(nodes);
      PlaceStep(nodes[0], Terminated(NodeLines(nodes[1..])), known);
      PlaceWritten(nodes[1..], AfterLine(known, Node(StripLeft(nodes[0].id), nodes[0].pos)));
    }
  }

  lemma VersionLineReads()
    ensures Strip(Version + "\n") == Version
  {
    assert AllSpace("\n");
    StripKeeps(Version, "\n");
  }

  lemma ZoomLineReads(zoom: FloatText)
    ensures ParseFloat(Strip(DecimalText(zoom) + "\n")) == Some(DecimalValue(zoom))
  {
    assert AllSpace("\n");
    StripKeeps(DecimalText(zoom), "\n");
    DecimalTextParses(zoom);
  }

  lemma SizeLineReads(size: Size)
    ensures ParseInts(Split(Strip(HeaderLines(Numeral(false, 0, "0"), size)[2] + "\n"))) == Some([Whole(size.width), Whole(size.height)])
  {
    var a, b := IntText(Whole(size.width)), IntText(Whole(size.height));
    var line := a + "," + b;
    assert HeaderLines(Numeral(false, 0, "0"), size)[2] == line;
    assert line[0] == a[0] && line[|line| - 1] == b[|b| - 1];
    assert AllSpace("\n");
    StripKeeps(line, "\n");
    SplitTwo(a, b);
    IntPairReads(Whole(size.width), Whole(size.height));
  }

  lemma IntPairReads(a: int, b: int)
    ensures ParseInts([IntText(a), IntText(b)]) == Some([a, b])
  {
    IntTextParses(a);
    IntTextParses(b);
    ParsedTwo(IntText(a), IntText(b), a, b);
  }

  lemma ParsedTwo(f: string, g: string, v: int, w: int)
    requires ParseInt(f) == Some(v) && ParseInt(g) == Some(w)
    ensures ParseInts([f, g]) == Some([v, w])
  {
    ParsedOne(g, w);
    assert [f, g][1..] == [g];
    assert [v] + [w] == [v, w];
  }

  lemma ParsedOne(field: string, v: int)
    requires ParseInt(field) == Some(v)
    ensures ParseInts([field]) == Some([v])
  {
    assert [field][1..] == [];
    assert ParseInts([]) == Some([]);
    assert [v] + [] == [v];
  }

  /** The header of a save reads back as its zoom level and size. */
  lemma HeaderReads(zoom: FloatText, size: Size, lines: seq<string>)
    requires |lines| >= 3
    requires lines[..3] == Terminated(HeaderLines(zoom, size))
    ensures Strip(LineAt(lines, 0)) == Version
    ensures ParseFloat(Strip(LineAt(lines, 1))) == Some(DecimalValue(zoom))
    ensures ParseInts(Split(Strip(LineAt(lines, 2)))) == Some([Whole(size.width), Whole(size.height)])
  {
    HeaderLinesAt(zoom, size, lines);
    VersionLineReads();
    ZoomLineReads(zoom);
    SizeLineReads(size);
  }

  lemma HeaderLinesAt(zoom: FloatText, size: Size, lines: seq<string>)
    requires |lines| >= 3
    requires lines[..3] == Terminated(HeaderLines(zoom, size))
    ensures LineAt(lines, 0) == Version + "\n"
    ensures LineAt(lines, 1) == DecimalText(zoom) + "\n"
    ensures LineAt(lines, 2) == HeaderLines(Numeral(false, 0, "0"), size)[2] + "\n"
  {
    var h := HeaderLines(zoom, size);
    assert lines[0] == lines[..3][0] == h[0] + "\n";
    assert lines[1] == lines[..3][1] == h[1] + "\n";
    assert lines[2] == lines[..3][2] == h[2] + "\n";
  }

  /** The lines of a save, when no id holds a carriage return. */
  lemma SavedLines(zoom: FloatText, size: Size, nodes: seq<Node>)
    requires forall k :: 0 <= k < |nodes| ==> SavableAsWritten(nodes[k].id) && '\r' !in nodes[k].id
    ensures Lines(Universal(Written(zoom, size, nodes, |nodes|))) == Terminated(HeaderLines(zoom, size) + NodeLines(nodes))
  {
    var all := HeaderLines(zoom, size) + NodeLines(nodes);
    assert nodes[..|nodes|] == nodes;
    LinesClean(zoom, size, nodes);
    ConcatFree(all, '\r');
    UniversalKeepsPlain(Concat(Terminated(all)));
    LinesOfWritten(all);
  }

  lemma LinesClean(zoom: FloatText, size: Size, nodes: seq<Node>)
    requires forall k :: 0 <= k < |nodes| ==> SavableAsWritten(nodes[k].id) && '\r' !in nodes[k].id
    ensures Free(HeaderLines(zoom, size) + NodeLines(nodes), '\r')
    ensures Free(HeaderLines(zoom, size) + NodeLines(nodes), '\n')
  {
    HeaderClean(zoom, size);
    NodeLinesClean(nodes);
    FreeAppend(HeaderLines(zoom, size), NodeLines(nodes), '\r');
    FreeAppend(HeaderLines(zoom, size), NodeLines(nodes), '\n');
  }

  lemma NodeLinesClean(nodes: seq<Node>)
    requires forall k :: 0 <= k < |nodes| ==> SavableAsWritten(nodes[k].id) && '\r' !in nodes[k].id
    ensures Free(NodeLines(nodes), '\r') && Free(NodeLines(nodes), '\n')
  {
  }

  lemma HeaderClean(zoom: FloatText, size: Size)
    ensures Free(HeaderLines(zoom, size), '\r') && Free(HeaderLines(zoom, size), '\n')
  {
    var h := HeaderLines(zoom, size);
    assert '\r' !in h[0] && '\n' !in h[0] by {
      VersionClean();
    }
    assert '\r' !in h[2] && '\n' !in h[2] by {
      SizeLineClean(Whole(size.width), Whole(size.height));
    }
  }

  lemma VersionClean()
    ensures '\r' !in Version && '\n' !in Version
  {
    assert Version == ['v', 'e', 'r', 's', 'i', 'o', 'n', ' ', '2', '.', '0'];
  }

  lemma SizeLineClean(w: int, h: int)
    ensures '\r' !in IntText(w) + "," + IntText(h) && '\n' !in IntText(w) + "," + IntText(h)
  {
  }

  /** Loading lines that start with a written header. */
  lemma LoadLines(lines: seq<string>, zoom: FloatText, size: Size, nodes: seq<Node>, current: real, known: map<string, Pos>)
    requires forall k :: 0 <= k < |nodes| ==> SavableAsWritten(nodes[k].id)
    requires lines == Terminated(HeaderLines(zoom, size) + NodeLines(nodes))
    ensures ReadLayout(lines, current, known)
         == Success(Loaded(DecimalValue(zoom), [Whole(size.width), Whole(size.height)], Restore(known, StripIds(nodes))))
  {
    TerminatedAppend(HeaderLines(zoom, size), NodeLines(nodes));
    HeaderReads(zoom, size, lines);
    NodeLinesAfterHeader(lines, zoom, size, nodes);
    PlaceWritten(nodes, known);
    VersionedOf(lines, known, DecimalValue(zoom), [Whole(size.width), Whole(size.height)], Restore(known, StripIds(nodes)));
  }

  lemma NodeLinesAfterHeader(lines: seq<string>, zoom: FloatText, size: Size, nodes: seq<Node>)
    requires lines == Terminated(HeaderLines(zoom, size) + NodeLines(nodes))
    ensures Drop(lines, 3) == Terminated(NodeLines(nodes))
  {
    TerminatedAppend(HeaderLines(zoom, size), NodeLines(nodes));
  }

  lemma VersionedFails(lines: seq<string>, known: map<string, Pos>, e: LoadError)
    requires Strip(LineAt(lines, 0)) == Version
    requires ParseFloat(Strip(LineAt(lines, 1))).Some?
    requires ParseInts(Split(Strip(LineAt(lines, 2)))).Some?
    requires Place(Drop(lines, 3), known) == Failure(e)
    ensures forall current :: ReadLayout(lines, current, known) == Failure(e)
  {
  }

  lemma VersionedOf(lines: seq<string>, known: map<string, Pos>, zoom: real, size: seq<int>, positions: map<string, Pos>)
    requires Strip(LineAt(lines, 0)) == Version
    requires ParseFloat(Strip(LineAt(lines, 1))) == Some(zoom)
    requires ParseInts(Split(Strip(LineAt(lines, 2)))) == Some(size)
    requires Place(Drop(lines, 3), known) == Success(positions)
    ensures forall current :: ReadLayout(lines, current, known) == Success(Loaded(zoom, size, positions))
  {
  }

  /** What the as-written save produces, loaded again: the zoom level and size
      come back, and each known node moves to its saved position in whole
      numbers, under its id without leading whitespace. */
  lemma LoadAfterSave(zoom: FloatText, size: Size, nodes: seq<Node>, current: real, known: map<string, Pos>)
    requires SaveLayout(zoom, size, nodes).Success?
    requires forall k :: 0 <= k < |nodes| ==> '\r' !in nodes[k].id
    ensures LoadLayout(SaveLayout(zoom, size, nodes).value, current, known)
         == Success(Loaded(DecimalValue(zoom), [Whole(size.width), Whole(size.height)], Restore(known, StripIds(nodes))))
  {
    SavedLines(zoom, size, nodes);
    LoadLines(Lines(Universal(Written(zoom, size, nodes, |nodes|))), zoom, size, nodes, current, known);
  }

  /** The round trip of the checked save: loading what it wrote restores the
      zoom level, the size, and every known node's position in whole numbers. */
  lemma LayoutRoundTrip(zoom: FloatText, size: Size, nodes: seq<Node>, current: real, known: map<string, Pos>)
    requires SaveLayoutChecked(zoom, size, nodes).Success?
    ensures SaveLayout(zoom, size, nodes) == SaveLayoutChecked(zoom, size, nodes)
    ensures LoadLayout(SaveLayoutChecked(zoom, size, nodes).value, current, known)
         == Success(Loaded(DecimalValue(zoom), [Whole(size.width), Whole(size.height)], Restore(known, nodes)))
  {
    assert forall k :: 0 <= k < |nodes| ==> Savable(nodes[k].id);
    assert StripIds(nodes) == nodes by {
      forall k | 0 <= k < |nodes|
        ensures StripLeft(nodes[k].id) == nodes[k].id
      {
        var id := nodes[k].id;
        assert Savable(id);
      }
    }
    LoadAfterSave(zoom, size, nodes, current, known);
  }

  /** Restoring sets each listed node the map holds to its saved position in
      whole numbers, and leaves every other node where it was. */
  lemma {:induction false} RestoreSets(known: map<string, Pos>, nodes: seq<Node>, id: string)
    requires id in known
    requires forall j, k :: 0 <= j < k < |nodes| ==> nodes[j].id != nodes[k].id
    ensures (forall k :: 0 <= k < |nodes| ==> nodes[k].id != id) ==> Restore(known, nodes)[id] == known[id]
    ensures forall k :: 0 <= k < |nodes| && nodes[k].id == id ==> Restore(known, nodes)[id] == WholePos(nodes[k].pos)
    decreases |nodes|
  {
    if |nodes| > 0 {
      var n := nodes[0];
      var next := if n.id in known then known[n.id := WholePos(n.pos)] else known;
      RestoreSets(next, nodes[1..], id);
      assert forall k :: 1 <= k < |nodes| ==> nodes[1..][k - 1] == nodes[k];
    }
  }

  /** The round trip as the window sees it. The nodes of a window have
      distinct ids; when their coordinates and the window size are whole
      numbers and every id can be saved, loading the saved text restores the
      zoom and the size, puts every saved node the loader knows exactly where
      it was, and leaves every other known node alone. */
  lemma IntegerLayoutRoundTrip(zoom: FloatText, w: int, h: int, nodes: seq<Node>, current: real, known: map<string, Pos>)
    requires forall k :: 0 <= k < |nodes| ==> nodes[k].pos.x.Int? && nodes[k].pos.y.Int?
    requires forall j, k :: 0 <= j < k < |nodes| ==> nodes[j].id != nodes[k].id
    requires SaveLayoutChecked(zoom, Size(Int(w), Int(h)), nodes).Success?
    ensures LoadLayout(SaveLayoutChecked(zoom, Size(Int(w), Int(h)), nodes).value, current, known).Success?
    ensures var loaded := LoadLayout(SaveLayoutChecked(zoom, Size(Int(w), Int(h)), nodes).value, current, known).value;
      && loaded.zoom == DecimalValue(zoom)
      && loaded.size == [w, h]
      && (forall k :: 0 <= k < |nodes| && nodes[k].id in known ==> loaded.positions[nodes[k].id] == nodes[k].pos)
      && (forall id :: id in known && (forall k :: 0 <= k < |nodes| ==> nodes[k].id != id) ==> loaded.positions[id] == known[id])
  {
    LayoutRoundTrip(zoom, Size(Int(w), Int(h)), nodes, current, known);
    forall k | 0 <= k < |nodes| && nodes[k].id in known
      ensures Restore(known, nodes)[nodes[k].id] == nodes[k].pos
    {
      RestoreSets(known, nodes, nodes[k].id);
    }
    forall id | id in known && (forall k :: 0 <= k < |nodes| ==> nodes[k].id != id)
      ensures Restore(known, nodes)[id] == known[id]
    {
      RestoreSets(known, nodes, id);
    }
  }

  function SpacedNodes(): seq<Node>
  {
    [Node(" a", Pos(Int(5), Int(6)))]
  }

  function SpacedKnown(): map<string, Pos>
  {
    map[" a" := Pos(Int(0), Int(0))]
  }

  function UnitZoom(): FloatText
  {
    Numeral(false, 1, "0")
  }

  function FullScreen(): Size
  {
    Size(Int(1920), Int(1080))
  }

  lemma SpacedIdAccepted()
    ensures SaveLayout(UnitZoom(), FullScreen(), SpacedNodes()).Success?
    ensures SaveLayoutChecked(UnitZoom(), FullScreen(), SpacedNodes()).Failure?
  {
    assert SpacedNodes()[0].id == " a";
    assert SavableAsWritten(" a") && !Savable(" a");
  }

  lemma SpacedIdStripped()
    ensures Restore(SpacedKnown(), StripIds(SpacedNodes())) == SpacedKnown()
  {
    var stripped := StripIds(SpacedNodes());
    assert |stripped| == 1 && stripped[0].id == StripLeft(SpacedNodes()[0].id);
    assert SpacedNodes()[0].id == " a";
    SpaceStripped();
    assert stripped[0].id !in SpacedKnown();
    RestoreUnknown(SpacedKnown(), stripped);
  }

  lemma SpaceStripped()
    ensures StripLeft(" a") == "a"
  {
    assert " a"[1..] == "a";
    assert !IsSpace('a');
  }

  lemma RestoreUnknown(known: map<string, Pos>, nodes: seq<Node>)
    requires |nodes| == 1 && nodes[0].id !in known
    ensures Restore(known, nodes) == known
  {
    assert nodes[1..] == [];
  }

  lemma UnitZoomValue()
    ensures DecimalValue(UnitZoom()) == 1.0
  {
    assert DigitsValue("0") == 0;
    assert Scaled(0, 1) == 0.0;
  }

  /** A node whose id starts with whitespace passes the as-written check, but
      loading the file leaves it where it was instead of where it was saved;
      the checked save refuses it. */
  lemma LeadingSpaceIdNotRestored()
    ensures SaveLayout(UnitZoom(), FullScreen(), SpacedNodes()).Success?
    ensures LoadLayout(SaveLayout(UnitZoom(), FullScreen(), SpacedNodes()).value, 1.0, SpacedKnown())
         == Success(Loaded(1.0, [1920, 1080], SpacedKnown()))
    ensures SpacedKnown()[" a"] != WholePos(SpacedNodes()[0].pos)
    ensures SaveLayoutChecked(UnitZoom(), FullScreen(), SpacedNodes()).Failure?
  {
    SpacedIdAccepted();
    assert SpacedNodes()[0].id == " a";
    LoadAfterSave(UnitZoom(), FullScreen(), SpacedNodes(), 1.0, SpacedKnown());
    SpacedIdStripped();
    UnitZoomValue();
  }

  function ReturnNodes(): seq<Node>
  {
    [Node("a\rb", Pos(Int(5), Int(6)))]
  }

  /** The saved line of the node, with its line feed, around its carriage
      return. */
  lemma ReturnNodeLine()
    ensures |NodeLines(ReturnNodes())| == 1
    ensures NodeLines(ReturnNodes())[0] + "\n" == "a" + ("\r" + ("b,5,6" + "\n"))
  {
    var n := ReturnNodes()[0];
    assert DigitChar(5) == '5' && DigitChar(6) == '6';
    assert NumberText(n.pos.x) == "5" && NumberText(n.pos.y) == "6";
    assert NodeLine(n) == "a\rb,5,6";
  }

  /** The text of the header lines, each with its line feed. */
  function HeaderText(zoom: FloatText, size: Size): (r: string)
    ensures '\r' !in r
  {
    HeaderClean(zoom, size);
    ConcatFree(HeaderLines(zoom, size), '\r');
    Concat(Terminated(HeaderLines(zoom, size)))
  }

  /** The written lines, joined, as header text plus the rest. */
  lemma WrittenSplits(zoom: FloatText, size: Size, more: seq<string>)
    ensures Concat(Terminated(HeaderLines(zoom, size) + more)) == HeaderText(zoom, size) + Concat(Terminated(more))
  {
    var h := HeaderLines(zoom, size);
    var t := Terminated(h + more);
    TerminatedAppend(h, more);
    assert t == t[..|h|] + t[|h|..];
    ConcatAppend(Terminated(h), Terminated(more));
  }

  /** What the save writes, decoded: the header, then the node's line broken
      in two at the carriage return. */
  lemma ReturnDecodes(zoom: FloatText, size: Size)
    ensures Universal(Written(zoom, size, ReturnNodes(), 1)) == HeaderText(zoom, size) + (("a" + "\n") + ("b,5,6" + "\n"))
  {
    var l := NodeLines(ReturnNodes());
    assert Written(zoom, size, ReturnNodes(), 1) == HeaderText(zoom, size) + ("a" + ("\r" + ("b,5,6" + "\n"))) by {
      assert ReturnNodes()[..1] == ReturnNodes();
      ReturnNodeLine();
      WrittenSplits(zoom, size, l);
      TerminatedTwo(l[0], "");
      assert l == [l[0]];
      TerminatedTwo(l[0] + "\n", "");
    }
    assert Universal("a") == "a" && Universal("b,5,6" + "\n") == "b,5,6" + "\n" by {
      assert '\r' !in "a" && '\r' !in "b,5,6" + "\n";
      UniversalKeepsPlain("a");
      UniversalKeepsPlain("b,5,6" + "\n");
    }
    UniversalKeepsPlain(HeaderText(zoom, size));
    LoneBreaks("a", "b,5,6" + "\n");
    UniversalAppend(HeaderText(zoom, size), "a" + ("\r" + ("b,5,6" + "\n")));
  }

  lemma ReturnDecodesToLines(zoom: FloatText, size: Size)
    ensures Universal(Written(zoom, size, ReturnNodes(), 1)) == Concat(Terminated(HeaderLines(zoom, size) + ["a", "b,5,6"]))
  {
    ReturnDecodes(zoom, size);
    WrittenSplits(zoom, size, ["a", "b,5,6"]);
    TerminatedTwo("a", "b,5,6");
    TerminatedTwo("a" + "\n", "b,5,6" + "\n");
  }

  lemma ReturnLinesFree(zoom: FloatText, size: Size)
    ensures Free(HeaderLines(zoom, size) + ["a", "b,5,6"], '\n')
  {
    assert Free(["a", "b,5,6"], '\n') by {
      assert '\n' !in "a" && '\n' !in "b,5,6";
    }
    assert Free(HeaderLines(zoom, size), '\n') by {
      HeaderClean(zoom, size);
    }
    FreeAppend(HeaderLines(zoom, size), ["a", "b,5,6"], '\n');
  }

  /** The lines the file is read as: the header, then the id's text before
      the carriage return and the rest of its line as two lines. */
  lemma ReturnLines(zoom: FloatText, size: Size)
    ensures Lines(Universal(Written(zoom, size, ReturnNodes(), 1)))
         == Terminated(HeaderLines(zoom, size) + ["a", "b,5,6"])
  {
    ReturnDecodesToLines(zoom, size);
    ReturnLinesFree(zoom, size);
    LinesOfWritten(HeaderLines(zoom, size) + ["a", "b,5,6"]);
  }

  /** The line "a" left of the carriage return holds one field, not three. */
  lemma ShortLineRaises(lines: seq<string>, known: map<string, Pos>)
    requires |lines| > 0 && lines[0] == "a" + "\n"
    ensures Place(lines, known) == Failure(BadNodeLine("a" + "\n"))
  {
    assert Strip("a" + "\n") == "a" by {
      assert AllSpace("\n");
      StripKeeps("a", "\n");
    }
    SplitWhole("a");
    PlaceCons(lines, known);
  }

  lemma HeaderThenLines(zoom: FloatText, size: Size, more: seq<string>)
    ensures var lines := Terminated(HeaderLines(zoom, size) + more);
      |lines| >= 3 && lines[..3] == Terminated(HeaderLines(zoom, size)) && Drop(lines, 3) == Terminated(more)
  {
    TerminatedAppend(HeaderLines(zoom, size), more);
  }

  lemma ReturnSaved(zoom: FloatText, size: Size)
    ensures SaveLayout(zoom, size, ReturnNodes()) == Success(Written(zoom, size, ReturnNodes(), 1))
    ensures SaveLayoutChecked(zoom, size, ReturnNodes()).Failure?
  {
    assert ReturnNodes()[0].id == "a\rb";
    assert SavableAsWritten("a\rb") && !Savable("a\rb");
  }

  /** A node whose id holds a carriage return passes the as-written check,
      but the file it writes cannot be loaded at all: the line is read as
      two lines, the first of which ("a") does not hold three fields. The
      checked save refuses it. */
  lemma CarriageReturnIdBreaksLoad(zoom: FloatText, size: Size, current: real, known: map<string, Pos>)
    ensures SaveLayout(zoom, size, ReturnNodes()).Success?
    ensures LoadLayout(SaveLayout(zoom, size, ReturnNodes()).value, current, known)
         == Failure(BadNodeLine("a" + "\n"))
    ensures SaveLayoutChecked(zoom, size, ReturnNodes()).Failure?
  {
    ReturnSaved(zoom, size);
    var lines := Terminated(HeaderLines(zoom, size) + ["a", "b,5,6"]);
    ReturnLines(zoom, size);
    assert ReadLayout(lines, current, known) == Failure(BadNodeLine("a" + "\n")) by {
      HeaderThenLines(zoom, size, ["a", "b,5,6"]);
      TerminatedTwo("a", "b,5,6");
      HeaderReads(zoom, size, lines);
      ShortLineRaises(Drop(lines, 3), known);
      VersionedFails(lines, known, BadNodeLine("a" + "\n"));
    }
  }
}

=== FILE: net.dfy ===
/** The timed token net the scheduler works on: tokens, place markings,
    events, and the enumeration of an event's candidate bindings
    (util.py `ParallelSimProblem.event_bindings`). */
module Net {
  import opened Wrappers
  import opened Values

  /** A timestamped token; `time` is the moment it becomes available. */
  datatype Token = Token(value: Value, time: real)

  /** The tokens of one place, in the order the place keeps them. */
  type Marking = seq<Token>

  /** One element of a binding: the place a token is taken from and the token. */
  datatype Choice = Choice(place: nat, token: Token)

  /** An event: incoming and outgoing place numbers and an optional guard over
      the values taken, one per incoming place, in incoming-place order. */
  datatype Event = Event(
    name: string,
    incoming: seq<nat>,
    outgoing: seq<nat>,
    guard: Option<seq<Value> -> bool>)

  /** A binding of one event as `event_bindings` returns it: the chosen
      (place, token) pairs and the binding time. */
  datatype Candidate = Candidate(choice: seq<Choice>, time: real)

  /** A ready binding as `bindings` returns it: a candidate of event number `event`. */
  datatype Binding = Binding(choice: seq<Choice>, time: real, event: nat)

  /** Errors the engine raises. */
  datatype SimError =
    | NoIncomingArcs(event: string)   // an event without incoming places was evaluated
    | ScoringFailed                   // count_actions raised on a token value

  /** The marking of place `p`; a place number outside the net holds nothing. */
  function At(m: seq<Marking>, p: nat): Marking
  {
    if p < |m| then m[p] else []
  }

  /** A marking whose tokens are ordered by availability time, so that the
      first token is the earliest one (the simpn invariant `bindings` relies on). */
  predicate SortedMarking(mk: Marking)
  {
    forall i, j :: 0 <= i < j < |mk| ==> mk[i].time <= mk[j].time
  }

  predicate Sorted(m: seq<Marking>)
  {
    forall p :: 0 <= p < |m| ==> SortedMarking(m[p])
  }

  /** `c` takes exactly one token from each of `places`, in order. */
  predicate IsChoiceFor(m: seq<Marking>, places: seq<nat>, c: seq<Choice>)
  {
    && |c| == |places|
    && forall k :: 0 <= k < |c| ==> c[k].place == places[k] && c[k].token in At(m, places[k])
  }

  /** The number of elements of the Cartesian product of the markings of `places`. */
  function ProductSize(m: seq<Marking>, places: seq<nat>): nat
    decreases |places|
  {
    if |places| == 0 then 1 else |At(m, places[0])| * ProductSize(m, places[1..])
  }

  function Extend(p: nat, t: Token, rest: seq<seq<Choice>>): seq<seq<Choice>>
  {
    seq(|rest|, j requires 0 <= j < |rest| => [Choice(p, t)] + rest[j])
  }

  /** Every token of `toks` (taken from place `p`) in front of every element of `rest`. */
  function Fan(p: nat, toks: seq<Token>, rest: seq<seq<Choice>>): seq<seq<Choice>>
    decreases |toks|
  {
    if |toks| == 0 then [] else Extend(p, toks[0], rest) + Fan(p, toks[1..], rest)
  }

  /** `itertools.product` over the markings of `places`: the last place varies fastest. */
  function Product(m: seq<Marking>, places: seq<nat>): (r: seq<seq<Choice>>)
    decreases |places|
    ensures forall c :: c in r ==> |c| == |places|
  {
    if |places| == 0 then [[]]
    else
      var r := Fan(places[0], At(m, places[0]), Product(m, places[1..]));
      FanMembers(places[0], At(m, places[0]), Product(m, places[1..]));
      r
  }

  lemma {:induction false} FanMembers(p: nat, toks: seq<Token>, rest: seq<seq<Choice>>)
    ensures forall c: seq<Choice> :: c in Fan(p, toks, rest) <==>
      (|c| > 0 && c[0].place == p && c[0].token in toks && c[1..] in rest)
    decreases |toks|
  {
    if |toks| > 0 {
      FanMembers(p, toks[1..], rest);
      var e := Extend(p, toks[0], rest);
      forall c: seq<Choice>
        ensures c in e <==> (|c| > 0 && c[0] == Choice(p, toks[0]) && c[1..] in rest)
      {
        if c in e {
          var j :| 0 <= j < |e| && e[j] == c;
          assert c[1..] == rest[j];
        }
        if |c| > 0 && c[0] == Choice(p, toks[0]) && c[1..] in rest {
          var j :| 0 <= j < |rest| && rest[j] == c[1..];
          assert e[j] == c;
        }
      }
      assert forall t :: t in toks <==> t == toks[0] || t in toks[1..];
    }
  }

  lemma {:induction false} FanSize(p: nat, toks: seq<Token>, rest: seq<seq<Choice>>)
    ensures |Fan(p, toks, rest)| == |toks| * |rest|
    decreases |toks|
  {
    if |toks| > 0 {
      FanSize(p, toks[1..], rest);
    }
  }

  lemma {:induction false} FanIndex(p: nat, toks: seq<Token>, rest: seq<seq<Choice>>, i: nat, j: nat)
    requires i < |toks| && j < |rest|
    ensures i * |rest| + j < |Fan(p, toks, rest)|
    ensures Fan(p, toks, rest)[i * |rest| + j] == [Choice(p, toks[i])] + rest[j]
    decreases |toks|
  {
    FanSize(p, toks, rest);
    if i > 0 {
      FanIndex(p, toks[1..], rest, i - 1, j);
      assert i * |rest| + j == |rest| + ((i - 1) * |rest| + j);
    }
  }

  /** The product holds exactly the ways of taking one token from each incoming place. */
  lemma {:induction false} ProductMembers(m: seq<Marking>, places: seq<nat>)
    ensures forall c :: c in Product(m, places) <==> IsChoiceFor(m, places, c)
    decreases |places|
  {
    if |places| == 0 {
      forall c: seq<Choice> | IsChoiceFor(m, places, c) ensures c in Product(m, places) {
        assert c == [];
      }
    } else {
      var rest := Product(m, places[1..]);
      ProductMembers(m, places[1..]);
      FanMembers(places[0], At(m, places[0]), rest);
      forall c: seq<Choice> ensures c in Product(m, places) <==> IsChoiceFor(m, places, c) {
        if |c| > 0 {
          assert IsChoiceFor(m, places, c) <==>
            (c[0].place == places[0] && c[0].token in At(m, places[0]) && IsChoiceFor(m, places[1..], c[1..]))
          by {
            if IsChoiceFor(m, places[1..], c[1..]) && c[0].place == places[0] && |c| == |places| {
              forall k | 0 < k < |c| ensures c[k].place == places[k] && c[k].token in At(m, places[k]) {
                assert c[1..][k - 1] == c[k];
              }
            }
            if IsChoiceFor(m, places, c) {
              forall k | 0 <= k < |c| - 1
                ensures c[1..][k].place == places[1..][k] && c[1..][k].token in At(m, places[1..][k])
              {
                assert c[1..][k] == c[k + 1];
              }
            }
          }
        }
      }
    }
  }

  /** No deduplication: the product has exactly one element per combination of
      marking positions, so its length is the product of the marking sizes. */
  lemma {:induction false} ProductLength(m: seq<Marking>, places: seq<nat>)
    ensures |Product(m, places)| == ProductSize(m, places)
    decreases |places|
  {
    if |places| > 0 {
      ProductLength(m, places[1..]);
      FanSize(places[0], At(m, places[0]), Product(m, places[1..]));
    }
  }

  /** The order of `itertools.product`: the token at position `i` of the first
      incoming place, followed by the `j`-th combination of the remaining places,
      sits at position `i * (size of the rest) + j`. */
  lemma ProductOrder(m: seq<Marking>, places: seq<nat>, i: nat, j: nat)
    requires |places| > 0
    requires i < |At(m, places[0])| && j < |Product(m, places[1..])|
    ensures i * |Product(m, places[1..])| + j < |Product(m, places)|
    ensures Product(m, places)[i * |Product(m, places[1..])| + j]
         == [Choice(places[0], At(m, places[0])[i])] + Product(m, places[1..])[j]
  {
    FanIndex(places[0], At(m, places[0]), Product(m, places[1..]), i, j);
  }

  /** The binding time: the latest availability time among the chosen tokens,
      computed as the source's loop does, left to right. */
  function LatestTime(c: seq<Choice>): (r: real)
    requires |c| > 0
    ensures forall k :: 0 <= k < |c| ==> c[k].token.time <= r
    ensures exists k :: 0 <= k < |c| && c[k].token.time == r
  {
    if |c| == 1 then c[0].token.time
    else
      var t := LatestTime(c[..|c| - 1]);
      assert forall k :: 0 <= k < |c| - 1 ==> c[..|c| - 1][k] == c[k];
      if c[|c| - 1].token.time > t then c[|c| - 1].token.time else t
  }

  /** The token values of a binding, in incoming-place order (the guard's arguments). */
  function ValuesOf(c: seq<Choice>): seq<Value>
  {
    seq(|c|, k requires 0 <= k < |c| => c[k].token.value)
  }

  predicate GuardHolds(e: Event, c: seq<Choice>)
  {
    e.guard.None? || e.guard.value(ValuesOf(c))
  }

  /** `cand` is one of the bindings of `e`: a product element, timed by its
      latest token, accepted by the guard. */
  predicate IsCandidateOf(e: Event, m: seq<Marking>, cand: Candidate)
  {
    && cand.choice in Product(m, e.incoming)
    && |cand.choice| > 0
    && cand.time == LatestTime(cand.choice)
    && GuardHolds(e, cand.choice)
  }

  function Timed(cs: seq<seq<Choice>>): (r: seq<Candidate>)
    requires forall c :: c in cs ==> |c| > 0
    ensures |r| == |cs|
    ensures forall k :: 0 <= k < |cs| ==> r[k].choice == cs[k] && r[k].time == LatestTime(cs[k])
  {
    seq(|cs|, k requires 0 <= k < |cs| => Candidate(cs[k], LatestTime(cs[k])))
  }

  /** Keeps the candidates the guard accepts, in their original order. */
  function Guarded(g: seq<Value> -> bool, cands: seq<Candidate>): (r: seq<Candidate>)
    ensures |r| <= |cands|
    ensures forall cand :: cand in r <==> cand in cands && g(ValuesOf(cand.choice))
    ensures |cands| == 1 ==> r == (if g(ValuesOf(cands[0].choice)) then cands else [])
  {
    if |cands| == 0 then []
    else
      var rest := Guarded(g, cands[1..]);
      assert forall cand :: cand in cands <==> cand == cands[0] || cand in cands[1..];
      if g(ValuesOf(cands[0].choice)) then [cands[0]] + rest else rest
  }

  /** Filtering keeps the order and the repeats: the candidates kept from a
      concatenation are those kept from each part, in turn. */
  lemma {:induction false} GuardedAppend(g: seq<Value> -> bool, a: seq<Candidate>, b: seq<Candidate>)
    ensures Guarded(g, a + b) == Guarded(g, a) + Guarded(g, b)
    decreases |a|
  {
    if |a| == 0 {
      assert a + b == b;
    } else {
      assert (a + b)[1..] == a[1..] + b;
      GuardedAppend(g, a[1..], b);
    }
  }

  /** `event_bindings`: every element of the Cartesian product of the incoming
      markings, timed by its latest token and filtered by the guard; an event
      without incoming places raises. The raised message of the source is
      built from the problem object, not the event; the error here carries
      the event's name instead, which changes only the message text. */
  function EventBindings(e: Event, m: seq<Marking>): (r: Result<seq<Candidate>, SimError>)
    ensures r.Failure? <==> |e.incoming| == 0
    ensures r.Failure? ==> r.error == NoIncomingArcs(e.name)
    ensures r.Success? ==> forall cand :: cand in r.value <==> IsCandidateOf(e, m, cand)
    ensures r.Success? && e.guard.None? ==>
      && |r.value| == |Product(m, e.incoming)|
      && forall k :: 0 <= k < |r.value| ==> r.value[k].choice == Product(m, e.incoming)[k]
    ensures r.Success? && e.guard.Some? ==> r.value == Guarded(e.guard.value, Timed(Product(m, e.incoming)))
  {
    if |e.incoming| == 0 then Failure(NoIncomingArcs(e.name))
    else
      var cands := Timed(Product(m, e.incoming));
      assert forall cand :: cand in cands <==>
        cand.choice in Product(m, e.incoming) && cand.time == LatestTime(cand.choice)
      by {
        forall cand: Candidate | cand.choice in Product(m, e.incoming) && cand.time == LatestTime(cand.choice)
          ensures cand in cands
        {
          var k :| 0 <= k < |Product(m, e.incoming)| && Product(m, e.incoming)[k] == cand.choice;
          assert cands[k] == cand;
        }
      }
      match e.guard
      case None => Success(cands)
      case Some(g) => Success(Guarded(g, cands))
  }

  /** An incoming place without tokens leaves the event without bindings
      (an empty result, not an error). */
  lemma EmptyPlaceDisablesEvent(e: Event, m: seq<Marking>, k: nat)
    requires k < |e.incoming| && |At(m, e.incoming[k])| == 0
    ensures EventBindings(e, m) == Success([])
  {
    ProductLength(m, e.incoming);
    ProductSizeZero(m, e.incoming, k);
    assert Product(m, e.incoming) == [];
  }

  lemma {:induction false} ProductSizeZero(m: seq<Marking>, places: seq<nat>, k: nat)
    requires k < |places| && |At(m, places[k])| == 0
    ensures ProductSize(m, places) == 0
    decreases |places|
  {
    if k > 0 {
      ProductSizeZero(m, places[1..], k - 1);
    }
  }

  /** A binding's time is no earlier than any chosen token, and is the time of
      one of them; and for sorted markings no earlier than each incoming place's
      first token. */
  lemma CandidateNotBeforeFirstTokens(e: Event, m: seq<Marking>, cand: Candidate, k: nat)
    requires Sorted(m)
    requires EventBindings(e, m).Success? && cand in EventBindings(e, m).value
    requires k < |e.incoming|
    ensures |At(m, e.incoming[k])| > 0
    ensures At(m, e.incoming[k])[0].time <= cand.time
  {
    ProductMembers(m, e.incoming);
    var c := cand.choice;
    var mk := At(m, e.incoming[k]);
    assert c[k].token in mk;
    var j :| 0 <= j < |mk| && mk[j] == c[k].token;
    assert mk[0].time <= mk[j].time by {
      if j > 0 {
        assert SortedMarking(mk);
      }
    }
  }

  /** Place a holds 1@2; place b holds 2@3 and 3@1. */
  function ExampleMarkings(): seq<Marking>
  {
    [[Token(Num(1), 2.0)], [Token(Num(2), 3.0), Token(Num(3), 1.0)]]
  }

  lemma ExampleSecondPlace()
    ensures Product(ExampleMarkings(), [1])
         == [[Choice(1, Token(Num(2), 3.0))], [Choice(1, Token(Num(3), 1.0))]]
  {
    var b2, b3 := Token(Num(2), 3.0), Token(Num(3), 1.0);
    var m := ExampleMarkings();
    assert Product(m, []) == [[]];
    assert [1][1..] == [];
    assert At(m, 1) == [b2, b3];
    assert Extend(1, b2, [[]]) == [[Choice(1, b2)]] by {
      assert Extend(1, b2, [[]])[0] == [Choice(1, b2)] + [];
      assert [Choice(1, b2)] + [] == [Choice(1, b2)];
    }
    assert Extend(1, b3, [[]]) == [[Choice(1, b3)]] by {
      assert Extend(1, b3, [[]])[0] == [Choice(1, b3)] + [];
      assert [Choice(1, b3)] + [] == [Choice(1, b3)];
    }
    assert Fan(1, [b3], [[]]) == [[Choice(1, b3)]] by {
      assert [b3][1..] == [];
    }
    assert Fan(1, [b2, b3], [[]]) == [[Choice(1, b2)], [Choice(1, b3)]] by {
      assert [b2, b3][1..] == [b3];
    }
  }

  lemma ExampleProduct()
    ensures Product(ExampleMarkings(), [0, 1])
         == [[Choice(0, Token(Num(1), 2.0)), Choice(1, Token(Num(2), 3.0))],
             [Choice(0, Token(Num(1), 2.0)), Choice(1, Token(Num(3), 1.0))]]
  {
    var a1, b2, b3 := Token(Num(1), 2.0), Token(Num(2), 3.0), Token(Num(3), 1.0);
    var m := ExampleMarkings();
    ExampleSecondPlace();
    assert [0, 1][1..] == [1];
    assert At(m, 0) == [a1];
    var rest := [[Choice(1, b2)], [Choice(1, b3)]];
    assert Extend(0, a1, rest) == [[Choice(0, a1), Choice(1, b2)], [Choice(0, a1), Choice(1, b3)]] by {
      assert Extend(0, a1, rest)[0] == [Choice(0, a1)] + [Choice(1, b2)];
      assert Extend(0, a1, rest)[1] == [Choice(0, a1)] + [Choice(1, b3)];
      assert [Choice(0, a1)] + [Choice(1, b2)] == [Choice(0, a1), Choice(1, b2)];
      assert [Choice(0, a1)] + [Choice(1, b3)] == [Choice(0, a1), Choice(1, b3)];
    }
    assert Fan(0, [a1], rest) == Extend(0, a1, rest) by {
      assert [a1][1..] == [];
    }
  }

  lemma LatestOfTwo(x: Choice, y: Choice)
    ensures LatestTime([x, y]) == if x.token.time < y.token.time then y.token.time else x.token.time
  {
    var c := [x, y];
    assert c[0] == x && c[1] == y;
  }

  lemma ExampleTimed()
    ensures Timed([[Choice(0, Token(Num(1), 2.0)), Choice(1, Token(Num(2), 3.0))],
                   [Choice(0, Token(Num(1), 2.0)), Choice(1, Token(Num(3), 1.0))]])
         == [Candidate([Choice(0, Token(Num(1), 2.0)), Choice(1, Token(Num(2), 3.0))], 3.0),
             Candidate([Choice(0, Token(Num(1), 2.0)), Choice(1, Token(Num(3), 1.0))], 2.0)]
  {
    var a1, b2, b3 := Token(Num(1), 2.0), Token(Num(2), 3.0), Token(Num(3), 1.0);
    var c1, c2 := [Choice(0, a1), Choice(1, b2)], [Choice(0, a1), Choice(1, b3)];
    assert LatestTime(c1) == 3.0 by {
      LatestOfTwo(Choice(0, a1), Choice(1, b2));
    }
    assert LatestTime(c2) == 2.0 by {
      LatestOfTwo(Choice(0, a1), Choice(1, b3));
    }
    var t := Timed([c1, c2]);
    assert t[0] == Candidate(c1, 3.0) && t[1] == Candidate(c2, 2.0);
  }

  /** The worked example of `event_bindings`: with token 1@2 on place a and
      tokens 2@3, 3@1 on place b, the bindings are (1@2, 2@3) at time 3 and
      (1@2, 3@1) at time 2, in that order. */
  lemma DocumentedExample()
    ensures
      var a1, b2, b3 := Token(Num(1), 2.0), Token(Num(2), 3.0), Token(Num(3), 1.0);
      EventBindings(Event("t", [0, 1], [], None), ExampleMarkings())
        == Success([Candidate([Choice(0, a1), Choice(1, b2)], 3.0),
                    Candidate([Choice(0, a1), Choice(1, b3)], 2.0)])
  {
    ExampleProduct();
    ExampleTimed();
  }
}

=== FILE: priority.dfy ===
/** The priority-class conflict resolver of util.py: `increment_priority`,
    the scoring of a binding (`count_actions`/`counter`) and the selection
    of `PriorityScheduler.__call__`. */
module Priority {
  import opened Wrappers
  import opened Values
  import opened Net

  /** `increment_priority`: a value of length above one becomes
      `(v[0], v[1] + 1)`, a value of length one becomes `(v[0], 1)`.
      None is a raised error: no length (a number or opaque value), an
      empty value, or a second component that is not a number. */
  function IncrementPriority(v: Value): (r: Option<Value>)
    ensures r.Some? ==> r.value.Tuple? && |r.value.items| == 2
    ensures v.Tuple? && |v.items| == 1 ==> r == Some(Tuple([v.items[0], Num(1)]))
    ensures v.Tuple? && |v.items| > 1 && v.items[1].Num? ==>
      r == Some(Tuple([v.items[0], Num(v.items[1].n + 1)]))
    ensures v.Tuple? && |v.items| > 1 && !v.items[1].Num? ==> r.None?
    ensures v.Str? && |v.s| == 1 ==> r == Some(Tuple([v, Num(1)]))
    ensures (v.Str? && |v.s| != 1) || v.Num? || v.Opaque? || v == Tuple([]) ==> r.None?
  {
    match v
    case Tuple(items) =>
      if |items| > 1 then
        (if items[1].Num? then Some(Tuple([items[0], Num(items[1].n + 1)])) else None)
      else if |items| == 1 then Some(Tuple([items[0], Num(1)]))
      else None
    case Str(s) =>
      // a string's items are its one-character strings; `s[1] + 1` raises
      if |s| == 1 then assert [s[0]] == s; Some(Tuple([Str([s[0]]), Num(1)])) else None
    case _ => None
  }

  /** The count one nested pair `vals` contributes: `vals[1]` when `vals[0]`
      contains the name, nothing for items that are not tuples, None when
      the source raises (empty tuple, no second item, not a number). */
  function PairCount(vals: Value, name: string): Option<int>
  {
    if !vals.Tuple? then Some(0)
    else if |vals.items| == 0 then None
    else match Contains(name, vals.items[0])
      case None => None
      case Some(false) => Some(0)
      case Some(true) =>
        if |vals.items| > 1 && vals.items[1].Num? then Some(vals.items[1].n) else None
  }

  function AddCounts(a: Option<int>, b: Option<int>): Option<int>
  {
    if a.Some? && b.Some? then Some(a.value + b.value) else None
  }

  /** The sum of the counts of all items of a tuple with nested tuples. */
  function NestedCount(items: seq<Value>, name: string): Option<int>
    decreases |items|
  {
    if |items| == 0 then Some(0)
    else AddCounts(PairCount(items[0], name), NestedCount(items[1..], name))
  }

  predicate HasNestedTuple(items: seq<Value>)
  {
    exists k :: 0 <= k < |items| && items[k].Tuple?
  }

  /** `count_actions` on a token value: a tuple of length above one scores the
      counts of its nested tuples if it has any, and otherwise its own
      `value[1]` when `value[0]` contains the name; anything else scores 0. */
  function CountActions(v: Value, name: string): (r: Option<int>)
    ensures !v.Tuple? || |v.items| <= 1 ==> r == Some(0)
    ensures v.Tuple? && |v.items| == 2 && v.items[0].Str? && v.items[1].Num? ==>
      r == Some(if IsSubstring(name, v.items[0].s) then v.items[1].n else 0)
    ensures v.Tuple? && |v.items| > 1 && !HasNestedTuple(v.items) ==>
      (r.None? <==> Contains(name, v.items[0]).None?
                    || (Contains(name, v.items[0]) == Some(true) && !v.items[1].Num?))
    ensures v.Tuple? && |v.items| > 1 && !HasNestedTuple(v.items) && r.Some? ==>
      r.value == (if Contains(name, v.items[0]) == Some(true) then v.items[1].n else 0)
  {
    if !(v.Tuple? && |v.items| > 1) then Some(0)
    else if HasNestedTuple(v.items) then NestedCount(v.items, name)
    else match Contains(name, v.items[0])
      case None => None
      case Some(false) => Some(0)
      case Some(true) => if v.items[1].Num? then Some(v.items[1].n) else None
  }

  lemma {:induction false} NestedCountAppend(xs: seq<Value>, ys: seq<Value>, name: string)
    ensures NestedCount(xs + ys, name) == AddCounts(NestedCount(xs, name), NestedCount(ys, name))
    decreases |xs|
  {
    if |xs| == 0 {
      assert xs + ys == ys;
    } else {
      assert (xs + ys)[1..] == xs[1..] + ys;
      NestedCountAppend(xs[1..], ys, name);
    }
  }

  lemma {:induction false} NestedCountRaises(items: seq<Value>, name: string)
    ensures NestedCount(items, name).None? <==>
      exists k :: 0 <= k < |items| && PairCount(items[k], name).None?
    decreases |items|
  {
    if |items| > 0 {
      NestedCountRaises(items[1..], name);
      assert forall k :: 1 <= k < |items| ==> items[1..][k - 1] == items[k];
      if PairCount(items[0], name).Some? && NestedCount(items[1..], name).None? {
        var j :| 0 <= j < |items[1..]| && PairCount(items[1..][j], name).None?;
        assert PairCount(items[j + 1], name).None?;
      }
    }
  }

  /** A nested value raises exactly when one of its tuple items does: an
      empty tuple, a first item `name in` cannot search, or a matching item
      without a numeric count. Items that are not tuples never raise. */
  lemma NestedScoreRaises(items: seq<Value>, name: string)
    requires |items| > 1 && HasNestedTuple(items)
    ensures CountActions(Tuple(items), name).None? <==>
      exists k :: 0 <= k < |items| && items[k].Tuple? &&
        (|items[k].items| == 0
         || Contains(name, items[k].items[0]).None?
         || (Contains(name, items[k].items[0]) == Some(true)
             && !(|items[k].items| > 1 && items[k].items[1].Num?)))
  {
    NestedCountRaises(items, name);
  }

  /** Scoring a value made of nested tuples is additive: the score of the
      concatenation of two such values is the sum of their scores. */
  lemma NestedScoreIsAdditive(xs: seq<Value>, ys: seq<Value>, name: string)
    requires |xs| > 1 && |ys| > 1 && HasNestedTuple(xs) && HasNestedTuple(ys)
    ensures CountActions(Tuple(xs + ys), name)
         == AddCounts(CountActions(Tuple(xs), name), CountActions(Tuple(ys), name))
  {
    var k :| 0 <= k < |xs| && xs[k].Tuple?;
    assert (xs + ys)[k] == xs[k];
    NestedCountAppend(xs, ys, name);
  }

  /** Items of a nested value that are not tuples are skipped. */
  lemma NestedScoreIgnoresFlatItems(xs: seq<Value>, x: Value, name: string)
    requires |xs| > 1 && HasNestedTuple(xs) && !x.Tuple?
    ensures CountActions(Tuple(xs + [x]), name) == CountActions(Tuple(xs), name)
  {
    var k :| 0 <= k < |xs| && xs[k].Tuple?;
    assert (xs + [x])[k] == xs[k];
    NestedCountAppend(xs, [x], name);
  }

  /** The nested value made of `(case, count)` pairs. */
  function PairsValue(ps: seq<(string, int)>): (r: seq<Value>)
    ensures |r| == |ps|
    ensures forall k :: 0 <= k < |ps| ==> r[k] == Tuple([Str(ps[k].0), Num(ps[k].1)])
  {
    seq(|ps|, k requires 0 <= k < |ps| => Tuple([Str(ps[k].0), Num(ps[k].1)]))
  }

  /** The total count of the pairs whose case contains `name`. */
  function PairsTotal(ps: seq<(string, int)>, name: string): int
    decreases |ps|
  {
    if |ps| == 0 then 0
    else (if IsSubstring(name, ps[0].0) then ps[0].1 else 0) + PairsTotal(ps[1..], name)
  }

  lemma {:induction false} NestedCountPairs(ps: seq<(string, int)>, name: string)
    ensures NestedCount(PairsValue(ps), name) == Some(PairsTotal(ps, name))
    decreases |ps|
  {
    if |ps| > 0 {
      NestedCountPairs(ps[1..], name);
      var vs := PairsValue(ps);
      assert vs[1..] == PairsValue(ps[1..]);
      assert vs[0] == Tuple([Str(ps[0].0), Num(ps[0].1)]);
    }
  }

  /** The score of a value holding two or more `(case, count)` pairs: the sum
      of the counts of the cases that contain the name. */
  lemma NestedPairsScore(ps: seq<(string, int)>, name: string)
    requires |ps| > 1
    ensures CountActions(Tuple(PairsValue(ps)), name) == Some(PairsTotal(ps, name))
  {
    var vs := PairsValue(ps);
    assert vs[0].Tuple?;
    NestedCountPairs(ps, name);
  }

  /** One pair next to an item that is no tuple: the value is nested, so the
      pair's count is scored and the item is skipped. */
  lemma PairBesideFlatItem(c: string, n: int, x: Value, name: string)
    requires !x.Tuple?
    ensures CountActions(Tuple([Tuple([Str(c), Num(n)]), x]), name) == Some(if IsSubstring(name, c) then n else 0)
  {
    var items := [Tuple([Str(c), Num(n)]), x];
    assert items[0].Tuple?;
    assert items[1..] == [x] && [x][1..] == [];
    assert NestedCount([x], name) == Some(0);
    assert PairCount(items[0], name) == Some(if IsSubstring(name, c) then n else 0);
  }

  /** `increment_priority` raises the score of a flat `(case, count)` value
      by one exactly when the case name contains the scheduler's name. */
  lemma IncrementRaisesScore(s: string, n: int, name: string)
    ensures IncrementPriority(Tuple([Str(s), Num(n)])).Some?
    ensures CountActions(IncrementPriority(Tuple([Str(s), Num(n)])).value, name)
         == Some(if IsSubstring(name, s) then n + 1 else 0)
    ensures CountActions(Tuple([Str(s), Num(n)]), name)
         == Some(if IsSubstring(name, s) then n else 0)
  {
  }

  /** `counter`: a binding's score is `count_actions` of its first chosen
      token only (the loop runs over the first (place, token) pair, and the
      place itself scores 0); an empty binding raises. */
  function Score(b: Binding, name: string): (r: Option<int>)
    ensures |b.choice| == 0 ==> r.None?
  {
    if |b.choice| == 0 then None else CountActions(b.choice[0].token.value, name)
  }

  /** Only the value of the first chosen token counts: two bindings whose
      first tokens carry the same value score the same, whatever else they
      hold. */
  lemma ScoreFirstTokenOnly(b: Binding, c: Binding, name: string)
    requires |b.choice| > 0 && |c.choice| > 0
    requires b.choice[0].token.value == c.choice[0].token.value
    ensures Score(b, name) == Score(c, name)
    ensures Score(b, name) == CountActions(b.choice[0].token.value, name)
  {
  }

  predicate ScoresDefined(bs: seq<Binding>, name: string)
  {
    forall k :: 0 <= k < |bs| ==> Score(bs[k], name).Some?
  }

  /** The largest score among the bindings. */
  function TopScore(bs: seq<Binding>, name: string): (r: int)
    requires |bs| > 0 && ScoresDefined(bs, name)
    ensures forall k :: 0 <= k < |bs| ==> Score(bs[k], name).value <= r
    ensures exists k :: 0 <= k < |bs| && Score(bs[k], name) == Some(r)
    decreases |bs|
  {
    if |bs| == 1 then Score(bs[0], name).value
    else
      var rest := TopScore(bs[1..], name);
      assert forall k :: 1 <= k < |bs| ==> bs[1..][k - 1] == bs[k];
      if Score(bs[0], name).value > rest then Score(bs[0], name).value else rest
  }

  /** The bindings whose score is `top`, in their original order (what the
      stable descending sort followed by the cut at the first lower score keeps). */
  function WithScore(bs: seq<Binding>, name: string, top: int): (r: seq<Binding>)
    ensures forall b :: b in r <==> b in bs && Score(b, name) == Some(top)
    ensures |bs| == 1 ==> r == (if Score(bs[0], name) == Some(top) then bs else [])
    decreases |bs|
  {
    if |bs| == 0 then []
    else
      var rest := WithScore(bs[1..], name, top);
      assert forall b :: b in bs <==> b == bs[0] || b in bs[1..];
      if Score(bs[0], name) == Some(top) then [bs[0]] + rest else rest
  }

  /** Keeping the top-score bindings distributes over concatenation, so the
      class keeps the input order and every repeat of a binding. */
  lemma {:induction false} WithScoreAppend(xs: seq<Binding>, ys: seq<Binding>, name: string, top: int)
    ensures WithScore(xs + ys, name, top) == WithScore(xs, name, top) + WithScore(ys, name, top)
    decreases |xs|
  {
    if |xs| == 0 {
      assert xs + ys == ys;
    } else {
      assert (xs + ys)[0] == xs[0];
      assert (xs + ys)[1..] == xs[1..] + ys;
      WithScoreAppend(xs[1..], ys, name, top);
    }
  }

  /** The priority class the random choice is made in: every binding when the
      top score is 0, otherwise the bindings scoring the top score. */
  function Eligible(bs: seq<Binding>, name: string): (r: seq<Binding>)
    requires |bs| > 0 && ScoresDefined(bs, name)
    ensures |r| > 0
    ensures TopScore(bs, name) == 0 ==> r == bs
    ensures TopScore(bs, name) != 0 ==>
      forall b :: b in r <==> b in bs && Score(b, name) == Some(TopScore(bs, name))
    ensures TopScore(bs, name) != 0 ==> r == WithScore(bs, name, TopScore(bs, name))
  {
    var top := TopScore(bs, name);
    if top == 0 then bs
    else
      var k :| 0 <= k < |bs| && Score(bs[k], name) == Some(top);
      assert bs[k] in WithScore(bs, name, top);
      WithScore(bs, name, top)
  }

  /** `PriorityScheduler.__call__` with start name `name`; `pick` stands for
      `random.choice` and selects `eligible[pick % |eligible|]`. */
  function Schedule(bs: seq<Binding>, name: string, pick: nat): (r: Result<Binding, SimError>)
    requires |bs| > 0
    ensures |bs| == 1 ==> r == Success(bs[0])
    ensures r.Failure? <==> |bs| >= 2 && !ScoresDefined(bs, name)
    ensures r.Success? ==> r.value in bs
    ensures r.Success? && |bs| >= 2 && TopScore(bs, name) != 0 ==>
      Score(r.value, name) == Some(TopScore(bs, name))
  {
    if |bs| < 2 then Success(bs[0])
    else if !ScoresDefined(bs, name) then Failure(ScoringFailed)
    else
      var eligible := Eligible(bs, name);
      assert eligible[pick % |eligible|] in eligible;
      Success(eligible[pick % |eligible|])
  }

  /** Priority classes do not starve: when the top score is 0 every binding,
      and otherwise every binding of top score, is chosen by some draw. */
  lemma EveryEligibleBindingCanBeChosen(bs: seq<Binding>, name: string, k: nat) returns (pick: nat)
    requires |bs| >= 2 && k < |bs| && ScoresDefined(bs, name)
    requires TopScore(bs, name) == 0 || Score(bs[k], name) == Some(TopScore(bs, name))
    ensures Schedule(bs, name, pick) == Success(bs[k])
  {
    var eligible := Eligible(bs, name);
    InEligible(bs, name, k);
    pick := IndexOf(eligible, bs[k]);
    ScheduleDraws(bs, name, pick);
    SmallMod(pick, |eligible|);
  }

  lemma SmallMod(a: nat, b: nat)
    requires a < b
    ensures a % b == a
  {
  }

  function IndexOf(bs: seq<Binding>, b: Binding): (i: nat)
    requires b in bs
    ensures i < |bs| && bs[i] == b
  {
    if bs[0] == b then 0 else 1 + IndexOf(bs[1..], b)
  }

  lemma ScheduleDraws(bs: seq<Binding>, name: string, pick: nat)
    requires |bs| >= 2 && ScoresDefined(bs, name)
    ensures Schedule(bs, name, pick) == Success(Eligible(bs, name)[pick % |Eligible(bs, name)|])
  {
  }

  lemma InEligible(bs: seq<Binding>, name: string, k: nat)
    requires |bs| >= 2 && k < |bs| && ScoresDefined(bs, name)
    requires TopScore(bs, name) == 0 || Score(bs[k], name) == Some(TopScore(bs, name))
    ensures bs[k] in Eligible(bs, name)
  {
    var top := TopScore(bs, name);
    if top != 0 {
      assert bs[k] in bs && Score(bs[k], name) == Some(top);
    }
  }

  /** A binding scoring below a non-zero top score is never chosen. */
  lemma LowerScoreNeverChosen(bs: seq<Binding>, name: string, k: nat, pick: nat)
    requires |bs| >= 2 && k < |bs| && ScoresDefined(bs, name)
    requires TopScore(bs, name) != 0 && Score(bs[k], name).value < TopScore(bs, name)
    ensures Schedule(bs, name, pick) != Success(bs[k])
  {
  }

  /** Two bindings whose first tokens are `(case, count)` pairs: when the
      first case names the start action with a positive count above the
      other's, the first binding is chosen whatever the draw. The second
      case may or may not name the start action. */
  lemma HigherCountWins(hi: Binding, lo: Binding, s: string, t: string, m: int, n: int, name: string, pick: nat)
    requires |hi.choice| > 0 && hi.choice[0].token.value == Tuple([Str(s), Num(m)])
    requires |lo.choice| > 0 && lo.choice[0].token.value == Tuple([Str(t), Num(n)])
    requires IsSubstring(name, s) && m > 0 && m > n
    ensures Schedule([hi, lo], name, pick) == Success(hi)
  {
    assert Score(hi, name) == Some(m);
    assert Score(lo, name) == Some(if IsSubstring(name, t) then n else 0);
    assert TopScore([hi, lo], name) == m;
    LowerScoreNeverChosen([hi, lo], name, 1, pick);
  }

  /** The tutorial's two loaded cases, counted 3 times and once. */
  lemma LoadedCasesExample(pick: nat)
    ensures
      var hi := Binding([Choice(0, Token(Tuple([Str("Intervention Loaded1"), Num(3)]), 0.0))], 0.0, 0);
      var lo := Binding([Choice(0, Token(Tuple([Str("Intervention Loaded2"), Num(1)]), 0.0))], 0.0, 0);
      Schedule([hi, lo], "Intervention Loaded", pick) == Success(hi)
  {
    var hi := Binding([Choice(0, Token(Tuple([Str("Intervention Loaded1"), Num(3)]), 0.0))], 0.0, 0);
    var lo := Binding([Choice(0, Token(Tuple([Str("Intervention Loaded2"), Num(1)]), 0.0))], 0.0, 0);
    assert OccursAt("Intervention Loaded", "Intervention Loaded1", 0);
    HigherCountWins(hi, lo, "Intervention Loaded1", "Intervention Loaded2", 3, 1, "Intervention Loaded", pick);
  }
}

=== FILE: text.dfy ===
/** The pieces of Python's text handling the layout file format relies on:
    `str.strip`, `str.split(",")`, line iteration over a file opened in text
    mode, and the text of `int`/`float` values with their parsers. */
module Text {
  import opened Wrappers

  /** Python's `str.isspace` for one character. */
  predicate IsSpace(c: char)
  {
    || c == ' ' || ('\t' <= c <= '\r') || ('\U{1C}' <= c <= '\U{1F}')
    || c == '\U{85}' || c == '\U{A0}' || c == '\U{1680}' || ('\U{2000}' <= c <= '\U{200A}')
    || c == '\U{2028}' || c == '\U{2029}' || c == '\U{202F}' || c == '\U{205F}' || c == '\U{3000}'
  }

  predicate AllSpace(s: string)
  {
    forall k :: 0 <= k < |s| ==> IsSpace(s[k])
  }

  /** `s` without its leading whitespace. */
  function StripLeft(s: string): (r: string)
    ensures |r| <= |s|
    ensures |r| == 0 || !IsSpace(r[0])
    decreases |s|
  {
    if |s| > 0 && IsSpace(s[0]) then StripLeft(s[1..]) else s
  }

  /** `s` without its trailing whitespace. */
  function StripRight(s: string): (r: string)
    ensures |r| <= |s|
    ensures |r| == 0 || !IsSpace(r[|r| - 1])
    decreases |s|
  {
    if |s| > 0 && IsSpace(s[|s| - 1]) then StripRight(s[..|s| - 1]) else s
  }

  /** What `StripLeft` removes is a run of whitespace at the front. */
  lemma {:induction false} StripLeftRemoves(s: string)
    ensures s[|s| - |StripLeft(s)|..] == StripLeft(s)
    ensures AllSpace(s[..|s| - |StripLeft(s)|])
    decreases |s|
  {
    if |s| > 0 && IsSpace(s[0]) {
      StripLeftRemoves(s[1..]);
      var r := StripLeft(s);
      assert s[..|s| - |r|] == [s[0]] + s[1..][..|s| - 1 - |r|];
    }
  }

  /** What `StripRight` removes is a run of whitespace at the back. */
  lemma {:induction false} StripRightRemoves(s: string)
    ensures s[..|StripRight(s)|] == StripRight(s)
    ensures AllSpace(s[|StripRight(s)|..])
    decreases |s|
  {
    if |s| > 0 && IsSpace(s[|s| - 1]) {
      StripRightRemoves(s[..|s| - 1]);
      var r := StripRight(s);
      assert s[|r|..] == s[..|s| - 1][|r|..] + [s[|s| - 1]];
    }
  }

  /** `str.strip()`: `s` without its leading and trailing whitespace. */
  function Strip(s: string): (r: string)
    ensures |r| == 0 || (!IsSpace(r[0]) && !IsSpace(r[|r| - 1]))
  {
    var l := StripLeft(s);
    StripRightRemoves(l);
    StripRight(l)
  }

  /** The stripped text is a slice of `s` with only whitespace before and
      after it; with no whitespace at its own ends, this fixes it. */
  lemma StripSlice(s: string)
    ensures exists a, b :: 0 <= a <= b <= |s| && Strip(s) == s[a..b] && AllSpace(s[..a]) && AllSpace(s[b..])
  {
    var l := StripLeft(s);
    StripLeftRemoves(s);
    StripRightRemoves(l);
    SuffixSlices(s, |s| - |l|, |Strip(s)|);
  }

  /** Slicing a suffix of `s` is slicing `s` itself, shifted. */
  lemma SuffixSlices(s: string, a: nat, n: nat)
    requires a + n <= |s|
    ensures s[a..a + n] == s[a..][..n]
    ensures s[a + n..] == s[a..][n..]
  {
  }

  lemma {:induction false} StripRightSpaces(s: string, trail: string)
    requires |s| == 0 || !IsSpace(s[|s| - 1])
    requires AllSpace(trail)
    ensures StripRight(s + trail) == s
    decreases |trail|
  {
    if |trail| == 0 {
      assert s + trail == s;
    } else {
      var t := s + trail;
      assert t[..|t| - 1] == s + trail[..|trail| - 1];
      StripRightSpaces(s, trail[..|trail| - 1]);
    }
  }

  lemma {:induction false} StripLeftSpaces(trail: string)
    requires AllSpace(trail)
    ensures StripLeft(trail) == []
    decreases |trail|
  {
    if |trail| > 0 {
      StripLeftSpaces(trail[1..]);
    }
  }

  /** Stripping removes exactly the trailing whitespace from a string whose
      ends are not whitespace. */
  lemma StripKeeps(s: string, trail: string)
    requires |s| == 0 || (!IsSpace(s[0]) && !IsSpace(s[|s| - 1]))
    requires AllSpace(trail)
    ensures Strip(s + trail) == s
  {
    if |s| == 0 {
      assert s + trail == trail;
      StripLeftSpaces(trail);
    } else {
      assert (s + trail)[0] == s[0];
      StripRightSpaces(s, trail);
    }
  }

  /** Leading whitespace is stripped from the front piece only. */
  lemma {:induction false} StripLeftBefore(a: string, b: string)
    requires |b| > 0 && !IsSpace(b[0])
    ensures StripLeft(a + b) == StripLeft(a) + b
    decreases |a|
  {
    if |a| > 0 {
      assert (a + b)[1..] == a[1..] + b;
      StripLeftBefore(a[1..], b);
    } else {
      assert a + b == b;
    }
  }

  /** Reading a line `a + rest` followed by a line feed, where `rest` has no
      whitespace at either end: only the leading whitespace of `a` and the
      line feed go. */
  lemma StripLine(a: string, rest: string)
    requires |rest| > 0 && !IsSpace(rest[0]) && !IsSpace(rest[|rest| - 1])
    ensures Strip(a + rest + "\n") == StripLeft(a) + rest
  {
    StripLineLeft(a, rest);
    var t := StripLeft(a) + rest;
    assert t[|t| - 1] == rest[|rest| - 1];
    StripLineFeed(t);
  }

  lemma StripLineLeft(a: string, rest: string)
    requires |rest| > 0 && !IsSpace(rest[0])
    ensures StripLeft(a + rest + "\n") == StripLeft(a) + rest + "\n"
  {
    assert a + rest + "\n" == a + (rest + "\n");
    StripLeftBefore(a, rest + "\n");
  }

  lemma StripLineFeed(t: string)
    requires |t| > 0 && !IsSpace(t[|t| - 1])
    ensures StripRight(t + "\n") == t
  {
    assert AllSpace("\n");
    StripRightSpaces(t, "\n");
  }

  /** `s.split(",")`: the pieces between commas; always at least one. */
  function Split(s: string): (r: seq<string>)
    ensures |r| >= 1
    ensures forall k :: 0 <= k < |r| ==> ',' !in r[k]
    decreases |s|
  {
    if |s| == 0 then [""]
    else
      var rest := Split(s[1..]);
      if s[0] == ',' then [""] + rest
      else [[s[0]] + rest[0]] + rest[1..]
  }

  /** Joining the pieces with commas gives back the text that was split. */
  lemma {:induction false} JoinSplit(s: string)
    ensures Join(Split(s)) == s
    decreases |s|
  {
    if |s| > 0 {
      var rest := Split(s[1..]);
      JoinSplit(s[1..]);
      if s[0] == ',' {
        JoinCons("", rest);
      } else {
        JoinCons([s[0]] + rest[0], rest[1..]);
        JoinCons(rest[0], rest[1..]);
        assert rest == [rest[0]] + rest[1..];
      }
      assert s == [s[0]] + s[1..];
    }
  }

  /** `",".join(parts)`. */
  function Join(parts: seq<string>): string
    decreases |parts|
  {
    if |parts| == 0 then ""
    else if |parts| == 1 then parts[0]
    else parts[0] + "," + Join(parts[1..])
  }

  lemma JoinCons(p: string, ps: seq<string>)
    ensures Join([p] + ps) == p + (if |ps| > 0 then "," + Join(ps) else "")
  {
    var all := [p] + ps;
    assert all[1..] == ps;
    if |ps| > 0 {
      assert |all| > 1;
    }
  }

  lemma JoinTwo(a: string, b: string)
    ensures Join([a, b]) == a + "," + b
  {
    assert [a, b][1..] == [b];
  }

  lemma JoinThree(a: string, b: string, c: string)
    ensures Join([a, b, c]) == a + "," + b + "," + c
  {
    assert [a, b, c][1..] == [b, c];
    JoinTwo(b, c);
  }

  /** Splitting undoes joining pieces that hold no comma. */
  lemma {:induction false} SplitJoin(parts: seq<string>)
    requires |parts| >= 1
    requires forall k :: 0 <= k < |parts| ==> ',' !in parts[k]
    ensures Split(Join(parts)) == parts
    decreases |parts|, |parts[0]|
  {
    if |parts[0]| > 0 {
      var p := parts[0];
      var rest := [p[1..]] + parts[1..];
      assert Join(parts) == [p[0]] + Join(rest) by {
        JoinCons(p, parts[1..]);
        JoinCons(p[1..], parts[1..]);
        assert parts == [p] + parts[1..];
        assert rest[1..] == parts[1..];
      }
      assert ',' !in p[1..] by {
        assert forall k :: 0 <= k < |p| - 1 ==> p[1..][k] == p[k + 1];
      }
      SplitJoin(rest);
      assert ([p[0]] + Join(rest))[1..] == Join(rest);
      assert [[p[0]] + rest[0]] + rest[1..] == parts by {
        assert [p[0]] + p[1..] == p;
      }
    } else if |parts| > 1 {
      SplitJoin(parts[1..]);
      assert Join(parts) == "," + Join(parts[1..]) by {
        JoinCons(parts[0], parts[1..]);
        assert parts == [parts[0]] + parts[1..];
      }
      assert ("," + Join(parts[1..]))[1..] == Join(parts[1..]);
      assert parts == [""] + parts[1..];
    } else {
      assert parts == [""];
    }
  }

  /** Text without a comma is one piece. */
  lemma {:induction false} SplitWhole(s: string)
    requires ',' !in s
    ensures Split(s) == [s]
    decreases |s|
  {
    if |s| > 0 {
      SplitWhole(s[1..]);
      assert [s[0]] + s[1..] == s;
    }
  }

  lemma SplitTwo(a: string, b: string)
    requires ',' !in a && ',' !in b
    ensures Split(a + "," + b) == [a, b]
  {
    var parts := [a, b];
    assert forall k :: 0 <= k < |parts| ==> ',' !in parts[k];
    JoinTwo(a, b);
    SplitJoin(parts);
  }

  lemma SplitThree(a: string, b: string, c: string)
    requires ',' !in a && ',' !in b && ',' !in c
    ensures Split(a + ("," + b + "," + c)) == [a, b, c]
  {
    var parts := [a, b, c];
    assert a + ("," + b + "," + c) == a + "," + b + "," + c;
    assert forall k :: 0 <= k < |parts| ==> ',' !in parts[k];
    JoinThree(a, b, c);
    SplitJoin(parts);
  }

  /** Universal-newline decoding of text read in text mode: "\r\n" and a lone
      "\r" both become "\n". With `UniversalAppend` these cases fix the
      decoding of any text. */
  function Universal(t: string): (r: string)
    ensures '\r' !in r
    decreases |t|
  {
    if |t| == 0 then ""
    else if t[0] == '\r' then
      if |t| > 1 && t[1] == '\n' then "\n" + Universal(t[2..]) else "\n" + Universal(t[1..])
    else
      [t[0]] + Universal(t[1..])
  }

  /** Text without a carriage return decodes to itself. */
  lemma {:induction false} UniversalKeepsPlain(t: string)
    requires '\r' !in t
    ensures Universal(t) == t
    decreases |t|
  {
    if |t| > 0 {
      assert t[0] != '\r' && '\r' !in t[1..];
      UniversalKeepsPlain(t[1..]);
    }
  }

  /** Decoding works piece by piece, as long as the first piece does not end
      in a "\r" that the second piece's "\n" would join. */
  lemma {:induction false} UniversalAppend(a: string, b: string)
    requires |a| == 0 || a[|a| - 1] != '\r'
    ensures Universal(a + b) == Universal(a) + Universal(b)
    decreases |a|
  {
    if |a| == 0 {
      assert a + b == b;
    } else {
      var n := HeadLength(a);
      UniversalHeadAppend(a, b);
      UniversalAppend(a[n..], b);
      var h, u, v := HeadText(a), Universal(a[n..]), Universal(b);
      assert h + (u + v) == (h + u) + v;
    }
  }

  /** How many characters decoding reads at once: two for "\r\n", else one. */
  function HeadLength(t: string): (n: nat)
    requires |t| > 0
    ensures 0 < n <= |t|
  {
    if t[0] == '\r' && |t| > 1 && t[1] == '\n' then 2 else 1
  }

  /** What decoding turns those characters into. */
  function HeadText(t: string): string
    requires |t| > 0
  {
    if t[0] == '\r' then "\n" else [t[0]]
  }

  /** Decoding takes one character, or a "\r\n" pair, off the front. */
  lemma UniversalHead(t: string)
    requires |t| > 0
    ensures Universal(t) == HeadText(t) + Universal(t[HeadLength(t)..])
  {
  }

  /** The first step of decoding `a + b` is the first step of decoding `a`,
      as `a` does not end in a "\r" that `b` could pair with. */
  lemma UniversalHeadAppend(a: string, b: string)
    requires |a| > 0 && a[|a| - 1] != '\r'
    ensures (a + b)[HeadLength(a)..] == a[HeadLength(a)..] + b
    ensures var rest := a[HeadLength(a)..]; |rest| == 0 || rest[|rest| - 1] != '\r'
    ensures Universal(a) == HeadText(a) + Universal(a[HeadLength(a)..])
    ensures Universal(a + b) == HeadText(a) + Universal(a[HeadLength(a)..] + b)
  {
    var n := HeadLength(a);
    assert (a + b)[0] == a[0];
    assert a[0] == '\r' ==> |a| > 1 && (a + b)[1] == a[1];
    assert HeadLength(a + b) == n && HeadText(a + b) == HeadText(a);
    assert (a + b)[n..] == a[n..] + b;
    UniversalHead(a);
    UniversalHead(a + b);
  }

  /** A "\r\n" pair reads as one line feed, whatever surrounds it. */
  lemma PairBreaks(p: string, q: string)
    requires |p| == 0 || p[|p| - 1] != '\r'
    ensures Universal(p + ("\r\n" + q)) == (Universal(p) + "\n") + Universal(q)
  {
    var t := "\r\n" + q;
    assert t[2..] == q;
    UniversalHead(t);
    UniversalAppend(p, t);
  }

  /** A lone "\r" reads as a line feed, whatever surrounds it. */
  lemma LoneBreaks(p: string, q: string)
    requires |p| == 0 || p[|p| - 1] != '\r'
    requires |q| == 0 || q[0] != '\n'
    ensures Universal(p + ("\r" + q)) == (Universal(p) + "\n") + Universal(q)
  {
    var t := "\r" + q;
    assert t[1..] == q;
    UniversalHead(t);
    UniversalAppend(p, t);
  }

  /** The length of the first line of `t`, its "\n" included. */
  function LineLength(t: string): (n: nat)
    requires |t| > 0
    ensures 0 < n <= |t|
    ensures '\n' !in t[..n - 1]
    ensures n < |t| ==> t[n - 1] == '\n'
    decreases |t|
  {
    if t[0] == '\n' || |t| == 1 then 1
    else
      var n := 1 + LineLength(t[1..]);
      assert t[..n - 1] == [t[0]] + t[1..][..n - 2];
      n
  }

  /** The lines a file iteration yields: each keeps its "\n"; the last one may
      lack it; an empty text has no lines. */
  function Lines(t: string): (r: seq<string>)
    ensures Concat(r) == t
    ensures forall k :: 0 <= k < |r| ==> |r[k]| > 0 && '\n' !in r[k][..|r[k]| - 1]
    ensures forall k :: 0 <= k < |r| - 1 ==> r[k][|r[k]| - 1] == '\n'
    decreases |t|
  {
    if |t| == 0 then []
    else
      var n := LineLength(t);
      var rest := Lines(t[n..]);
      LinesCons(t, n, rest);
      [t[..n]] + rest
  }

  /** One more line in front keeps the shape `Lines` promises. */
  lemma LinesCons(t: string, n: nat, rest: seq<string>)
    requires 0 < n <= |t| && '\n' !in t[..n - 1] && (n < |t| ==> t[n - 1] == '\n')
    requires Concat(rest) == t[n..]
    requires forall k :: 0 <= k < |rest| ==> |rest[k]| > 0 && '\n' !in rest[k][..|rest[k]| - 1]
    requires forall k :: 0 <= k < |rest| - 1 ==> rest[k][|rest[k]| - 1] == '\n'
    ensures var r := [t[..n]] + rest;
      && Concat(r) == t
      && (forall k :: 0 <= k < |r| ==> |r[k]| > 0 && '\n' !in r[k][..|r[k]| - 1])
      && (forall k :: 0 <= k < |r| - 1 ==> r[k][|r[k]| - 1] == '\n')
  {
    var r := [t[..n]] + rest;
    assert r[1..] == rest;
    assert t == t[..n] + t[n..];
    assert forall k :: 1 <= k < |r| ==> r[k] == rest[k - 1];
    assert r[0][..n - 1] == t[..n - 1];
    assert |rest| > 0 ==> n < |t|;
  }

  function Concat(ls: seq<string>): string
    decreases |ls|
  {
    if |ls| == 0 then "" else ls[0] + Concat(ls[1..])
  }

  /** The first line ends at the first "\n". */
  lemma {:induction false} LineLengthAt(t: string, m: nat)
    requires 0 < m <= |t|
    requires '\n' !in t[..m - 1] && t[m - 1] == '\n'
    ensures LineLength(t) == m
    decreases m
  {
    if m > 1 {
      assert t[0] == t[..m - 1][0];
      assert t[1..][..m - 2] == t[1..m - 1];
      assert t[..m - 1] == [t[0]] + t[1..m - 1];
      LineLengthAt(t[1..], m - 1);
    }
  }

  /** Text written as lines each ending in "\n" reads back as those lines. */
  lemma {:induction false} LinesOfWritten(ls: seq<string>)
    requires forall k :: 0 <= k < |ls| ==> '\n' !in ls[k]
    ensures Lines(Concat(Terminated(ls))) == Terminated(ls)
    decreases |ls|
  {
    if |ls| > 0 {
      var t := Concat(Terminated(ls));
      var first := ls[0] + "\n";
      assert Terminated(ls)[1..] == Terminated(ls[1..]);
      assert t == first + Concat(Terminated(ls[1..]));
      assert t[..|first|] == first && t[|first|..] == Concat(Terminated(ls[1..]));
      assert t[..|first| - 1] == ls[0];
      LineLengthAt(t, |first|);
      LinesOfWritten(ls[1..]);
    }
  }

  lemma {:induction false} ConcatAppend(a: seq<string>, b: seq<string>)
    ensures Concat(a + b) == Concat(a) + Concat(b)
    decreases |a|
  {
    if |a| == 0 {
      assert a + b == b;
    } else {
      assert (a + b)[1..] == a[1..] + b;
      ConcatAppend(a[1..], b);
    }
  }

  /** No line holds `c`. */
  predicate Free(ls: seq<string>, c: char)
  {
    forall k :: 0 <= k < |ls| ==> c !in ls[k]
  }

  lemma FreeAppend(a: seq<string>, b: seq<string>, c: char)
    requires Free(a, c) && Free(b, c)
    ensures Free(a + b, c)
  {
    assert forall k :: |a| <= k < |a + b| ==> (a + b)[k] == b[k - |a|];
  }

  /** Lines free of a character keep the whole text free of it, apart from
      the line feeds that end them. */
  lemma {:induction false} ConcatFree(ls: seq<string>, c: char)
    requires c != '\n'
    requires forall k :: 0 <= k < |ls| ==> c !in ls[k]
    ensures c !in Concat(Terminated(ls))
    decreases |ls|
  {
    if |ls| > 0 {
      assert Terminated(ls)[1..] == Terminated(ls[1..]);
      ConcatFree(ls[1..], c);
    }
  }

  lemma TerminatedAppend(a: seq<string>, b: seq<string>)
    ensures Terminated(a + b)[..|a|] == Terminated(a)
    ensures Terminated(a + b)[|a|..] == Terminated(b)
  {
    var t := Terminated(a + b);
    assert forall k :: 0 <= k < |b| ==> t[|a|..][k] == t[|a| + k];
    assert forall k :: 0 <= k < |b| ==> (a + b)[|a| + k] == b[k];
  }

  lemma TerminatedTwo(a: string, b: string)
    ensures Terminated([a]) == [a + "\n"]
    ensures Terminated([a, b]) == [a + "\n", b + "\n"]
    ensures Concat([a]) == a
    ensures Concat([a, b]) == a + b
  {
    assert Concat([a]) == a + Concat([]);
    assert [b][1..] == [];
    assert Concat([b]) == b + Concat([]);
    assert [a, b][1..] == [b];
    assert Concat([a, b]) == a + Concat([b]);
  }

  /** Each line followed by "\n". */
  function Terminated(ls: seq<string>): (r: seq<string>)
    ensures |r| == |ls|
    ensures forall k :: 0 <= k < |ls| ==> r[k] == ls[k] + "\n"
  {
    seq(|ls|, k requires 0 <= k < |ls| => ls[k] + "\n")
  }

  lemma TerminatedCons(ls: seq<string>)
    requires |ls| > 0
    ensures Terminated(ls) == [ls[0] + "\n"] + Terminated(ls[1..])
  {
    var l, r := Terminated(ls), [ls[0] + "\n"] + Terminated(ls[1..]);
    forall k | 0 <= k < |l|
      ensures l[k] == r[k]
    {
      if k > 0 {
        assert r[k] == Terminated(ls[1..])[k - 1];
      }
    }
  }

  // ---- number text ----

  predicate IsDigit(c: char)
  {
    '0' <= c <= '9'
  }

  predicate AllDigits(s: string)
  {
    forall k :: 0 <= k < |s| ==> IsDigit(s[k])
  }

  function DigitChar(d: nat): (c: char)
    requires d < 10
    ensures IsDigit(c) && (c as int) - ('0' as int) == d
  {
    ('0' as int + d) as char
  }

  /** The number a digit string denotes. */
  function DigitsValue(s: string): nat
    requires AllDigits(s)
    decreases |s|
  {
    if |s| == 0 then 0
    else DigitsValue(s[..|s| - 1]) * 10 + ((s[|s| - 1] as int) - ('0' as int))
  }

  /** The decimal digits of `n`, as `str(n)` writes them. */
  function NatText(n: nat): (r: string)
    ensures |r| > 0 && AllDigits(r)
    ensures DigitsValue(r) == n
    decreases n
  {
    if n < 10 then [DigitChar(n)]
    else
      var r := NatText(n / 10) + [DigitChar(n % 10)];
      assert r[..|r| - 1] == NatText(n / 10);
      r
  }

  /** `str(i)` for an int. */
  function IntText(i: int): (r: string)
    ensures |r| > 0 && !IsSpace(r[0]) && !IsSpace(r[|r| - 1])
    ensures ',' !in r && '\n' !in r && '\r' !in r
  {
    if i < 0 then "-" + NatText(-i) else NatText(i)
  }

  function Pow10(k: nat): (r: nat)
    ensures r > 0
  {
    if k == 0 then 1 else 10 * Pow10(k - 1)
  }

  /** Decimal text split into its parts: a sign, the value of the integral
      digits and the fractional digits (possibly none). */
  datatype Numeral = Numeral(negative: bool, whole: nat, fraction: string)

  type Decimal = d: Numeral | AllDigits(d.fraction) witness Numeral(false, 0, "")

  /** The text `repr` gives a float: a fraction of at least one digit. */
  type FloatText = d: Decimal | |d.fraction| > 0 witness Numeral(false, 0, "0")

  /** `n / 10^k`. */
  function Scaled(n: nat, k: nat): real
  {
    (n as real) / (Pow10(k) as real)
  }

  function DecimalValue(d: Decimal): real
  {
    var v := d.whole as real + Scaled(DigitsValue(d.fraction), |d.fraction|);
    if d.negative then -v else v
  }

  function DecimalText(d: FloatText): (r: string)
    ensures |r| > 0 && !IsSpace(r[0]) && !IsSpace(r[|r| - 1])
    ensures ',' !in r && '\n' !in r && '\r' !in r
  {
    (if d.negative then "-" else "") + NatText(d.whole) + "." + d.fraction
  }

  /** A leading sign and the rest of the text. */
  function SplitSign(t: string): (bool, string)
  {
    if |t| > 0 && (t[0] == '-' || t[0] == '+') then (t[0] == '-', t[1..]) else (false, t)
  }

  /** Text `int` accepts once stripped: one or more digits, possibly after one sign. */
  predicate IsIntText(t: string)
  {
    || (|t| > 0 && AllDigits(t))
    || (|t| > 1 && (t[0] == '-' || t[0] == '+') && AllDigits(t[1..]))
  }

  /** `int(s)`: optional whitespace, an optional sign, one or more digits. */
  function ParseInt(s: string): (r: Option<int>)
    ensures r.Some? <==> IsIntText(Strip(s))
    ensures r.Some? && AllDigits(Strip(s)) ==> r.value == DigitsValue(Strip(s))
    ensures r.Some? && Strip(s)[0] == '+' ==> r.value == DigitsValue(Strip(s)[1..])
    ensures r.Some? && Strip(s)[0] == '-' ==> r.value == -(DigitsValue(Strip(s)[1..]) as int)
  {
    var (neg, body) := SplitSign(Strip(s));
    if |body| > 0 && AllDigits(body) then
      var v: int := DigitsValue(body);
      Some(if neg then -v else v)
    else None
  }

  function IndexOfDot(s: string): (k: nat)
    ensures k <= |s|
    ensures forall j :: 0 <= j < k ==> s[j] != '.'
    ensures k < |s| ==> s[k] == '.'
    decreases |s|
  {
    if |s| == 0 || s[0] == '.' then 0 else 1 + IndexOfDot(s[1..])
  }

  /** The numeral of plain decimal text as `float(s)` reads it: optional
      whitespace and sign, digits with at most one '.', at least one digit. */
  function ParseDecimal(s: string): Option<Decimal>
  {
    var (neg, body) := SplitSign(Strip(s));
    ReadNumeral(neg, body)
  }

  function ReadNumeral(neg: bool, body: string): (r: Option<Decimal>)
    ensures r.Some? ==> r.value.negative == neg && |r.value.fraction| < |body|
  {
    var k := IndexOfDot(body);
    var whole := body[..k];
    var fraction := if k < |body| then body[k + 1..] else "";
    if AllDigits(whole) && AllDigits(fraction) && |whole| + |fraction| > 0 then
      Some(Numeral(neg, DigitsValue(whole), fraction))
    else None
  }

  /** `float(s)` for plain decimal text. */
  function ParseFloat(s: string): Option<real>
  {
    match ParseDecimal(s)
    case None => None
    case Some(d) => Some(DecimalValue(d))
  }

  /** `int(x)` of a float: truncation toward zero. */
  function Truncate(x: real): (r: int)
    ensures x >= 0.0 ==> r as real <= x < r as real + 1.0
    ensures x < 0.0 ==> r as real - 1.0 < x <= r as real
  {
    if x >= 0.0 then x.Floor else -((-x).Floor)
  }

  /** A text with no whitespace at its ends is its own strip. */
  lemma StripClean(t: string)
    requires |t| == 0 || (!IsSpace(t[0]) && !IsSpace(t[|t| - 1]))
    ensures Strip(t) == t
  {
    StripKeeps(t, "");
    assert t + "" == t;
  }

  /** `int(str(i)) == i` and `float(str(i)) == i`. */
  lemma IntTextParses(i: int)
    ensures ParseInt(IntText(i)) == Some(i)
    ensures ParseDecimal(IntText(i)) == Some(Numeral(i < 0, if i < 0 then -i else i, ""))
    ensures ParseFloat(IntText(i)) == Some(i as real)
  {
    var t := IntText(i);
    StripClean(t);
    var n: nat := if i < 0 then -i else i;
    var body := NatText(n);
    assert SplitSign(t) == (i < 0, body);
    NoDot(body);
    assert body[..|body|] == body;
    assert DecimalValue(Numeral(i < 0, n, "")) == i as real by {
      assert DigitsValue("") == 0 && Pow10(0) == 1;
      assert Scaled(0, 0) == 0.0;
    }
  }

  /** Reading the `repr` text of a float gives back its numeral, and so its value. */
  lemma DecimalTextParses(d: FloatText)
    ensures ParseDecimal(DecimalText(d)) == Some(d)
    ensures ParseFloat(DecimalText(d)) == Some(DecimalValue(d))
  {
    var w := NatText(d.whole);
    StripClean(DecimalText(d));
    DecimalTextSigned(d);
    NumeralOfText(d.negative, w, d.fraction);
  }

  /** The sign of float text comes off to leave the digits. */
  lemma DecimalTextSigned(d: FloatText)
    ensures SplitSign(DecimalText(d)) == (d.negative, NatText(d.whole) + "." + d.fraction)
  {
    var body := NatText(d.whole) + "." + d.fraction;
    SignOf(d.negative, body);
    assert DecimalText(d) == (if d.negative then "-" else "") + body;
  }

  lemma SignOf(neg: bool, body: string)
    requires |body| > 0 && IsDigit(body[0])
    ensures SplitSign((if neg then "-" else "") + body) == (neg, body)
  {
    if neg {
      assert ("-" + body)[1..] == body;
    } else {
      assert "" + body == body;
      assert body[0] != '-' && body[0] != '+';
    }
  }

  lemma NumeralOfText(neg: bool, w: string, f: string)
    requires AllDigits(w) && AllDigits(f) && |f| > 0
    ensures ReadNumeral(neg, w + "." + f) == Some(Numeral(neg, DigitsValue(w), f))
  {
    var body := w + "." + f;
    DotAfter(w, f);
    assert body[..|w|] == w;
    assert body[|w| + 1..] == f;
  }

  lemma NoDot(s: string)
    requires AllDigits(s)
    ensures IndexOfDot(s) == |s|
    decreases |s|
  {
    if |s| > 0 {
      NoDot(s[1..]);
    }
  }

  lemma DotAfter(w: string, f: string)
    requires AllDigits(w)
    ensures IndexOfDot(w + "." + f) == |w|
    decreases |w|
  {
    if |w| > 0 {
      assert (w + "." + f)[1..] == w[1..] + "." + f;
      DotAfter(w[1..], f);
    }
  }
}

=== FILE: timing.dfy ===
/** The smoothing applied to step timings before they are plotted: the mean of
    a window and the rolling mean of a series. Times are exact reals here. */
module Timing {
  import opened Wrappers

  /** The exception Python raises for a division by zero. */
  datatype MathError = ZeroDivision

  /** Python's `sum` over numbers: a left fold of addition starting at 0. */
  function Sum(xs: seq<real>): real
  {
    if |xs| == 0 then 0.0 else Sum(xs[..|xs| - 1]) + xs[|xs| - 1]
  }

  /** The sum divided by the window, which need not be the length of the
      data; a zero window raises. */
  function Mean(data: seq<real>, window: int): (r: Result<real, MathError>)
    ensures r.Failure? <==> window == 0
    ensures r.Success? ==> r.value * window as real == Sum(data)
  {
    if window == 0 then Failure(ZeroDivision) else Success(Sum(data) / window as real)
  }

  /** Python's slice `s[lo:hi]` for bounds that are not negative: both are
      cut back to the length, and a start at or after the stop is empty. */
  function Slice(s: seq<real>, lo: nat, hi: nat): (r: seq<real>)
    ensures lo <= hi <= |s| ==> r == s[lo..hi]
    ensures hi <= lo ==> r == []
    ensures |r| <= |s|
  {
    var a := if lo < |s| then lo else |s|;
    var b := if hi < |s| then hi else |s|;
    if a <= b then s[a..b] else []
  }

  /** Entry `i` of the rolling mean: nothing before the window has filled,
      then the mean of the `window` values before position `i`. For a
      negative window every position counts as filled and its slice is
      empty. */
  function Entry(data: seq<real>, window: int, i: nat): (r: Result<Option<real>, MathError>)
    ensures r.Failure? <==> window == 0
    ensures i < window ==> r == Success(None)
    ensures window < 0 ==> r == Success(Some(0.0))
    ensures 0 < window <= i <= |data| ==> r.Success? && r.value.Some? && r.value.value * window as real == Sum(data[i - window..i])
  {
    if i >= window then
      var lo: nat := i - window;
      match Mean(Slice(data, lo, i), window)
      case Success(m) => Success(Some(m))
      case Failure(e) => Failure(e)
    else Success(None)
  }

  /** The rolling mean of a series: one entry per value, or the error the
      first entry raises. */
  method RollingMean(data: seq<real>, window: int) returns (r: Result<seq<Option<real>>, MathError>)
    ensures r.Failure? <==> window == 0 && |data| > 0
    ensures r.Success? ==> |r.value| == |data|
    ensures r.Success? ==> forall i :: 0 <= i < |data| && i < window ==> r.value[i] == None
    ensures r.Success? && window > 0 ==>
      forall i :: window <= i < |data| ==> r.value[i].Some? && r.value[i].value * window as real == Sum(data[i - window..i])
    ensures r.Success? && window < 0 ==> forall i :: 0 <= i < |data| ==> r.value[i] == Some(0.0)
    ensures r.Success? ==> forall i :: 0 <= i < |data| ==> Entry(data, window, i) == Success(r.value[i])
  {
    var entries: seq<Option<real>> := [];
    for i := 0 to |data|
      invariant window == 0 ==> i == 0
      invariant |entries| == i
      invariant forall k :: 0 <= k < i ==> Entry(data, window, k) == Success(entries[k])
    {
      var e := Entry(data, window, i);
      if e.Failure? {
        return Failure(e.error);
      }
      entries := entries + [e.value];
    }
    return Success(entries);
  }

  /** Adding one value at the front of a sum adds it to the total, though the
      fold starts at the back. */
  lemma {:induction false} SumFront(xs: seq<real>)
    requires |xs| > 0
    ensures Sum(xs) == xs[0] + Sum(xs[1..])
  {
    if |xs| > 1 {
      assert xs[..|xs| - 1][0] == xs[0];
      assert xs[..|xs| - 1][1..] == xs[1..][..|xs[1..]| - 1];
      SumFront(xs[..|xs| - 1]);
    }
  }

  /** A sum of values that all lie between `lo` and `hi` lies between the
      count times `lo` and the count times `hi`. */
  lemma {:induction false} SumBetween(xs: seq<real>, lo: real, hi: real)
    requires forall k :: 0 <= k < |xs| ==> lo <= xs[k] <= hi
    ensures |xs| as real * lo <= Sum(xs) <= |xs| as real * hi
  {
    if |xs| > 0 {
      var init := xs[..|xs| - 1];
      assert forall k :: 0 <= k < |init| ==> init[k] == xs[k];
      SumBetween(init, lo, hi);
    }
  }

  /** With a window of one, each entry after the first repeats the value
      before it. */
  lemma WindowOneRepeats(data: seq<real>, i: nat)
    requires 1 <= i <= |data|
    ensures Entry(data, 1, i) == Success(Some(data[i - 1]))
  {
    assert Sum(data[i - 1..i]) == data[i - 1] by {
      assert data[i - 1..i][..0] == [];
    }
  }

  /** Moving a window one position on adds the value it reaches and drops the
      value it leaves. With `Entry`, whose value times the window is the total
      of its window, this links consecutive entries of the rolling mean. */
  lemma SumSlides(data: seq<real>, a: nat, b: nat)
    requires a < b < |data|
    ensures Sum(data[a + 1..b + 1]) == Sum(data[a..b]) + data[b] - data[a]
  {
    var before, after := data[a..b], data[a + 1..b + 1];
    assert before[1..] == data[a + 1..b];
    assert after[..|after| - 1] == data[a + 1..b];
    assert after[|after| - 1] == data[b];
    SumFront(before);
  }

  /** A value whose multiple by the count is the sum of values between `lo`
      and `hi` lies between them too: a mean stays within its data. */
  lemma MeanBetween(xs: seq<real>, m: real, lo: real, hi: real)
    requires |xs| > 0 && m * |xs| as real == Sum(xs)
    requires forall k :: 0 <= k < |xs| ==> lo <= xs[k] <= hi
    ensures lo <= m <= hi
  {
    assert |xs| as real * lo <= Sum(xs) <= |xs| as real * hi by {
      SumBetween(xs, lo, hi);
    }
    ScaleBetween(m, |xs| as real, Sum(xs), lo, hi);
  }

  /** Each mean lies between the least and the greatest value of its window. */
  lemma MeanWithinWindow(data: seq<real>, window: int, i: nat, lo: real, hi: real)
    requires 0 < window <= i <= |data|
    requires forall k :: i - window <= k < i ==> lo <= data[k] <= hi
    ensures lo <= Entry(data, window, i).value.value <= hi
  {
    var xs := data[i - window..i];
    assert forall k :: 0 <= k < |xs| ==> lo <= xs[k] <= hi by {
      forall k | 0 <= k < |xs| ensures lo <= xs[k] <= hi {
        assert xs[k] == data[i - window + k];
      }
    }
    var m := Entry(data, window, i).value.value;
    assert |xs| == window;
    assert m * |xs| as real == Sum(xs);
    MeanBetween(xs, m, lo, hi);
  }

  lemma ScaleBetween(m: real, w: real, s: real, lo: real, hi: real)
    requires w > 0.0 && m * w == s
    requires w * lo <= s <= w * hi
    ensures lo <= m <= hi
  {
    assert (m - lo) * w == s - w * lo;
    assert (hi - m) * w == w * hi - s;
  }
}

=== FILE: values.dfy ===
/** Token payloads as the scenarios build them: strings, numbers and
    (possibly nested) tuples, plus an opaque case for anything else. */
module Values {
  import opened Wrappers

  datatype Value =
    | Str(s: string)
    | Num(n: int)
    | Tuple(items: seq<Value>)
    | Opaque

  /** `needle` starts at position `i` of `hay`. */
  predicate OccursAt(needle: string, hay: string, i: int)
  {
    0 <= i <= |hay| - |needle| && hay[i..i + |needle|] == needle
  }

  /** `needle` occurs as a contiguous piece of `hay` (Python's `needle in hay` on strings). */
  predicate IsSubstring(needle: string, hay: string)
  {
    exists i :: 0 <= i <= |hay| - |needle| && OccursAt(needle, hay, i)
  }

  /** Python's `name in container`: a substring test on a string, a membership
      test on a tuple, and a TypeError (None) on anything that is not iterable. */
  function Contains(name: string, container: Value): (r: Option<bool>)
    ensures r.Some? <==> (container.Str? || container.Tuple?)
    ensures container.Str? ==> r == Some(IsSubstring(name, container.s))
    ensures container.Tuple? ==> r == Some(Str(name) in container.items)
  {
    match container
    case Str(s) => Some(IsSubstring(name, s))
    case Tuple(items) => Some(Str(name) in items)
    case _ => None
  }
}

=== FILE: view.dfy ===
/** The zoom level of a visualisation and fitting its nodes to the window. */
module View {

  const MinZoom: real := 0.3
  const MaxZoom: real := 3.0
  /** The factor one zoom step multiplies or divides by. */
  const ZoomFactor: real := 1.1
  /** Slack added to the extent of the nodes before fitting. */
  const ContentSlack: real := 50.0

  function Min(a: real, b: real): real
  {
    if a <= b then a else b
  }

  function Max(a: real, b: real): real
  {
    if a >= b then a else b
  }

  /** `max(0.3, min(z, 3.0))`. */
  function Clamp(z: real): (r: real)
    ensures MinZoom <= r <= MaxZoom
    ensures MinZoom <= z <= MaxZoom ==> r == z
    ensures z < MinZoom ==> r == MinZoom
    ensures z > MaxZoom ==> r == MaxZoom
  {
    Max(MinZoom, Min(z, MaxZoom))
  }

  datatype ZoomAction = Reset | Decrease | Increase | Unrecognised

  /** One zoom action; whatever the action, the level ends clamped. */
  function Zoom(level: real, action: ZoomAction): (r: real)
    ensures MinZoom <= r <= MaxZoom
    ensures action == Reset ==> r == 1.0
    ensures action == Unrecognised && MinZoom <= level <= MaxZoom ==> r == level
    ensures action == Increase && MinZoom <= level <= MaxZoom ==> level <= r
    ensures action == Decrease && MinZoom <= level <= MaxZoom ==> r <= level
  {
    match action
    case Reset => Clamp(1.0)
    case Decrease => Clamp(level / ZoomFactor)
    case Increase => Clamp(level * ZoomFactor)
    case Unrecognised => Clamp(level)
  }

  /** Zooming in and then out returns to the level, unless a clamp intervened. */
  lemma IncreaseThenDecrease(level: real)
    requires MinZoom <= level && level * ZoomFactor <= MaxZoom
    ensures Zoom(Zoom(level, Increase), Decrease) == level
  {
    assert Zoom(level, Increase) == level * ZoomFactor;
    assert (level * ZoomFactor) / ZoomFactor == level;
  }

  /** Zooming out and then in returns to the level, unless a clamp intervened. */
  lemma DecreaseThenIncrease(level: real)
    requires MinZoom <= level / ZoomFactor && level <= MaxZoom
    ensures Zoom(Zoom(level, Decrease), Increase) == level
  {
    assert Zoom(level, Decrease) == level / ZoomFactor;
    assert (level / ZoomFactor) * ZoomFactor == level;
  }

  /** At either bound, zooming further in that direction changes nothing. */
  lemma ZoomSaturates()
    ensures Zoom(MaxZoom, Increase) == MaxZoom
    ensures Zoom(MinZoom, Decrease) == MinZoom
  {
  }

  /** A node's box: its centre and its size (a node without its own size has
      the standard 50 by 50). */
  datatype Box = Box(x: real, y: real, width: real, height: real)

  datatype Screen = Screen(width: real, height: real)

  /** The zoom level and the node boxes of a visualisation. */
  datatype Scene = Scene(zoom: real, boxes: seq<Box>)

  function Lefts(bs: seq<Box>): (r: seq<real>)
    ensures |r| == |bs| && forall k :: 0 <= k < |bs| ==> r[k] == bs[k].x - bs[k].width / 2.0
  {
    seq(|bs|, k requires 0 <= k < |bs| => bs[k].x - bs[k].width / 2.0)
  }

  function Rights(bs: seq<Box>): (r: seq<real>)
    ensures |r| == |bs| && forall k :: 0 <= k < |bs| ==> r[k] == bs[k].x + bs[k].width / 2.0
  {
    seq(|bs|, k requires 0 <= k < |bs| => bs[k].x + bs[k].width / 2.0)
  }

  function Tops(bs: seq<Box>): (r: seq<real>)
    ensures |r| == |bs| && forall k :: 0 <= k < |bs| ==> r[k] == bs[k].y - bs[k].height / 2.0
  {
    seq(|bs|, k requires 0 <= k < |bs| => bs[k].y - bs[k].height / 2.0)
  }

  function Bottoms(bs: seq<Box>): (r: seq<real>)
    ensures |r| == |bs| && forall k :: 0 <= k < |bs| ==> r[k] == bs[k].y + bs[k].height / 2.0
  {
    seq(|bs|, k requires 0 <= k < |bs| => bs[k].y + bs[k].height / 2.0)
  }

  /** `min(vs)`. */
  function Least(vs: seq<real>): (r: real)
    requires |vs| > 0
    ensures forall k :: 0 <= k < |vs| ==> r <= vs[k]
    ensures exists k :: 0 <= k < |vs| && r == vs[k]
  {
    if |vs| == 1 then vs[0]
    else
      var rest := Least(vs[1..]);
      assert forall k :: 1 <= k < |vs| ==> vs[k] == vs[1..][k - 1];
      Min(vs[0], rest)
  }

  /** `max(vs)`. */
  function Greatest(vs: seq<real>): (r: real)
    requires |vs| > 0
    ensures forall k :: 0 <= k < |vs| ==> vs[k] <= r
    ensures exists k :: 0 <= k < |vs| && r == vs[k]
  {
    if |vs| == 1 then vs[0]
    else
      var rest := Greatest(vs[1..]);
      assert forall k :: 1 <= k < |vs| ==> vs[k] == vs[1..][k - 1];
      Max(vs[0], rest)
  }

  /** Every box moved by `(dx, dy)`. */
  function Shift(bs: seq<Box>, dx: real, dy: real): (r: seq<Box>)
    ensures |r| == |bs|
    ensures forall k :: 0 <= k < |bs| ==> r[k] == Box(bs[k].x + dx, bs[k].y + dy, bs[k].width, bs[k].height)
  {
    seq(|bs|, k requires 0 <= k < |bs| => Box(bs[k].x + dx, bs[k].y + dy, bs[k].width, bs[k].height))
  }

  /** The width and height of the content: the extent of the boxes plus the slack. */
  function ContentWidth(bs: seq<Box>): real
    requires |bs| > 0
  {
    Greatest(Rights(bs)) - Least(Lefts(bs)) + ContentSlack
  }

  function ContentHeight(bs: seq<Box>): real
    requires |bs| > 0
  {
    Greatest(Bottoms(bs)) - Least(Tops(bs)) + ContentSlack
  }

  /** The zoom at which the content fits the window less the padding, clamped. */
  function FitZoom(width: real, height: real, screen: Screen, padding: real): (r: real)
    requires width != 0.0 && height != 0.0
    ensures MinZoom <= r <= MaxZoom
  {
    Clamp(Min((screen.width - 2.0 * padding) / width, (screen.height - 2.0 * padding) / height))
  }

  /** Whether fitting does anything: there are boxes and the content has extent. */
  predicate Fittable(bs: seq<Box>)
  {
    |bs| > 0 && ContentWidth(bs) != 0.0 && ContentHeight(bs) != 0.0
  }

  /** Fitting the nodes to the window: the zoom is chosen so the content fits
      (within the clamp) and the boxes are moved together so the content is
      centred. With no nodes, or content of no extent, nothing changes. */
  function FitToScreen(scene: Scene, screen: Screen, padding: real): (r: Scene)
    ensures |r.boxes| == |scene.boxes|
    ensures !Fittable(scene.boxes) ==> r == scene
    ensures Fittable(scene.boxes) ==> MinZoom <= r.zoom <= MaxZoom
    ensures exists dx, dy :: r.boxes == Shift(scene.boxes, dx, dy)
  {
    var bs := scene.boxes;
    if !Fittable(bs) then
      assert Shift(bs, 0.0, 0.0) == bs;
      scene
    else
      var z := FitZoom(ContentWidth(bs), ContentHeight(bs), screen, padding);
      Scene(z, Shift(bs, OffsetX(bs, screen, z), OffsetY(bs, screen, z)))
  }

  /** How far fitting moves the boxes: the left (top) edge of the content
      ends up half the leftover window width (height) in. */
  function OffsetX(bs: seq<Box>, screen: Screen, z: real): real
    requires |bs| > 0 && z > 0.0
  {
    (screen.width / z - ContentWidth(bs)) / 2.0 - Least(Lefts(bs))
  }

  function OffsetY(bs: seq<Box>, screen: Screen, z: real): real
    requires |bs| > 0 && z > 0.0
  {
    (screen.height / z - ContentHeight(bs)) / 2.0 - Least(Tops(bs))
  }

  /** What fitting computes for a scene it applies to. */
  lemma Fitted(scene: Scene, screen: Screen, padding: real)
    requires Fittable(scene.boxes)
    ensures var z := FitZoom(ContentWidth(scene.boxes), ContentHeight(scene.boxes), screen, padding);
            FitToScreen(scene, screen, padding) == Scene(z, Shift(scene.boxes, OffsetX(scene.boxes, screen, z), OffsetY(scene.boxes, screen, z)))
  {
  }

  /** Fitting moves all boxes together: the distance between any two is kept,
      and so is every size. */
  lemma FitKeepsShape(scene: Scene, screen: Screen, padding: real, i: nat, j: nat)
    requires i < |scene.boxes| && j < |scene.boxes|
    ensures var r := FitToScreen(scene, screen, padding);
            && r.boxes[i].x - r.boxes[j].x == scene.boxes[i].x - scene.boxes[j].x
            && r.boxes[i].y - r.boxes[j].y == scene.boxes[i].y - scene.boxes[j].y
            && r.boxes[i].width == scene.boxes[i].width && r.boxes[i].height == scene.boxes[i].height
  {
    var r := FitToScreen(scene, screen, padding);
    var dx, dy :| r.boxes == Shift(scene.boxes, dx, dy);
  }

  /** Moving every value by `d` moves the least by `d`. */
  lemma LeastMoves(vs: seq<real>, ws: seq<real>, d: real)
    requires |vs| == |ws| > 0
    requires forall k :: 0 <= k < |vs| ==> ws[k] == vs[k] + d
    ensures Least(ws) == Least(vs) + d
  {
    var i :| 0 <= i < |vs| && Least(vs) == vs[i];
    var j :| 0 <= j < |ws| && Least(ws) == ws[j];
    assert Least(ws) <= ws[i] && Least(vs) <= vs[j];
  }

  lemma LeftsMove(bs: seq<Box>, dx: real, dy: real)
    requires |bs| > 0
    ensures Least(Lefts(Shift(bs, dx, dy))) == Least(Lefts(bs)) + dx
  {
    var vs, ws := Lefts(bs), Lefts(Shift(bs, dx, dy));
    forall k | 0 <= k < |vs| ensures ws[k] == vs[k] + dx {}
    LeastMoves(vs, ws, dx);
  }

  lemma RightsMove(bs: seq<Box>, dx: real, dy: real)
    requires |bs| > 0
    ensures Greatest(Rights(Shift(bs, dx, dy))) == Greatest(Rights(bs)) + dx
  {
    var vs, ws := Rights(bs), Rights(Shift(bs, dx, dy));
    forall k | 0 <= k < |vs| ensures ws[k] == vs[k] + dx {}
    GreatestMoves(vs, ws, dx);
  }

  lemma TopsMove(bs: seq<Box>, dx: real, dy: real)
    requires |bs| > 0
    ensures Least(Tops(Shift(bs, dx, dy))) == Least(Tops(bs)) + dy
  {
    var vs, ws := Tops(bs), Tops(Shift(bs, dx, dy));
    forall k | 0 <= k < |vs| ensures ws[k] == vs[k] + dy {}
    LeastMoves(vs, ws, dy);
  }

  lemma BottomsMove(bs: seq<Box>, dx: real, dy: real)
    requires |bs| > 0
    ensures Greatest(Bottoms(Shift(bs, dx, dy))) == Greatest(Bottoms(bs)) + dy
  {
    var vs, ws := Bottoms(bs), Bottoms(Shift(bs, dx, dy));
    forall k | 0 <= k < |vs| ensures ws[k] == vs[k] + dy {}
    GreatestMoves(vs, ws, dy);
  }

  /** Moving every value by `d` moves the greatest by `d`. */
  lemma GreatestMoves(vs: seq<real>, ws: seq<real>, d: real)
    requires |vs| == |ws| > 0
    requires forall k :: 0 <= k < |vs| ==> ws[k] == vs[k] + d
    ensures Greatest(ws) == Greatest(vs) + d
  {
    var i :| 0 <= i < |vs| && Greatest(vs) == vs[i];
    var j :| 0 <= j < |ws| && Greatest(ws) == ws[j];
    assert ws[i] <= Greatest(ws) && vs[j] <= Greatest(vs);
  }

  /** After fitting, the content (its extent plus the slack) sits in the middle
      of the window as the new zoom shows it: it starts as far from the left
      edge as its slack-extended end is from the right edge, and likewise
      vertically. */
  lemma FitCentres(scene: Scene, screen: Screen, padding: real)
    requires Fittable(scene.boxes)
    ensures var r := FitToScreen(scene, screen, padding);
            && Least(Lefts(r.boxes)) == screen.width / r.zoom - (Greatest(Rights(r.boxes)) + ContentSlack)
            && Least(Tops(r.boxes)) == screen.height / r.zoom - (Greatest(Bottoms(r.boxes)) + ContentSlack)
  {
    var bs := scene.boxes;
    var z := FitZoom(ContentWidth(bs), ContentHeight(bs), screen, padding);
    var dx, dy := OffsetX(bs, screen, z), OffsetY(bs, screen, z);
    Fitted(scene, screen, padding);
    ShiftMovesExtent(bs, dx, dy);
  }

  /** Moving all boxes moves the extent of the content with them. */
  lemma ShiftMovesExtent(bs: seq<Box>, dx: real, dy: real)
    requires |bs| > 0
    ensures Least(Lefts(Shift(bs, dx, dy))) == Least(Lefts(bs)) + dx
    ensures Greatest(Rights(Shift(bs, dx, dy))) == Greatest(Rights(bs)) + dx
    ensures Least(Tops(Shift(bs, dx, dy))) == Least(Tops(bs)) + dy
    ensures Greatest(Bottoms(Shift(bs, dx, dy))) == Greatest(Bottoms(bs)) + dy
  {
    LeftsMove(bs, dx, dy);
    RightsMove(bs, dx, dy);
    TopsMove(bs, dx, dy);
    BottomsMove(bs, dx, dy);
  }

  /** When the clamp leaves the zoom fitting picks alone, the content at that
      zoom fits the window less the padding on both sides, in both
      directions. */
  lemma FitFits(width: real, height: real, screen: Screen, padding: real)
    requires width > 0.0 && height > 0.0
    requires MinZoom <= Min((screen.width - 2.0 * padding) / width, (screen.height - 2.0 * padding) / height) <= MaxZoom
    ensures width * FitZoom(width, height, screen, padding) <= screen.width - 2.0 * padding
    ensures height * FitZoom(width, height, screen, padding) <= screen.height - 2.0 * padding
  {
    var aw, ah := screen.width - 2.0 * padding, screen.height - 2.0 * padding;
    ClampedFits(aw, width, ah / height);
    ClampedFits(ah, height, aw / width);
    assert Min(ah / height, aw / width) == Min(aw / width, ah / height);
  }

  /** Scaling by the unclamped smaller ratio keeps `c` within `a`. */
  lemma ClampedFits(a: real, c: real, other: real)
    requires c > 0.0
    requires MinZoom <= Min(a / c, other) <= MaxZoom
    ensures c * Clamp(Min(a / c, other)) <= a
  {
    assert Clamp(Min(a / c, other)) <= a / c;
    ScaleBelow(Clamp(Min(a / c, other)), a, c);
  }

  lemma ScaleBelow(z: real, a: real, c: real)
    requires c > 0.0 && z <= a / c
    ensures c * z <= a
  {
    assert c * (a / c) == a;
  }

  /** Boxes of no negative size always have content of positive extent, so
      the early return for content of no extent never happens for them. */
  lemma SizedBoxesFit(bs: seq<Box>)
    requires |bs| > 0
    requires forall k :: 0 <= k < |bs| ==> bs[k].width >= 0.0 && bs[k].height >= 0.0
    ensures ContentWidth(bs) >= ContentSlack && ContentHeight(bs) >= ContentSlack
    ensures Fittable(bs)
  {
    assert Least(Lefts(bs)) <= Lefts(bs)[0] <= Rights(bs)[0] <= Greatest(Rights(bs));
    assert Least(Tops(bs)) <= Tops(bs)[0] <= Bottoms(bs)[0] <= Greatest(Bottoms(bs));
  }
}

=== FILE: wrappers.dfy ===
/** Failure-carrying return types used throughout the model in place of
    Python's `None` results and raised exceptions. */
module Wrappers {

  /** Python's optional value: `None` or a present value. */
  datatype Option<+T> = None | Some(value: T)

  /** The outcome of an operation that may raise: a value or the error raised. */
  datatype Result<+T, +E> = Success(value: T) | Failure(error: E)
}
